=== FILE: README.md ===
# ukbb_cardiac batch evaluation and conversion, modelled in Dafny

This project models the control logic of the UK Biobank cardiac analysis
pipeline, the part that decides which subjects are processed, what is
written where, and which numbers end up in the output tables:

- **The resumable short-axis evaluations** (`eval_ventricular_volume.py`,
  `eval_wall_thickness.py`).
  - A run scans the output directory for batch files `<basename>.<NNNN>`
    and takes every subject in their first columns as done.
  - It visits the subject directories in sorted order, skips the done
    ones, and buffers one row per newly evaluated subject.
  - It writes every 500 rows to the next batch file and writes a
    non-empty remainder at the end.
  - The model is a `Driver` class whose fields are the script's loop
    variables. Its methods are proved against functions of the inputs.
  - A subject counts as done only when its id, read back from a batch
    file, equals its directory name. pandas reads a first column of
    all-digit ids back as integers, so those never match. The model reads
    a file's ids back as strings unless every id in it is all digits, and
    then reads back none.
  - The lemmas about those functions prove the following for subject
    names that are not all digits, such as the `<eid>_<num>` directories:
    the next run resumes correctly, writes nothing new and never records
    a subject twice. A run killed part-way leaves a valid checkpoint, and
    rerunning from it completes the same subjects as one uninterrupted
    run. For subjects named by their eid alone, one lemma shows that every
    rerun records them all again.
- **The ventricular formulas.** End-diastole is frame 0, end-systole the
  first frame of smallest LV volume. From these come stroke volume,
  ejection fraction, cardiac output and mass.
- **The aortic evaluation** (`eval_aortic_area2.py`):
  - filtering of implausible pulse pressures;
  - the `<eid>_<visit>` directory pattern;
  - the max/min areas and the distensibility;
  - the one table written at the end.
- **The three DICOM converters.**
  - Shared: the command line and the zip name pattern.
  - `convert_aortic_data.py`: grouping by `<eid>_<num>`, resume by final
    directory, a `.working` directory that is renamed on success, and the
    skip counters.
  - `convert_data2.py`: grouping of long-axis and then short-axis files,
    converted in the dict's insertion order.
  - `convert_data.py`: zips dispatched per subject directory, and contour
    files.
- **The two launchers** (`predict.py`, `predict_ao.py`). Each is modelled
  as the output directory it derives and the ordered plan of steps it
  runs.

Images, quality control and file contents enter as parameters. Examples:
the voxel counts per frame, a subject's QC verdict, whether a DICOM
directory is empty, and a directory listing.

On these points the model follows the code as written:

- The first batch file written into an empty output directory has index 1
  (`max(0, largest suffix) + 1`), not 0.
- A batch file whose suffix is not an integer makes the scan fail.
  `int()` raises on it; the failed scan leaves the directory unchanged.
  Nothing tolerates such a row or file.
- A subject whose inputs are missing, or whose segmentation fails quality
  control, is neither recorded nor counted in `skipped`. Only completed
  subjects count as skipped, so the others are retried on the next run.
- `predict.py` appends `output_csv` to a data directory without a
  converted suffix, with no separator: `/data/ukbb` gives
  `/data/ukbboutput_csv`. `predict_ao.py` appends `.output_csv`. Both are
  modelled as written.

## Model

| member | source | states |
|---|---|---|
| Strings.DigitChar | short_axis/eval_ventricular_volume.py:105 | the character rendered for a digit is a digit character whose value is that digit |
| Strings.Decimal | short_axis/eval_ventricular_volume.py:105 | the decimal rendering of n is a non-empty digit string whose value is n, with no leading zero unless n is 0, and with 1 to 4 digits for n below 10, 100, 1000 and 10000 |
| Strings.ZeroPad4 | short_axis/eval_ventricular_volume.py:105 | `{n:04d}` is a digit string whose value is n: exactly four characters for n below 10000, zeros before the decimal rendering for n below 1000, and the plain decimal rendering from 1000 on |
| Strings.Zeros | short_axis/eval_ventricular_volume.py:105 | the zero padding has the requested length and is all digits |
| Strings.ZerosPrefixValue | short_axis/eval_ventricular_volume.py:105 | leading zeros change neither digit-ness nor value, so `{batch:04d}` keeps the index |
| Strings.ParseZeroPad4 | short_axis/eval_ventricular_volume.py:37 | `int()` of the four-digit padded index gives the index back (round trip) |
| Strings.ParseInt | short_axis/eval_ventricular_volume.py:37 | `int()` of a batch suffix; its meaning is stated by ParseZeroPad4 (a padded index parses back to itself) and Checkpoint.BatchNameIndex |
| Strings.LeadingDigits | aortic/eval_aortic_area2.py:23 | the greedy digit run is an all-digit prefix, followed by a non-digit or the end |
| Strings.LeadingDigitsOf | aortic/eval_aortic_area2.py:23 | a digit run followed by a non-digit is exactly what the greedy run takes |
| Strings.StripTrailingSlash | data/convert_data.py:77-78 | exactly one trailing '/' is removed, and a path without one is unchanged |
| Strings.Basename | short_axis/eval_ventricular_volume.py:30-31 | the base name is the longest suffix of the path without '/'; it is the whole path exactly when the path has no directory part |
| Strings.LexTotal | short_axis/eval_ventricular_volume.py:44 | code-point order on names is total |
| Strings.LexTransitive | short_axis/eval_ventricular_volume.py:44 | code-point order on names is transitive |
| Strings.LexAntisymmetric | short_axis/eval_ventricular_volume.py:44 | two names ordered both ways are equal |
| Sorting.Insert | short_axis/eval_ventricular_volume.py:44 | inserting into a sorted list keeps it sorted and adds exactly the one element |
| Sorting.InsertFrontSorted | short_axis/eval_ventricular_volume.py:44 | an element below the head of a sorted list may be put in front |
| Sorting.InsertBelowHead | short_axis/eval_ventricular_volume.py:44 | inserting behind a smaller head keeps the list sorted |
| Sorting.Sort | short_axis/eval_ventricular_volume.py:44 | `sorted()` returns a sorted permutation of its input |
| Sorting.SortedDistinctStrict | short_axis/eval_ventricular_volume.py:44 | in a sorted list without repeats, later names are strictly greater |
| Sorting.SortKeepsDistinct | short_axis/eval_ventricular_volume.py:44 | sorting a list without repeats gives one without repeats |
| Sorting.RepeatMultiplicity | short_axis/eval_ventricular_volume.py:44 | an element occurring twice has multiplicity at least two |
| Sorting.MultiplicityAtMostOne | short_axis/eval_ventricular_volume.py:44 | in a list without repeats every element occurs at most once |
| Sorting.Visible | short_axis/eval_ventricular_volume.py:44 | the filter keeps exactly the names not starting with '.', and never adds one |
| Sorting.VisibleKeepsDistinct | short_axis/eval_ventricular_volume.py:44 | filtering hidden names keeps a listing free of repeats |
| Measures.Ratio | short_axis/eval_ventricular_volume.py:90-92 | a float division is defined exactly when the divisor is non-zero, and then times the divisor gives the dividend |
| Checkpoint.BatchPrefix | short_axis/eval_ventricular_volume.py:31 | the batch prefix is the base name of `--output_csv` followed by one '.', and holds no '/' |
| Checkpoint.BatchFilesBesideOutput | short_axis/eval_ventricular_volume.py:31-32 | every batch file name is a plain name inside the output directory, and the base name of `--output_csv` is never read as a batch file |
| Checkpoint.BatchName | short_axis/eval_ventricular_volume.py:105 | `f'{output_csv_prefix}{batch:04d}'`; BatchNameIndex states that `int()` of its suffix gives the index back, BatchNameInjective that indices give distinct names |
| Checkpoint.IsBatchFile | short_axis/eval_ventricular_volume.py:32 | the `startswith(output_csv_prefix)` filter; BatchNameIndex states every written name passes it, BatchFilesBesideOutput that the base name itself does not |
| Checkpoint.BatchNameIndex | short_axis/eval_ventricular_volume.py:31-37 | a batch file name starts with the prefix, and `int()` of its suffix is the index it was written under |
| Checkpoint.BatchNameInjective | short_axis/eval_ventricular_volume.py:105 | different indices give different file names, so no batch overwrites another |
| Checkpoint.ScanSucceeds | short_axis/eval_ventricular_volume.py:36-37 | every batch suffix parses as an integer; BatchDriver.ScanComplete states that the scan succeeds exactly then |
| Checkpoint.CompletedIds | short_axis/eval_ventricular_volume.py:40-41 | the ids in the first columns of the batch files; ResumeAfterRun and KilledRunResumes state how a run grows it, MatchableIdsMeaning which of them a scan reads back |
| Checkpoint.NumericId | short_axis/eval_ventricular_volume.py:40-41 | an id pandas reads back as an integer: non-empty and all ASCII digits; MatchableIdsMeaning states that exactly these ids can be lost on read-back |
| Checkpoint.NumericColumn | short_axis/eval_ventricular_volume.py:40-41 | a first column pandas types as integers: every id numeric; NumericFilesMatchNothing states such files match no name |
| Checkpoint.ReadBackIds | short_axis/eval_ventricular_volume.py:40-41 | what one file's first column contributes to `completed_subjects`; BatchDriver.IdsOfFilesSnoc states the scan adds exactly it per file |
| Checkpoint.MatchableIds | short_axis/eval_ventricular_volume.py:40-41 | the ids the scan reads back as strings; MatchableIdsMeaning states they are recorded ids and include every recorded id that is not all digits |
| Checkpoint.MatchableIdsMeaning | short_axis/eval_ventricular_volume.py:40-51 | the ids a scan reads back as strings are recorded ids, and every recorded id that is not all digits is among them |
| Checkpoint.NumericFilesMatchNothing | short_axis/eval_ventricular_volume.py:40-51 | when every batch file's first column is all-digit ids, pandas reads them back as integers and the scan matches no subject name |
| Checkpoint.IsNextBatch | short_axis/eval_ventricular_volume.py:34-42 | one past the largest batch index; NextBatchUnique states it is unique and ScanComplete that the scan computes it |
| Checkpoint.NextBatchUnique | short_axis/eval_ventricular_volume.py:32-42 | the next index, `max(0, largest suffix) + 1`, is uniquely determined |
| Checkpoint.FirstRunStartsAtOne | short_axis/eval_ventricular_volume.py:34-42 | without batch files the scan succeeds, finds no subjects, and the first index is 1 |
| Checkpoint.BatchNames | short_axis/eval_ventricular_volume.py:105-107 | a run writing n files names n of them |
| Checkpoint.Chunks | short_axis/eval_ventricular_volume.py:96-117 | the full 500-row batches and a non-empty remainder; ChunksLayout states that they concatenate to the rows in order, each of at most 500 rows |
| Checkpoint.WriteBatches | short_axis/eval_ventricular_volume.py:96-117 | the files after writing the chunks from an index on; WriteBatchesSnoc, WriteFresh and ResumeAfterRun state which files it adds and what it leaves alone |
| Checkpoint.ChunksSnoc | short_axis/eval_ventricular_volume.py:96-109 | one more row either fills the buffer into a new full batch, leaving it empty, or joins the buffer |
| Checkpoint.ChunksCount | short_axis/eval_ventricular_volume.py:96-117 | a run of n rows writes n div 500 full files, plus one more when n mod 500 rows remain |
| Checkpoint.ChunkAt | short_axis/eval_ventricular_volume.py:96-117 | file i holds rows 500·i up to 500·(i+1); only the last can be shorter, and none is empty |
| Checkpoint.ChunkOfRow | short_axis/eval_ventricular_volume.py:96-117 | row j of a run is row j mod 500 of file j div 500 |
| Checkpoint.RowOfChunk | short_axis/eval_ventricular_volume.py:96-117 | row k of file i is row 500·i + k of the run |
| Checkpoint.ChunksLayout | short_axis/eval_ventricular_volume.py:96-117 | the files of a run: ceil(n/500) of them, each non-empty and at most 500 rows, all but the last full, rows in order |
| Checkpoint.FullChunks | short_axis/eval_ventricular_volume.py:96-109 | the files flushed during the loop; ChunksCount states there are n div 500 of them and FullChunksOfFlushed that they are the chunks of the rows up to the last full batch |
| Checkpoint.Buffered | short_axis/eval_ventricular_volume.py:96-109 | the rows still in `table` at the end of the loop; ChunksCount and BatchDriver.BufferRow state it holds n mod 500 rows |
| Checkpoint.IdsInChunks | short_axis/eval_ventricular_volume.py:96-117 | the files of a run together hold exactly the subjects of its rows |
| Checkpoint.IdsInSnoc | short_axis/eval_ventricular_volume.py:96-117 | the subjects of a list of files are those of all but the last plus those of the last |
| Checkpoint.AddBatchFile | short_axis/eval_ventricular_volume.py:32-42 | writing a file under the next index adds a new name; a new scan succeeds, finds its subjects too, and moves the index one further |
| Checkpoint.BatchNamesDistinct | short_axis/eval_ventricular_volume.py:105-107 | the file names of a run are pairwise different |
| Checkpoint.WriteBatchesSnoc | short_axis/eval_ventricular_volume.py:96-117 | writing one more chunk writes one more file, under the next index |
| Checkpoint.WriteFilesKeys | short_axis/eval_ventricular_volume.py:105 | after the writes, the directory's files are the old ones plus the written names |
| Checkpoint.WriteFilesOthers | short_axis/eval_ventricular_volume.py:105 | a file not written by the run keeps its contents |
| Checkpoint.WriteFilesWritten | short_axis/eval_ventricular_volume.py:105 | with distinct names, the k-th file written holds the k-th chunk |
| Checkpoint.WriteFilesFrame | short_axis/eval_ventricular_volume.py:105 | the writes change the written names and nothing else |
| Checkpoint.BatchNamesFresh | short_axis/eval_ventricular_volume.py:32-42 | no name a run writes from the next index on exists before the run |
| Checkpoint.WriteBatchesStep | short_axis/eval_ventricular_volume.py:96-117 | writing one more chunk keeps the scan succeeding and adds that chunk's subjects |
| Checkpoint.WriteFresh | short_axis/eval_ventricular_volume.py:32-42 | writing chunks from the next index on: a new scan succeeds, finds the old subjects plus those written, and continues after the last index |
| Checkpoint.ResumeAfterRun | short_axis/eval_ventricular_volume.py:32-42 | after a run, a new scan succeeds, its completed set is the old one plus exactly the run's subjects, and it continues after ceil(n/500) new files |
| Checkpoint.RowOrigin | short_axis/eval_ventricular_volume.py:96-117 | every row after a run is either an untouched old file's, or row 500·k + i of the run in its k-th new file |
| Checkpoint.FullChunksOfFlushed | short_axis/eval_ventricular_volume.py:96-109 | the files flushed so far are exactly the batch files of the rows up to the last full batch |
| Checkpoint.KilledRunResumes | short_axis/eval_ventricular_volume.py:32-42 | after a run killed part-way, a new scan succeeds and continues after the files flushed; the ids written are the old ones plus exactly those of the flushed rows, each kept once (whether a later scan reads them back depends on the names, see MatchableIdsMeaning) |
| Checkpoint.RunKeepsIdsUnique | short_axis/eval_ventricular_volume.py:50-53 | a run recording only new subjects, each once, keeps every subject in at most one row of one file |
| BatchDriver.ProducedIds | short_axis/eval_ventricular_volume.py:50-58 | a run records exactly the subjects that are not completed and yield a row, each with its own row |
| BatchDriver.ProducedDistinct | short_axis/eval_ventricular_volume.py:44-58 | visiting a listing without repeats records each subject at most once |
| BatchDriver.Produced | short_axis/eval_ventricular_volume.py:50-58 | the rows a run records, in visiting order; ProducedIds states they are exactly the non-skipped subjects with a row |
| BatchDriver.SkippedCount | short_axis/eval_ventricular_volume.py:50-52 | the `skipped` counter; SkippedCountMeaning states it is zero exactly when no visited subject was done, all of them exactly when every one was, and with the rows recorded never exceeds the subjects visited |
| BatchDriver.SkippedCountMeaning | short_axis/eval_ventricular_volume.py:50-58 | the `skipped` counter is at most the subjects visited, zero or full exactly when none or all were done, and skipped plus processed never exceeds the subjects visited |
| BatchDriver.Evaluated | short_axis/eval_ventricular_volume.py:50-58 | a subject visited, not done and with a row; ProducedIds states a run records exactly these |
| BatchDriver.WithPrefix | short_axis/eval_ventricular_volume.py:32 | the filter keeps exactly the names with the batch prefix, and keeps them distinct |
| BatchDriver.IdsOfFilesSnoc | short_axis/eval_ventricular_volume.py:41 | reading one more file adds the ids of its first column, unless they are all-digit ids, which are read back as integers and match no name |
| BatchDriver.IdsOfBatchFiles | short_axis/eval_ventricular_volume.py:36-41 | reading every listed batch file gives the ids read back as strings (MatchableIds) |
| BatchDriver.ScanStep | short_axis/eval_ventricular_volume.py:37-39 | reading one more suffix keeps `batch` the maximum of 0 and the suffixes read |
| BatchDriver.ScanMaxScanned | short_axis/eval_ventricular_volume.py:34-42 | a scan that gets through the listing has parsed every suffix, and its maximum bounds them all and is 0 or one of them |
| BatchDriver.ReadFileIds | short_axis/eval_ventricular_volume.py:40-41 | the ids read after file i are those before plus what file i's first column reads back as |
| BatchDriver.ScanComplete | short_axis/eval_ventricular_volume.py:32-42 | a scan through all batch files succeeds; its next index is the maximum plus one and its ids are those read back as strings |
| BatchDriver.ListDir | short_axis/eval_ventricular_volume.py:32 | the listing holds every entry of the directory exactly once |
| BatchDriver.ListBatchFiles | short_axis/eval_ventricular_volume.py:32 | the sorted listing of exactly the batch files, without repeats |
| BatchDriver.ReadBatchFiles | short_axis/eval_ventricular_volume.py:34-42 | the scan loop succeeds exactly when every suffix parses; it then yields the next index and the ids read back as strings |
| BatchDriver.ScanBatches | short_axis/eval_ventricular_volume.py:31-42 | the scan of the output directory succeeds exactly when every batch suffix parses; it then yields the next index and the ids read back as strings |
| BatchDriver.BufferRow | short_axis/eval_ventricular_volume.py:96-109 | a row that fills the buffer writes it as the next file and empties it; otherwise the row joins the buffer |
| BatchDriver.RowKeepsLayout | short_axis/eval_ventricular_volume.py:96-109 | buffering a row keeps table, count, batch and the written files in step with the rows so far |
| BatchDriver.RemainderKeepsLayout | short_axis/eval_ventricular_volume.py:111-117 | writing the non-empty remainder, and only that, completes the run's files |
| BatchDriver.Driver.constructor | short_axis/eval_ventricular_volume.py:33-49 | the loop state starts empty: no subjects, index 0, empty buffer, zero counters |
| BatchDriver.Driver.Scan | short_axis/eval_ventricular_volume.py:31-42 | the scan leaves the files alone; it succeeds exactly when every suffix parses, and then sets the skip set to the ids read back as strings and the next index |
| BatchDriver.Driver.Visit | short_axis/eval_ventricular_volume.py:50-58 | one iteration: a completed subject only counts as skipped; a subject without a row changes nothing; otherwise the row is buffered and a full buffer is written |
| BatchDriver.Driver.VisitAll | short_axis/eval_ventricular_volume.py:50-109 | the loop records exactly the produced rows and counts exactly the completed subjects visited |
| BatchDriver.Driver.Finish | short_axis/eval_ventricular_volume.py:111-117 | at the end the output directory holds exactly the files of the run's rows |
| BatchDriver.RunBatches | short_axis/eval_ventricular_volume.py:31-119 | a run fails exactly when the output directory cannot be listed, a batch suffix is not an integer, or the data directory cannot be listed, and then writes nothing; otherwise it skips the ids read back as strings, writes the new rows from the next index on and returns both counters |
| BatchDriver.FlushedEvaluated | short_axis/eval_ventricular_volume.py:50-58 | every subject flushed by a run killed part-way through its order is one a full run over that order evaluates |
| BatchDriver.KillThenRerun | short_axis/eval_ventricular_volume.py:32-58 | a run killed part-way and then rerun over the same subjects ends with the same set of recorded subjects as one uninterrupted run, and the scan between the two succeeds (for all-digit names both runs also re-record earlier subjects) |
| BatchDriver.SameCompleted | short_axis/eval_ventricular_volume.py:32-58 | the recorded sets of the rerun and of the uninterrupted run are equal once the killed run only flushed subjects the full run evaluates and each scan skips only ids already recorded |
| BatchDriver.RunThenScan | short_axis/eval_ventricular_volume.py:32-58 | after a run the recorded set is the old one plus exactly the subjects evaluated, and the index continues past the files written |
| BatchDriver.FailedSubjectRetried | short_axis/eval_ventricular_volume.py:53-58 | a subject without a row is not recorded, so the next run visits it again |
| BatchDriver.SecondRunWritesNothing | short_axis/eval_ventricular_volume.py:50-53 | when no subject name is all digits, a second run over the same subjects with the same outcomes records nothing (idempotent resume) |
| BatchDriver.NothingLeft | short_axis/eval_ventricular_volume.py:50-58 | when every visited subject is completed or has no row, nothing is recorded |
| BatchDriver.NumericSubjectRecordedAgain | short_axis/eval_ventricular_volume.py:40-58 | subjects named by an all-digit eid (the cine converter's directories) are never read back as done: after a run, the next run records every such subject with a row again |
| BatchDriver.RunKeepsOneRowPerSubject | short_axis/eval_ventricular_volume.py:44-58 | when no listed name is all digits, across all batch files each subject keeps at most one row |
| Ventricular.HeartRate | short_axis/eval_ventricular_volume.py:68-69 | heart rate is defined exactly when the cycle duration is non-zero, and then times the duration is 60 |
| Ventricular.VoxelVolume | short_axis/eval_ventricular_volume.py:63-64 | `pixdim[0]·pixdim[1]·pixdim[2]·1e-3`; VoxelVolumePositive states it is positive for positive spacings and 1 mL for a 10 mm cube |
| Ventricular.VoxelVolumePositive | short_axis/eval_ventricular_volume.py:63-64 | positive spacings give a positive voxel volume, and a 10 mm cube is 1 mL |
| Ventricular.Scale | short_axis/eval_ventricular_volume.py:86-92 | scaling keeps a value defined exactly when it was, and multiplies it |
| Ventricular.LvCurve | short_axis/eval_ventricular_volume.py:74-76 | the LV volume of each frame is its LV voxel count times the voxel volume |
| Ventricular.FirstArgMin | short_axis/eval_ventricular_volume.py:77 | `np.argmin` returns a smallest element, the first of them |
| Ventricular.EsFrame | short_axis/eval_ventricular_volume.py:77 | the ES frame is a frame of the cine |
| Ventricular.VentricularRow | short_axis/eval_ventricular_volume.py:53-58 | a subject gets a ten-value row exactly when both images exist |
| Ventricular.MeasureVolumes | short_axis/eval_ventricular_volume.py:64-84 | the LV/RV volumes at ED and ES and the LV mass; LvStrokeVolumeNonNegative states that LV ED volume is at least LV ES volume, and ExampleVolumes gives them on one concrete cine |
| Ventricular.RowOfVolumes | short_axis/eval_ventricular_volume.py:80-95 | the output row; RowCells states each cell's formula and LvEjectionFractionBounded its range |
| Ventricular.VolumeRow | short_axis/eval_ventricular_volume.py:61-95 | the row of one subject's images; LvStrokeVolumeNonNegative, LvEjectionFractionBounded and EjectionFractionExample state its cells |
| Ventricular.Percentage | short_axis/eval_ventricular_volume.py:88-92 | a percentage is defined exactly for a non-zero divisor, and then times the divisor gives 100 times the dividend |
| Ventricular.RowCells | short_axis/eval_ventricular_volume.py:80-95 | cell by cell: SV = EDV − ESV, EF = SV/EDV in percent, CO = SV·HR/1000, and each other cell a measured volume |
| Ventricular.LvStrokeVolumeNonNegative | short_axis/eval_ventricular_volume.py:74-86 | ES is the frame of least LV volume, frame 0 included, so LVSV ≥ 0 |
| Ventricular.LvEjectionFractionBounded | short_axis/eval_ventricular_volume.py:74-92 | with a non-empty ED cavity, LVEF is defined and between 0 and 100 |
| Ventricular.FractionBounded | short_axis/eval_ventricular_volume.py:88 | a percentage of a part of a positive whole lies between 0 and 100 |
| Ventricular.SameOrderSameArgMin | short_axis/eval_ventricular_volume.py:77 | curves that compare alike have the same argmin |
| Ventricular.ScaledArgMin | short_axis/eval_ventricular_volume.py:74-77 | a positive voxel volume does not move the ES frame: it is the frame of fewest LV voxels |
| Ventricular.ScaleOrder | short_axis/eval_ventricular_volume.py:76 | multiplying by a positive constant keeps the order |
| Ventricular.EsFrameExample | short_axis/eval_ventricular_volume.py:77 | the curve 100, 80, 60, 70, 90 has its ES frame at 2 |
| Ventricular.EjectionFractionExample | short_axis/eval_ventricular_volume.py:68-92 | an LV of 120 mL at ED and 40 mL at ES, at 60 beats per minute: SV 80 mL, EF 200/3 %, CO 4.8 L/min |
| Ventricular.ExampleVolumes | short_axis/eval_ventricular_volume.py:64-84 | on a two-frame cine with 1 mL voxels the ES frame is 1 and the heart rate 60 |
| Ventricular.RvStrokeVolumeCanBeNegative | short_axis/eval_ventricular_volume.py:77-89 | ES is chosen on the LV alone, so the RV stroke volume can be negative |
| Ventricular.EvaluateVentricularVolume | short_axis/eval_ventricular_volume.py:18-119 | the script fails, writing nothing, when `--output_csv` has no directory part, a directory is missing or a suffix is not an integer; otherwise it writes the ventricular rows of the subjects not read back as done that have both images, in batches named from the base name of `--output_csv`, from the next index on |
| WallThickness.WallThicknessRow | short_axis/eval_wall_thickness.py:59-76 | a row exists exactly when the ED segmentation exists, passes QC and the thickness file exists; the row is its column |
| WallThickness.EvaluateWallThickness | short_axis/eval_wall_thickness.py:30-104 | the script fails, writing nothing, when `--output_csv` has no directory part, a directory is missing or a suffix is not an integer; otherwise it writes the thickness rows of the subjects not read back as done, in batches named from the base name of `--output_csv`, from the next index on |
| WallThickness.QcFailureRetried | short_axis/eval_wall_thickness.py:59-63 | a subject with a missing or failed ED segmentation is not recorded, so it is retried |
| Aortic.Plausible | aortic/eval_aortic_area2.py:61-62 | pressures below 10 mmHg become missing, the others are kept, and no eid is added or dropped |
| Aortic.PlausibleValue | aortic/eval_aortic_area2.py:62 | one pressure after the mask; Plausible's contract states below 10 mmHg becomes missing and the rest is kept |
| Aortic.DiscardImplausible | aortic/eval_aortic_area2.py:62 | the masked assignment, element by element, yields the filtered table |
| Aortic.ParseSubjectDirMatches | aortic/eval_aortic_area2.py:73-77 | a directory name parses exactly when it matches `(\d+)_(\d+)`, and the eid is the value of the first group |
| Aortic.ParseSubjectDirExample | aortic/eval_aortic_area2.py:73-77 | "1234567_2" has eid 1234567 |
| Aortic.ParseSubjectDirRejects | aortic/eval_aortic_area2.py:73-76 | "abc_2" and "1234567_" are skipped |
| Aortic.ParseSubjectDir | aortic/eval_aortic_area2.py:73-77 | the `<eid>_<visit>` match; ParseSubjectDirMatches states both directions of the pattern |
| Aortic.MatchesDataPattern | aortic/eval_aortic_area2.py:23 | the reference for `DATA_PATTERN.match`: a digit run, '_', a digit run at the start; ParseSubjectDirMatches states ParseSubjectDir accepts exactly these names |
| Aortic.AreaCurve | aortic/eval_aortic_area2.py:85-86 | each frame's area is its label's voxel count times dx·dy |
| Aortic.MaxOf | aortic/eval_aortic_area2.py:101 | the maximum is an element and bounds all elements |
| Aortic.MinOf | aortic/eval_aortic_area2.py:102 | the minimum is an element and is bounded by all elements |
| Aortic.Distensibility | aortic/eval_aortic_area2.py:109 | defined exactly for a present pressure and a non-zero divisor; then times min·pp it gives 1000·(max − min) |
| Aortic.AorticEntry | aortic/eval_aortic_area2.py:73-94 | a directory gets a row exactly when its name matches, both files exist and QC passes |
| Aortic.CurveCellsMeaning | aortic/eval_aortic_area2.py:98-109 | a label's five cells: max and min are frame areas bounding all frames, the diameters are of those areas, and the distensibility is as above |
| Aortic.CurveCells | aortic/eval_aortic_area2.py:98-109 | the cells of one area curve; CurveCellsMeaning states the max, the min, the diameters and the distensibility |
| Aortic.LabelCells | aortic/eval_aortic_area2.py:98-100 | the cells of one label's area curve; AorticRowLayout states its place in the row and CurveCellsMeaning its five cells |
| Aortic.AorticRowLayout | aortic/eval_aortic_area2.py:111-112 | a row is the five ascending cells, then the five descending, and max area ≥ min area |
| Aortic.AorticRow | aortic/eval_aortic_area2.py:111-112 | the row of one subject; AorticRowLayout states its ten cells, the ascending aorta's five before the descending aorta's, each maximum at least its minimum |
| Aortic.DistensibilityNonNegative | aortic/eval_aortic_area2.py:109 | with positive areas and pressure, distensibility is defined and non-negative |
| Aortic.DistensibilityExample | aortic/eval_aortic_area2.py:109 | areas 900 and 600 at 48 mmHg give 125/12 |
| Aortic.MissingPressureKeepsAreas | aortic/eval_aortic_area2.py:81 | a subject without a plausible pressure still gets areas, but no distensibility |
| Aortic.EvaluateAorticArea | aortic/eval_aortic_area2.py:58-120 | the script fails with no table when the pressure file cannot be read or the data directory cannot be listed; otherwise the table is the filtered rows of the sorted listing, hidden names included |
| Aortic.AorticTableIds | aortic/eval_aortic_area2.py:65-114 | the table holds exactly the matching, present, QC-passing subjects, each once |
| Aortic.SortedTableIds | aortic/eval_aortic_area2.py:65-114 | a table over the sorted listing holds the names with a row, each once |
| Ingest.ParseConvertArgs | data/convert_aortic_data.py:43-45 | the command line is accepted exactly with one or two arguments |
| Ingest.ConvertArgsPaths | data/convert_aortic_data.py:71-75 | one trailing '/' is removed, and the output directory defaults to `<data_path>.converted` |
| Ingest.ConvertArgsExample | data/convert_aortic_data.py:43-75 | "/data/" gives "/data" and "/data.converted"; "/data//" keeps one slash; no argument is a usage error |
| Ingest.MatchZipSound | data/convert_aortic_data.py:38 | every accepted zip name has the pattern's shape, and the key joins its two digit groups |
| Ingest.MatchZipComplete | data/convert_data2.py:38 | every name of the pattern's shape is accepted with the key of its digit groups |
| Ingest.MatchZipName | data/convert_aortic_data.py:38 | the zip name regex; MatchZipSound and MatchZipComplete state both directions against the pattern |
| Ingest.ZipShape | data/convert_aortic_data.py:38 | the reference for the zip regex; MatchZipSound and MatchZipComplete state MatchZipName accepts exactly these names, with key `<eid>_<num>` |
| Ingest.EidPart | data/convert_aortic_data.py:38 | on a name of the shape, the first digit run is the eid, followed by `_<code>_` |
| Ingest.NumPart | data/convert_aortic_data.py:38 | on a name of the shape, the second digit run is num, followed by `_0`, any character and `zip` |
| Ingest.GroupedLists | data/convert_aortic_data.py:90-100 | the grouping loop appends each matching file to its key's list in listing order; new keys go to the end and the dict stays well formed |
| Ingest.AddZipStep | data/convert_aortic_data.py:98-100 | one append extends one key's list, keeps the others and keeps the key order |
| Ingest.MatchingMembers | data/convert_aortic_data.py:92-99 | a path is in a key's list exactly when it joins a listed name of that key |
| Ingest.JoinPathInjective | data/convert_aortic_data.py:99 | joining under one directory keeps names apart |
| Ingest.MatchingDistinct | data/convert_aortic_data.py:92-99 | a listing without repeats puts each file into its key's list once |
| Ingest.GroupZips | data/convert_aortic_data.py:90-100 | the grouping loop computes the grouped dict |
| Ingest.Grouped | data/convert_aortic_data.py:90-100 | the dict after the loop over a listing; GroupedLists states each key's list is its matching paths in listing order, new keys last |
| Ingest.AddZip | data/convert_aortic_data.py:98-100 | one `zip_list.append` and dict update; AddZipStep states it extends one key's list and keeps the rest |
| Ingest.JoinPath | data/convert_aortic_data.py:99 | `os.path.join`, adding '/' only when the directory does not end in one; JoinPathInjective states it keeps names apart and JoinPathExample gives its value with and without a trailing '/' |
| Ingest.JoinPathExample | data/convert_aortic_data.py:99 | "/data/" and "/data" join "123" to the same "/data/123", and an empty directory leaves the name unchanged |
| ConvertAortic.SumAppend | data/convert_aortic_data.py:108-112 | the total of concatenated counts is the sum of the totals |
| ConvertAortic.SkipReportsSum | data/convert_aortic_data.py:102-112 | every printed skip count is positive, and together they count every done key exactly once |
| ConvertAortic.SkipReports | data/convert_aortic_data.py:102-168 | the counts printed by the loop and after it; SkipReportsSum states each is positive and together they count the done keys |
| ConvertAortic.AfterRunState | data/convert_aortic_data.py:104-162 | after a run a key has a final directory exactly when it had one or was visited with DICOM data; an empty one keeps its `.working` directory |
| ConvertAortic.VisitKey | data/convert_aortic_data.py:104-162 | one key of the loop; AfterRunState states the resulting final and working directories |
| ConvertAortic.AfterRun | data/convert_aortic_data.py:104-162 | the output directory after the loop; AfterRunState states which keys end final and which stay working |
| ConvertAortic.ConvertKeys | data/convert_aortic_data.py:102-168 | the loop over the sorted keys produces the run's output directory and the skip counts printed |
| ConvertAortic.ConvertAorticData | data/convert_aortic_data.py:43-168 | a bad command line or missing aorta directory calls `exit(-1)` (status 255) and changes nothing; otherwise the keys are grouped and converted in sorted order |
| ConvertAortic.SecondRunConvertsNothing | data/convert_aortic_data.py:104-109 | a second run over the same keys with the same outcomes adds no final directory |
| ConvertAortic.EmptyDicomRetried | data/convert_aortic_data.py:147-151 | a key without DICOM files gets no final directory, so the next run tries it again |
| ConvertCine.ConvertedMembers | data/convert_data2.py:127-165 | a key is converted exactly when it is in the dict and its DICOM directory is not empty |
| ConvertCine.Converted | data/convert_data2.py:127-165 | the keys converted, in order; ConvertedMembers states they are exactly the keys with a non-empty DICOM directory |
| ConvertCine.ConvertInOrder | data/convert_data2.py:127-170 | every key gets its output directory; the non-empty ones are converted in dict order |
| ConvertCine.ConvertCineData | data/convert_data2.py:44-170 | a bad command line or a missing directory calls `exit(-1)` (status 255) and does nothing; otherwise long-axis and then short-axis files are grouped and converted |
| ConvertCine.LongAxisFirst | data/convert_data2.py:103-124 | each key's list holds its long-axis files before its short-axis ones; keys are distinct, and those first met in the long-axis listing come first |
| ConvertCine.CineGroups | data/convert_data2.py:103-124 | the dict after both loops; LongAxisFirst states that its keys are distinct, are exactly those matched in either directory, and start with the long-axis keys in order |
| ConvertSubjects.Dispatch | data/convert_data.py:94-103 | every extracted zip is a listed `<eid>_*.zip`, and goes to the subject directory exactly when it is `<eid>_cvi42.zip` |
| ConvertSubjects.GlobMatch | data/convert_data.py:94 | the glob `<eid>_*.zip`; Dispatch's contract and DispatchComplete state exactly the matching entries are extracted |
| ConvertSubjects.Cvi42Zip | data/convert_data.py:100 | `<eid>_cvi42.zip`; Dispatch's contract states exactly this archive goes to the subject directory |
| ConvertSubjects.DispatchComplete | data/convert_data.py:94-99 | every zip the glob finds is extracted |
| ConvertSubjects.DispatchZips | data/convert_data.py:99-103 | the dispatch loop computes the extraction plan |
| ConvertSubjects.ContoursDir | data/convert_data.py:119-128 | a contour directory is used exactly when the `.cvi42wsx` file exists, and it is `<data_dir>/cvi42_contours` |
| ConvertSubjects.RunsFollowDirs | data/convert_data.py:85-135 | the visited subjects are the directories of the listing, in order; each is converted exactly when its DICOM directory is not empty |
| ConvertSubjects.Runs | data/convert_data.py:85-135 | the subjects visited; RunsFollowDirs states they are the directory entries of the sorted listing, in order |
| ConvertSubjects.DirsSorted | data/convert_data.py:85-88 | the visited directories are sorted and are exactly the listed directories |
| ConvertSubjects.Dirs | data/convert_data.py:85-88 | the listed names that are directories, in order; DirsSorted states they are sorted and exactly the listed directories |
| ConvertSubjects.ConvertData | data/convert_data.py:40-140 | a bad command line calls `exit(-1)` (status 255) and does nothing; a data directory that cannot be listed raises (status 1) before any subject; otherwise every subject directory is visited in sorted order |
| LaunchPlan.ConvertedBase | predict.py:41-42 | removing the ten-character converted suffix leaves a prefix of the directory, from which `.converted` rebuilds it |
| LaunchPlan.HasConvertedSuffix | predict.py:41 | the three converted suffixes; ConvertedBase and OutputCsvDirShape state how the table directory depends on it |
| LaunchPlan.TablePath | predict.py:60-61 | every table path lies inside the table directory |
| Predict.OutputCsvDirShape | predict.py:41-44 | the table directory is never the data directory; a converted directory gives a sibling, any other one gets `output_csv` glued on |
| Predict.OutputCsvDirGlued | predict.py:43-44 | "/data/ukbb" gives "/data/ukbboutput_csv" |
| Predict.OutputCsvDir | predict.py:41-44 | the table directory; OutputCsvDirShape states its form |
| Predict.WithoutStrain | predict.py:68-72 | removing the strain steps keeps exactly the other steps |
| Predict.ShortAxisSteps | predict.py:53-66 | the short-axis deploy and the two evaluations; FixedStepsNotStrain states it has no strain step and PlanOrder its order |
| Predict.LongAxisSteps | predict.py:79-95 | the three long-axis deploys and the atrial evaluation; FixedStepsNotStrain states it has no strain step and PlanOrder its order |
| Predict.StrainStep | predict.py:69-72 | a strain evaluation guarded by `shutil.which('mirtk')`; StrainStepDropped and PlanShape state it is the only optional part |
| Predict.WithoutStrainAppend | predict.py:68-101 | removing strain steps distributes over concatenation |
| Predict.WithoutStrainKeeps | predict.py:55-95 | a plan without strain steps is unchanged by removing them |
| Predict.FixedStepsNotStrain | predict.py:55-95 | the short-axis and long-axis steps are never strain steps |
| Predict.StrainStepDropped | predict.py:68-72 | a strain step, if present, is removed |
| Predict.PlanShape | predict.py:55-101 | the full plan has nine steps; without `mirtk` it has seven, the full plan minus its two strain steps |
| Predict.NoAorticStep | predict.py:103-116 | every step uses the data directory, and no step deploys the aorta network or reads a pressure table |
| Predict.PlanOrder | predict.py:55-101 | every evaluation comes after the networks it reads from, and every table goes into the table directory |
| Predict.Plan | predict.py:55-101 | the steps run; PlanShape and PlanOrder state which steps and in what order |
| Predict.Run | predict.py:25-44 | exactly one argument is accepted; the plan runs on the data directory without its trailing slash |
| PredictAo.OutputCsvDirShape | predict_ao.py:42-45 | the table directory ends in `.output_csv` and is never the data directory; a converted directory gives the sibling that shares its base |
| PredictAo.OutputCsvDir | predict_ao.py:42-45 | the table directory; OutputCsvDirShape states its form |
| PredictAo.PlanShape | predict_ao.py:56-62 | two steps: the evaluation reads the aorta network deployed before it, passes the pressure table through, and writes into the table directory |
| PredictAo.Plan | predict_ao.py:56-62 | the steps run; PlanShape states them in order |
| PredictAo.Run | predict_ao.py:25-45 | exactly two arguments are accepted; the table directory is the one derived from the data directory without its trailing slash, ends in `.output_csv`, and the pressure table is passed as given |

## Left out

- NIfTI loading, pandas CSV reading and writing, and the column headers are not modelled. An image header is its spacing, frame count and frame duration; a segmentation is its voxel counts per frame and label; a batch file is its rows.
- The quality-control checks (`sa_pass_quality_control`, `aorta_pass_quality_control`) and `evaluate_wall_thickness` live in a library that is not part of this model. Their verdicts and the thickness file's column are inputs.
- Floating point is modelled by reals. NaN and infinity from a division by zero are `Undefined`. Rounding is not modelled.
- Aortic.CurveCellsMeaning: the diameter `2·sqrt(area/π)` is a parameter `diameterOf`, because square root and π have no exact real counterpart here. The lemma only states that the diameter cells are `diameterOf` of the max and min areas.
- Type inference when pandas reads a batch file back is modelled for one case only: a first column whose ids are all ASCII digits comes back as integers and matches no name. Not modelled: ids read as floats or signed numbers, NA-like strings such as `NA` read as missing, and mixed columns of other kinds.
- Python `int()` also accepts surrounding whitespace, underscores between digits and non-ASCII digits. The model accepts an optional sign followed by ASCII digits only. Likewise, regex `\d` is ASCII digits here.
- A pressure table with a duplicated eid (where `.loc` returns a series) is not modelled. The pressure table is a map from eid to one value.
- WallThickness.WallThicknessRow: the row has as many values as the thickness file's column. The 17 column names given to pandas at flush time are not checked against it, so the error pandas raises on a row of another length is not modelled.
- Whether a directory or file can be read is an input, not a file-system state. These inputs are `outputDirExists` and `dataDirExists` for the short-axis runs, `pressureReadable` and `dataDirExists` for the aortic run, and `dataDirExists` for `ConvertData`. The other converters check their directories explicitly. The launchers list no directory.
- The order in which `os.listdir` and `glob.glob` return names is an input. `sorted()` is modelled by code-point order.
- Unzipping, the manifest, series grouping, contour parsing and DICOM-to-NIfTI conversion are not modelled. Whether a DICOM directory comes out empty is an input.
- Creating directories is modelled only where it decides resume: the aortic converter's final and `.working` directories, and the cine converter's set of output directories. Not modelled: the temporary directory, `convert_data.py`'s output directories, and the launchers' table directory.
- Progress messages are not modelled, except the counters: `processed`/`skipped` of the short-axis scripts and the skip counts of the aortic converter.
- The launchers' environment strings (PYTHONPATH, the GPU id), process spawning, exit statuses of the steps and `shutil.which` are not modelled. Whether `mirtk` is installed is an input.
- The scripts the launchers run for deployment, strain and atrial volumes are not part of this model; only their place in the plan is.

=== FILE: aortic.dfy ===
/** Aortic area and distensibility, `aortic/eval_aortic_area2.py`: one row
    per subject directory named `<eid>_<visit>` whose aorta image and
    segmentation exist and pass quality control, with the ascending
    (label 1) and descending (label 2) aorta measured on every frame and the
    central pulse pressure looked up by eid. The whole table is written
    once, at the end; there is no batching and no resume. */
module Aortic {
  import opened Wrappers
  import opened Strings
  import opened Measures
  import opened Sorting
  import opened Checkpoint
  import opened BatchDriver

  /** Central pulse pressures below this (mmHg) are implausible. */
  const MinPulsePressure: real := 10.0

  /** A pressure after the plausibility filter: values below the threshold
      become missing; missing values stay missing. */
  function PlausibleValue(m: Measure): Measure {
    if m.Num? && m.value < MinPulsePressure then Undefined else m
  }

  /** The pressure column after the filter, eid by eid. */
  function Plausible(pp: map<int, Measure>): (r: map<int, Measure>)
    ensures r.Keys == pp.Keys
    ensures forall e :: e in r && r[e].Num? ==> r[e].value >= MinPulsePressure
    ensures forall e :: e in pp && pp[e].Num? && pp[e].value >= MinPulsePressure ==> r[e] == pp[e]
    ensures forall e :: e in pp && !(pp[e].Num? && pp[e].value >= MinPulsePressure) ==> r[e] == Undefined
  {
    map e | e in pp :: PlausibleValue(pp[e])
  }

  /** The masked assignment that discards implausible pressures, element by
      element. */
  method DiscardImplausible(pp: map<int, Measure>) returns (r: map<int, Measure>)
    ensures r == Plausible(pp)
  {
    r := pp;
    var todo := pp.Keys;
    while todo != {}
      invariant todo <= pp.Keys && r.Keys == pp.Keys
      invariant forall e :: e in todo ==> r[e] == pp[e]
      invariant forall e :: e in pp && e !in todo ==> r[e] == PlausibleValue(pp[e])
      decreases todo
    {
      assert (forall x :: x !in todo) ==> todo == {};
      var e :| e in todo;
      if r[e].Num? && r[e].value < MinPulsePressure {
        r := r[e := Undefined];
      }
      todo := todo - {e};
    }
    assert forall e :: e in r ==> r[e] == Plausible(pp)[e];
  }

  /** `(\d+)_(\d+)` matched at the start of a name: a run of digits, an
      underscore, and at least one more digit; anything may follow. */
  predicate MatchesDataPattern(name: string) {
    exists i :: 0 < i < |name| - 1 && AllDigits(name[..i]) && name[i] == '_' && IsDigit(name[i + 1])
  }

  /** The eid of a subject directory: the value of its leading digits, when
      the name matches the pattern. */
  function ParseSubjectDir(name: string): Option<nat> {
    var d := LeadingDigits(name);
    if 0 < |d| && |d| + 1 < |name| && name[|d|] == '_' && IsDigit(name[|d| + 1]) then Some(DecimalValue(d))
    else None
  }

  /** A name parses exactly when it matches the pattern, and then the eid
      is the value of the first digit group. */
  lemma ParseSubjectDirMatches(name: string)
    ensures ParseSubjectDir(name).Some? <==> MatchesDataPattern(name)
    ensures ParseSubjectDir(name).Some? ==>
      exists i :: 0 < i < |name| - 1 && AllDigits(name[..i]) && name[i] == '_' &&
        ParseSubjectDir(name).value == DecimalValue(name[..i])
  {
    var d := LeadingDigits(name);
    if MatchesDataPattern(name) {
      var i :| 0 < i < |name| - 1 && AllDigits(name[..i]) && name[i] == '_' && IsDigit(name[i + 1]);
      assert name == name[..i] + name[i..];
      LeadingDigitsOf(name[..i], name[i..]);
    }
    if ParseSubjectDir(name).Some? {
      assert name[..|d|] == d;
    }
  }

  /** A directory name parsed by the pattern, as in "1234567_2": eid 1234567. */
  lemma ParseSubjectDirExample()
    ensures ParseSubjectDir("1234567_2") == Some(1234567)
  {
    LeadingDigitsOf("1234567", "_2");
    assert "1234567_2" == "1234567" + "_2";
    assert DecimalValue("1234567") == 1234567 by {
      assert "1234567"[..6] == "123456" && "123456"[..5] == "12345" && "12345"[..4] == "1234";
      assert "1234"[..3] == "123" && "123"[..2] == "12" && "12"[..1] == "1" && "1"[..0] == "";
    }
  }

  /** A name without leading digits, or with nothing after the underscore,
      is not a subject directory. */
  lemma ParseSubjectDirRejects()
    ensures ParseSubjectDir("abc_2") == None
    ensures ParseSubjectDir("1234567_") == None
  {
    LeadingDigitsOf("1234567", "_");
    assert "1234567_" == "1234567" + "_";
    LeadingDigitsOf("", "abc_2");
    assert "abc_2" == "" + "abc_2";
  }

  /** The two labels of the aorta segmentation. */
  datatype AortaPart = Ascending | Descending

  /** Voxels of each aorta label in one frame of `seg_ao.nii.gz`. */
  datatype AoFrame = AoFrame(ascending: nat, descending: nat)

  /** An aorta cine has at least one frame. */
  type AoCine = s: seq<AoFrame> | |s| > 0 witness [AoFrame(0, 0)]

  /** What the script reads from a subject's aorta image and segmentation:
      the in-plane pixel spacing in mm, the quality-control verdict, and the
      voxel counts per frame. */
  datatype AoScan = AoScan(dx: real, dy: real, passesQc: bool, frames: AoCine)

  /** A subject directory: whether `ao.nii.gz` and `seg_ao.nii.gz` exist, and
      what they hold. */
  datatype AoSubject = AoSubject(hasImage: bool, hasSeg: bool, scan: AoScan)

  function LabelCount(f: AoFrame, part: AortaPart): nat {
    match part
    case Ascending => f.ascending
    case Descending => f.descending
  }

  /** The area of one label in every frame, in mm^2. */
  function AreaCurve(scan: AoScan, part: AortaPart): (a: seq<real>)
    ensures |a| == |scan.frames|
    ensures forall t :: 0 <= t < |a| ==> a[t] == LabelCount(scan.frames[t], part) as real * (scan.dx * scan.dy)
  {
    seq(|scan.frames|, t requires 0 <= t < |scan.frames| => LabelCount(scan.frames[t], part) as real * (scan.dx * scan.dy))
  }

  /** `A.max()`: an element no other element exceeds. */
  function MaxOf(a: seq<real>): (m: real)
    requires |a| > 0
    ensures m in a
    ensures forall t :: 0 <= t < |a| ==> a[t] <= m
  {
    if |a| == 1 then a[0]
    else
      var m := MaxOf(a[..|a| - 1]);
      assert forall t :: 0 <= t < |a| - 1 ==> a[..|a| - 1][t] == a[t];
      if a[|a| - 1] > m then a[|a| - 1] else m
  }

  /** `A.min()`: an element no other element undercuts. */
  function MinOf(a: seq<real>): (m: real)
    requires |a| > 0
    ensures m in a
    ensures forall t :: 0 <= t < |a| ==> m <= a[t]
  {
    if |a| == 1 then a[0]
    else
      var m := MinOf(a[..|a| - 1]);
      assert forall t :: 0 <= t < |a| - 1 ==> a[..|a| - 1][t] == a[t];
      if a[|a| - 1] < m then a[|a| - 1] else m
  }

  /** The relative area change per unit pressure, in 1e-3/mmHg:
      `(max - min) / (min * pp) * 1e3`. Undefined when the pressure is
      missing or the divisor is zero (numpy's NaN or infinity). */
  function Distensibility(maxArea: real, minArea: real, pp: Measure): (d: Measure)
    ensures d.Num? <==> pp.Num? && minArea * pp.value != 0.0
    ensures d.Num? ==> d.value * (minArea * pp.value) == (maxArea - minArea) * 1000.0
  {
    if pp.Num? then
      var q := Ratio(maxArea - minArea, minArea * pp.value);
      if q.Num? then
        assert (q.value * 1000.0) * (minArea * pp.value) == (q.value * (minArea * pp.value)) * 1000.0;
        Num(q.value * 1000.0)
      else Undefined
    else Undefined
  }

  /** The five cells of one label from its area curve: max area, min area,
      max diameter, min diameter, distensibility. The diameter
      `2 * sqrt(area / pi)` is floating point and given as `diameterOf`. */
  function CurveCells(a: seq<real>, pp: Measure, diameterOf: real -> Measure): seq<Measure>
    requires |a| > 0
  {
    var hi, lo := MaxOf(a), MinOf(a);
    [Num(hi), Num(lo), diameterOf(hi), diameterOf(lo), Distensibility(hi, lo, pp)]
  }

  function LabelCells(scan: AoScan, part: AortaPart, pp: Measure, diameterOf: real -> Measure): seq<Measure> {
    CurveCells(AreaCurve(scan, part), pp, diameterOf)
  }

  /** A row: the ascending aorta's five cells, then the descending aorta's. */
  function AorticRow(scan: AoScan, pp: Measure, diameterOf: real -> Measure): seq<Measure> {
    LabelCells(scan, Ascending, pp, diameterOf) + LabelCells(scan, Descending, pp, diameterOf)
  }

  /** The row of one subject directory, if it gets one: the name must
      match the pattern, both files must exist and quality control must
      pass. An eid missing from the pressure table gets a missing pressure
      and still gets a row. */
  function AorticEntry(name: string, s: AoSubject, pressures: map<int, Measure>, diameterOf: real -> Measure): (row: Option<seq<Measure>>)
    ensures row.Some? <==> ParseSubjectDir(name).Some? && s.hasImage && s.hasSeg && s.scan.passesQc
  {
    match ParseSubjectDir(name)
    case None => None
    case Some(eid) =>
      if s.hasImage && s.hasSeg && s.scan.passesQc then
        Some(AorticRow(s.scan, if eid in pressures then pressures[eid] else Undefined, diameterOf))
      else None
  }

  /** The five cells of one label: the max and min area are areas of some
      frame and bound the area of every frame, the diameters are those of
      the two areas, and the distensibility is the relative area change
      over the pressure, missing exactly when the pressure is missing or
      the divisor is zero. */
  lemma CurveCellsMeaning(a: seq<real>, pp: Measure, diameterOf: real -> Measure)
    requires |a| > 0
    ensures var c := CurveCells(a, pp, diameterOf);
      && |c| == 5 && c[0].Num? && c[1].Num?
      && c[0].value in a && c[1].value in a
      && (forall t :: 0 <= t < |a| ==> c[1].value <= a[t] <= c[0].value)
      && c[2] == diameterOf(c[0].value) && c[3] == diameterOf(c[1].value)
      && (c[4].Num? <==> pp.Num? && c[1].value * pp.value != 0.0)
      && (c[4].Num? ==> c[4].value * (c[1].value * pp.value) == (c[0].value - c[1].value) * 1000.0)
  {
  }

  /** A row is the ascending aorta's five cells followed by the descending
      aorta's five; max area is never below min area. */
  lemma AorticRowLayout(scan: AoScan, pp: Measure, diameterOf: real -> Measure)
    ensures var row := AorticRow(scan, pp, diameterOf);
      && |row| == 10
      && row[..5] == LabelCells(scan, Ascending, pp, diameterOf)
      && row[5..] == LabelCells(scan, Descending, pp, diameterOf)
      && row[0].value >= row[1].value && row[5].value >= row[6].value
  {
    var a, d := AreaCurve(scan, Ascending), AreaCurve(scan, Descending);
    assert MinOf(a) <= a[0] <= MaxOf(a);
    assert MinOf(d) <= d[0] <= MaxOf(d);
  }

  /** With a positive minimum area and a positive pressure the
      distensibility is defined and not negative. */
  lemma DistensibilityNonNegative(maxArea: real, minArea: real, pp: real)
    requires maxArea >= minArea > 0.0 && pp > 0.0
    ensures Distensibility(maxArea, minArea, Num(pp)).Num?
    ensures Distensibility(maxArea, minArea, Num(pp)).value >= 0.0
  {
    var d := Distensibility(maxArea, minArea, Num(pp)).value;
    var den := minArea * pp;
    assert den > 0.0;
  }

  /** Areas 900 and 600 mm^2 at a pulse pressure of 48 mmHg: a
      distensibility of 125/12 (about 10.417) per 1000 mmHg. */
  lemma DistensibilityExample()
    ensures Distensibility(900.0, 600.0, Num(48.0)) == Num(125.0 / 12.0)
  {
  }

  /** An eid with no pressure, or a pressure below the threshold, still
      gets its areas but no distensibility. */
  lemma MissingPressureKeepsAreas(scan: AoScan, diameterOf: real -> Measure)
    ensures var row := AorticRow(scan, Undefined, diameterOf);
      row[0].Num? && row[1].Num? && row[5].Num? && row[6].Num? && row[4] == Undefined && row[9] == Undefined
  {
    AorticRowLayout(scan, Undefined, diameterOf);
    CurveCellsMeaning(AreaCurve(scan, Ascending), Undefined, diameterOf);
    CurveCellsMeaning(AreaCurve(scan, Descending), Undefined, diameterOf);
  }

  /** One run of the script: the pressure table is read and filtered
      first, then the subject directories are visited in sorted order
      (hidden names included) and every row is appended to the table
      written at the end. The run raises, and writes no table, when the
      pressure table cannot be read or lacks the pulse pressure column
      (`pressureReadable` false) or when the data directory cannot be
      listed (`dataDirExists` false). */
  method EvaluateAorticArea(pressureReadable: bool, dataDirExists: bool, listing: seq<string>,
                            subjects: string -> AoSubject, pressures: map<int, Measure>, diameterOf: real -> Measure)
    returns (table: Option<seq<Record>>)
    ensures table.Some? <==> pressureReadable && dataDirExists
    ensures table.Some? ==>
      table.value == Produced(Sort(listing), {}, name => AorticEntry(name, subjects(name), Plausible(pressures), diameterOf))
  {
    if !pressureReadable {
      return None;
    }
    var pp := DiscardImplausible(pressures);
    if !dataDirExists {
      return None;
    }
    var order := Sort(listing);
    ghost var rowOf := name => AorticEntry(name, subjects(name), pp, diameterOf);
    var rows := [];
    for i := 0 to |order|
      invariant rows == Produced(order[..i], {}, rowOf)
    {
      assert order[..i + 1][..i] == order[..i];
      var name := order[i];
      var row := AorticEntry(name, subjects(name), pp, diameterOf);
      if row.Some? {
        rows := rows + [Record(name, row.value)];
      }
    }
    assert order[..|order|] == order;
    table := Some(rows);
  }

  /** The table holds exactly the subjects that get a row, each once when
      the listing has no repeats, in sorted order. */
  lemma AorticTableIds(listing: seq<string>, subjects: string -> AoSubject, pressures: map<int, Measure>,
                       diameterOf: real -> Measure)
    requires Distinct(listing)
    ensures var rowOf := (name: string) => AorticEntry(name, subjects(name), Plausible(pressures), diameterOf);
      var table := Produced(Sort(listing), {}, rowOf);
      && (forall x :: x in IdsOf(table) <==>
            x in listing && ParseSubjectDir(x).Some? && subjects(x).hasImage && subjects(x).hasSeg &&
            subjects(x).scan.passesQc)
      && DistinctIds(table)
  {
    var rowOf := (name: string) => AorticEntry(name, subjects(name), Plausible(pressures), diameterOf);
    SortedTableIds(listing, rowOf);
  }

  /** A table built over the sorted listing holds the names that get a
      row, each once. */
  lemma SortedTableIds(listing: seq<string>, rowOf: string -> Option<seq<Measure>>)
    requires Distinct(listing)
    ensures forall x :: x in IdsOf(Produced(Sort(listing), {}, rowOf)) <==> x in listing && rowOf(x).Some?
    ensures DistinctIds(Produced(Sort(listing), {}, rowOf))
  {
    var order := Sort(listing);
    ProducedIds(order, {}, rowOf);
    SortKeepsDistinct(listing);
    ProducedDistinct(order, {}, rowOf);
    forall x ensures x in order <==> x in listing {
      assert x in order <==> x in multiset(order);
    }
  }
}

=== FILE: batch_driver.dfy ===
/** The resumable batch loop shared by the two short-axis evaluation
    scripts: scan the output directory for earlier batch files, visit the
    subject directories in sorted order, skip the subjects already done,
    buffer one row per newly evaluated subject and flush every BatchSize
    rows to a new batch file, and flush the non-empty remainder at the end.
    How a subject's row is obtained (image loading, quality control, the
    measurements themselves) is a parameter here; the two script modules
    supply it. */
module BatchDriver {
  import opened Wrappers
  import opened Strings
  import opened Sorting
  import opened Measures
  import opened Checkpoint

  /** The rows a run appends, in visit order: one per subject that is not
      already completed and whose evaluation yields a row. */
  function Produced(order: seq<string>, completed: set<string>, rowOf: string -> Option<seq<Measure>>): seq<Record>
    decreases |order|
  {
    if order == [] then []
    else
      var name := order[|order| - 1];
      Produced(order[..|order| - 1], completed, rowOf) +
        (if name !in completed && rowOf(name).Some? then [Record(name, rowOf(name).value)] else [])
  }

  /** How many visited subjects were already completed. */
  function SkippedCount(order: seq<string>, completed: set<string>): nat
    decreases |order|
  {
    if order == [] then 0
    else SkippedCount(order[..|order| - 1], completed) + (if order[|order| - 1] in completed then 1 else 0)
  }

  /** The subjects a run evaluates successfully. */
  predicate Evaluated(name: string, order: seq<string>, completed: set<string>, rowOf: string -> Option<seq<Measure>>) {
    name in order && name !in completed && rowOf(name).Some?
  }

  /** The `skipped` counter: no more than the subjects visited, zero exactly
      when none was completed and all of them exactly when every one was;
      together with the rows recorded it never exceeds the subjects visited. */
  lemma {:induction false} SkippedCountMeaning(order: seq<string>, completed: set<string>, rowOf: string -> Option<seq<Measure>>)
    ensures SkippedCount(order, completed) + |Produced(order, completed, rowOf)| <= |order|
    ensures SkippedCount(order, completed) == 0 <==> forall i :: 0 <= i < |order| ==> order[i] !in completed
    ensures SkippedCount(order, completed) == |order| <==> forall i :: 0 <= i < |order| ==> order[i] in completed
    decreases |order|
  {
    if order != [] {
      var init := order[..|order| - 1];
      SkippedCountMeaning(init, completed, rowOf);
      assert forall i :: 0 <= i < |init| ==> init[i] == order[i];
    }
  }

  /** A run records exactly the subjects it evaluates successfully, each
      with its own row. */
  lemma {:induction false} ProducedIds(order: seq<string>, completed: set<string>, rowOf: string -> Option<seq<Measure>>)
    ensures forall x :: x in IdsOf(Produced(order, completed, rowOf)) <==> Evaluated(x, order, completed, rowOf)
    ensures forall r :: r in Produced(order, completed, rowOf) ==> rowOf(r.id) == Some(r.row)
    decreases |order|
  {
    if order != [] {
      var init, name := order[..|order| - 1], order[|order| - 1];
      ProducedIds(init, completed, rowOf);
      var p := Produced(init, completed, rowOf);
      var q := Produced(order, completed, rowOf);
      assert order == init + [name];
      forall x ensures x in IdsOf(q) <==> Evaluated(x, order, completed, rowOf) {
        if x in IdsOf(q) {
          var i :| 0 <= i < |q| && q[i].id == x;
          if i < |p| { assert p[i].id == x; assert x in IdsOf(p); }
        }
        if Evaluated(x, order, completed, rowOf) {
          if x == name {
            assert q[|q| - 1].id == x;
          } else {
            assert x in init && Evaluated(x, init, completed, rowOf);
            var i :| 0 <= i < |p| && p[i].id == x;
            assert q[i].id == x;
          }
        }
      }
    }
  }

  /** Visiting a list without repeats records every subject at most once. */
  lemma {:induction false} ProducedDistinct(order: seq<string>, completed: set<string>, rowOf: string -> Option<seq<Measure>>)
    requires Distinct(order)
    ensures DistinctIds(Produced(order, completed, rowOf))
    decreases |order|
  {
    if order != [] {
      var init, name := order[..|order| - 1], order[|order| - 1];
      assert Distinct(init);
      ProducedDistinct(init, completed, rowOf);
      ProducedIds(init, completed, rowOf);
      assert name !in init;
      assert name !in IdsOf(Produced(init, completed, rowOf));
    }
  }

  /** The names of a listing that start with the batch-file prefix. */
  function WithPrefix(names: seq<string>, prefix: string): (r: seq<string>)
    ensures forall x :: x in r <==> x in names && StartsWith(x, prefix)
    ensures Distinct(names) ==> Distinct(r)
    decreases |names|
  {
    if names == [] then []
    else
      var init, last := names[..|names| - 1], names[|names| - 1];
      assert forall x :: x in names <==> x in init || x == last;
      assert Distinct(names) ==> Distinct(init) && last !in init;
      if StartsWith(last, prefix) then WithPrefix(init, prefix) + [last] else WithPrefix(init, prefix)
  }

  /** The ids read back as strings from the first columns of the listed
      files. */
  function IdsOfFiles(dir: Directory, names: seq<string>): set<string> {
    set k, r | 0 <= k < |names| && names[k] in dir && !NumericColumn(dir[names[k]]) && 0 <= r < |dir[names[k]]| :: dir[names[k]][r].id
  }

  lemma IdsOfFilesSnoc(dir: Directory, names: seq<string>, name: string)
    requires name in dir
    ensures IdsOfFiles(dir, names + [name]) == IdsOfFiles(dir, names) + ReadBackIds(dir[name])
  {
    var s := names + [name];
    forall x | x in IdsOfFiles(dir, s) ensures x in IdsOfFiles(dir, names) + ReadBackIds(dir[name]) {
      var k, r :| 0 <= k < |s| && s[k] in dir && !NumericColumn(dir[s[k]]) && 0 <= r < |dir[s[k]]| && dir[s[k]][r].id == x;
      if k < |names| { assert names[k] == s[k]; }
    }
    forall x | x in IdsOfFiles(dir, names) + ReadBackIds(dir[name]) ensures x in IdsOfFiles(dir, s) {
      if x in IdsOfFiles(dir, names) {
        var k, r :| 0 <= k < |names| && names[k] in dir && !NumericColumn(dir[names[k]]) && 0 <= r < |dir[names[k]]| && dir[names[k]][r].id == x;
        assert s[k] == names[k];
      } else {
        var r :| 0 <= r < |dir[name]| && dir[name][r].id == x;
        assert s[|names|] == name;
      }
    }
  }

  /** Reading every batch file of a listing gives the ids read back as
      strings. */
  lemma IdsOfBatchFiles(dir: Directory, prefix: string, names: seq<string>)
    requires forall x :: x in names <==> x in dir && IsBatchFile(prefix, x)
    ensures IdsOfFiles(dir, names) == MatchableIds(dir, prefix)
  {
    forall x | x in MatchableIds(dir, prefix) ensures x in IdsOfFiles(dir, names) {
      var n: string, r: int :| n in dir && IsBatchFile(prefix, n) && !NumericColumn(dir[n]) && 0 <= r < |dir[n]| && dir[n][r].id == x;
      var k :| 0 <= k < |names| && names[k] == n;
    }
  }

  /** The first n names of the sorted batch-file listing have been read:
      each has the prefix and an integer suffix, and `top` is
      `max(0, largest suffix read)`. */
  predicate ScannedUpTo(prefix: string, list: seq<string>, n: nat, top: int)
    requires n <= |list|
  {
    && top >= 0
    && (forall j :: 0 <= j < n ==>
          StartsWith(list[j], prefix) && ParseInt(list[j][|prefix|..]).Some? && ParseInt(list[j][|prefix|..]).value <= top)
    && (top == 0 ||
        exists j :: 0 <= j < n && StartsWith(list[j], prefix) && ParseInt(list[j][|prefix|..]) == Some(top))
  }

  /** Reading one more batch file keeps the running maximum. */
  lemma ScanStep(prefix: string, list: seq<string>, n: nat, top: int, index: int)
    requires n < |list| && ScannedUpTo(prefix, list, n, top)
    requires StartsWith(list[n], prefix) && ParseInt(list[n][|prefix|..]) == Some(index)
    ensures ScannedUpTo(prefix, list, n + 1, if index > top then index else top)
  {
  }

  /** The running maximum of the scan over the listed files: None once a
      suffix does not parse, otherwise `max(0, suffixes read)`. */
  function ScanMax(prefix: string, list: seq<string>): Option<int>
    requires forall j :: 0 <= j < |list| ==> StartsWith(list[j], prefix)
    decreases |list|
  {
    if list == [] then Some(0)
    else
      var last := list[|list| - 1];
      assert StartsWith(last, prefix);
      match ScanMax(prefix, list[..|list| - 1])
      case None => None
      case Some(top) =>
        match ParseInt(last[|prefix|..])
        case None => None
        case Some(index) => Some(if index > top then index else top)
  }

  /** A scan that gets through the listing has read every suffix, and its
      maximum is the largest of them, or 0. */
  lemma {:induction false} ScanMaxScanned(prefix: string, list: seq<string>, top: int)
    requires forall j :: 0 <= j < |list| ==> StartsWith(list[j], prefix)
    requires ScanMax(prefix, list) == Some(top)
    ensures ScannedUpTo(prefix, list, |list|, top)
    decreases |list|
  {
    if list != [] {
      var n := |list| - 1;
      var init := list[..n];
      var t :| ScanMax(prefix, init) == Some(t);
      ScanMaxScanned(prefix, init, t);
      var index := ParseInt(list[n][|prefix|..]).value;
      assert ScannedUpTo(prefix, list, n, t) by {
        forall j | 0 <= j < n ensures list[j] == init[j] { }
        if t != 0 {
          var j :| 0 <= j < n && StartsWith(init[j], prefix) && ParseInt(init[j][|prefix|..]) == Some(t);
          assert list[j] == init[j];
        }
      }
      ScanStep(prefix, list, n, t, index);
    }
  }

  /** Reading file i adds the ids its first column reads back as. */
  lemma ReadFileIds(dir: Directory, list: seq<string>, i: nat)
    requires i < |list| && list[i] in dir
    ensures IdsOfFiles(dir, list[..i + 1]) == IdsOfFiles(dir, list[..i]) + ReadBackIds(dir[list[i]])
  {
    assert list[..i + 1] == list[..i] + [list[i]];
    IdsOfFilesSnoc(dir, list[..i], list[i]);
  }

  /** Having read every batch file of the listing without a parse error:
      the scan succeeds, the next index is top + 1, and the ids read are
      those read back as strings. */
  lemma ScanComplete(dir: Directory, prefix: string, list: seq<string>, top: int)
    requires forall x :: x in list <==> x in dir && IsBatchFile(prefix, x)
    requires ScannedUpTo(prefix, list, |list|, top)
    ensures ScanSucceeds(dir, prefix)
    ensures IsNextBatch(dir, prefix, top + 1)
    ensures IdsOfFiles(dir, list) == MatchableIds(dir, prefix)
  {
    IdsOfBatchFiles(dir, prefix, list);
    assert ScanSucceeds(dir, prefix) by {
      forall name | name in dir && IsBatchFile(prefix, name) ensures ParseInt(name[|prefix|..]).Some? {
        var j :| 0 <= j < |list| && list[j] == name;
      }
    }
    forall name | name in dir && IsBatchFile(prefix, name) ensures IndexOf(prefix, name) < top + 1 {
      var j :| 0 <= j < |list| && list[j] == name;
    }
    if top != 0 {
      var j :| 0 <= j < |list| && StartsWith(list[j], prefix) && ParseInt(list[j][|prefix|..]) == Some(top);
      assert list[j] in list;
    }
  }

  /** `os.listdir`: the entries of a directory in some order, each once. */
  method ListDir(dir: Directory) returns (names: seq<string>)
    ensures Distinct(names)
    ensures forall x :: x in names <==> x in dir
  {
    names := [];
    var rest := dir.Keys;
    while rest != {}
      invariant rest <= dir.Keys
      invariant Distinct(names)
      invariant forall x :: x in names <==> x in dir && x !in rest
      decreases |rest|
    {
      var x :| x in rest;
      names := names + [x];
      rest := rest - {x};
    }
  }

  /** `sorted(filter(lambda x: x.startswith(prefix), os.listdir(dir)))`:
      the batch files of the output directory, in sorted order. */
  method ListBatchFiles(dir: Directory, prefix: string) returns (list: seq<string>)
    ensures Sorted(list) && Distinct(list)
    ensures forall x :: x in list <==> x in dir && IsBatchFile(prefix, x)
    ensures forall j :: 0 <= j < |list| ==> list[j] in dir && StartsWith(list[j], prefix)
  {
    var listing := ListDir(dir);
    list := Sort(WithPrefix(listing, prefix));
    SortKeepsDistinct(WithPrefix(listing, prefix));
    forall x ensures x in list <==> x in WithPrefix(listing, prefix) {
      assert x in list <==> x in multiset(list);
    }
    forall j | 0 <= j < |list| ensures list[j] in dir && StartsWith(list[j], prefix) {
      assert list[j] in list;
    }
  }

  /** Reading the listed batch files in order: every suffix must parse,
      the largest one fixes the next index, and the first columns, as
      pandas reads them back, give the set of subjects to skip. A suffix
      that does not parse stops the scan. */
  method ReadBatchFiles(dir: Directory, prefix: string, list: seq<string>) returns (ok: bool, next: nat, completed: set<string>)
    requires forall x :: x in list <==> x in dir && IsBatchFile(prefix, x)
    requires forall j :: 0 <= j < |list| ==> list[j] in dir && StartsWith(list[j], prefix)
    ensures ok == ScanSucceeds(dir, prefix)
    ensures ok ==> IsNextBatch(dir, prefix, next) && completed == MatchableIds(dir, prefix)
  {
    var batch := 0;
    completed := {};
    for i := 0 to |list|
      invariant ScanMax(prefix, list[..i]) == Some(batch)
      invariant completed == IdsOfFiles(dir, list[..i])
    {
      assert list[..i + 1][..i] == list[..i];
      var name := list[i];
      var index := ParseInt(name[|prefix|..]);
      if index.None? {
        assert name in dir && IsBatchFile(prefix, name);
        return false, 0, {};
      }
      ReadFileIds(dir, list, i);
      batch := if index.value > batch then index.value else batch;
      completed := completed + ReadBackIds(dir[name]);
    }
    assert list[..|list|] == list;
    ScanMaxScanned(prefix, list, batch);
    ScanComplete(dir, prefix, list, batch);
    ok, next := true, batch + 1;
  }

  /** The scan of the output directory: the sorted batch files, read in
      order. */
  method ScanBatches(dir: Directory, prefix: string) returns (ok: bool, next: nat, completed: set<string>)
    ensures ok == ScanSucceeds(dir, prefix)
    ensures ok ==> IsNextBatch(dir, prefix, next) && completed == MatchableIds(dir, prefix)
  {
    var list := ListBatchFiles(dir, prefix);
    ok, next, completed := ReadBatchFiles(dir, prefix, list);
  }

  /** Buffering one more row of a run: a row that fills the buffer turns
      it into the next batch file, otherwise the row just joins the buffer. */
  lemma BufferRow(dir: Directory, prefix: string, start: nat, recs: seq<Record>, r: Record)
    ensures |Buffered(recs)| == |recs| % BatchSize
    ensures |FullChunks(recs)| == |recs| / BatchSize
    ensures |Buffered(recs)| + 1 >= BatchSize ==>
      && Buffered(recs + [r]) == []
      && |FullChunks(recs + [r])| == |FullChunks(recs)| + 1
      && WriteBatches(dir, prefix, start, FullChunks(recs + [r])) ==
         WriteBatches(dir, prefix, start, FullChunks(recs))[BatchName(prefix, start + |FullChunks(recs)|) := Buffered(recs) + [r]]
    ensures |Buffered(recs)| + 1 < BatchSize ==>
      Buffered(recs + [r]) == Buffered(recs) + [r] && FullChunks(recs + [r]) == FullChunks(recs)
  {
    ChunksSnoc(recs, r);
    if |Buffered(recs)| + 1 >= BatchSize {
      var c := FullChunks(recs + [r]);
      WriteBatchesSnoc(dir, prefix, start, c);
      assert c[..|c| - 1] == FullChunks(recs);
    }
  }

  /** The buffer, its count, the next index and the output directory agree
      with the rows buffered so far: full batches are written from `start`
      on and the rest waits in the buffer. */
  predicate Layout(before: Directory, prefix: string, start: nat, produced: seq<Record>,
                   table: seq<Record>, count: nat, batch: int, files: Directory)
  {
    && table == Buffered(produced)
    && count == |table|
    && batch == start + |FullChunks(produced)|
    && files == WriteBatches(before, prefix, start, FullChunks(produced))
  }

  /** Buffering a row keeps the layout: when the buffer fills, it is
      written under the current index, which then advances. */
  lemma RowKeepsLayout(before: Directory, prefix: string, start: nat, produced: seq<Record>,
                       table: seq<Record>, count: nat, batch: int, files: Directory, r: Record)
    requires Layout(before, prefix, start, produced, table, count, batch, files)
    ensures count + 1 >= BatchSize ==>
      Layout(before, prefix, start, produced + [r], [], 0, batch + 1, files[BatchName(prefix, batch) := table + [r]])
    ensures count + 1 < BatchSize ==>
      Layout(before, prefix, start, produced + [r], table + [r], count + 1, batch, files)
  {
    BufferRow(before, prefix, start, produced, r);
  }

  /** Writing the non-empty remainder under the current index gives the
      batch files of every row buffered; an empty remainder writes nothing. */
  lemma RemainderKeepsLayout(before: Directory, prefix: string, start: nat, produced: seq<Record>,
                             table: seq<Record>, count: nat, batch: int, files: Directory)
    requires Layout(before, prefix, start, produced, table, count, batch, files)
    ensures count > 0 ==> files[BatchName(prefix, batch) := table] == WriteBatches(before, prefix, start, Chunks(produced))
    ensures count == 0 ==> files == WriteBatches(before, prefix, start, Chunks(produced))
  {
    var c := Chunks(produced);
    if count > 0 {
      assert c == FullChunks(produced) + [Buffered(produced)];
      WriteBatchesSnoc(before, prefix, start, c);
      assert c[..|c| - 1] == FullChunks(produced);
    } else {
      assert c == FullChunks(produced);
    }
  }

  /** The state of one run of a short-axis evaluation script. */
  class Driver {
    /** `<basename>.`, the common prefix of the batch file names. */
    const prefix: string
    /** The output directory. */
    var files: Directory
    var completed: set<string>
    var batch: int
    /** `table` and `processed_list` of the script, row by row. */
    var table: seq<Record>
    var count: nat
    var processed: nat
    var skipped: nat
    /** The output directory as the scan found it, the first index the run
        writes, and every row the run has buffered so far. */
    ghost var before: Directory
    ghost var start: nat
    ghost var produced: seq<Record>

    /** After a successful scan: the buffer holds the rows not yet flushed,
        every full batch has been written under the next index, and the
        index points past the last file written. */
    ghost predicate Valid()
      reads this
    {
      && processed == |produced|
      && Layout(before, prefix, start, produced, table, count, batch, files)
    }

    constructor (prefix: string, files: Directory)
      ensures this.prefix == prefix && this.files == files && before == files
      ensures completed == {} && batch == 0 && table == [] && count == 0
      ensures processed == 0 && skipped == 0 && produced == []
    {
      this.prefix := prefix;
      this.files := files;
      before := files;
      completed := {};
      batch := 0;
      table := [];
      count := 0;
      processed := 0;
      skipped := 0;
      start := 0;
      produced := [];
    }

    /** The scan at the start of the run; see ScanBatches. */
    method Scan() returns (ok: bool)
      requires before == files && batch == 0 && completed == {}
      requires table == [] && count == 0 && processed == 0 && produced == []
      modifies this
      ensures files == old(files) && before == old(before) && skipped == old(skipped)
      ensures ok == ScanSucceeds(files, prefix)
      ensures ok ==> Valid() && produced == [] && batch == start
      ensures ok ==> IsNextBatch(before, prefix, start) && completed == MatchableIds(before, prefix)
    {
      var next, ids;
      ok, next, ids := ScanBatches(files, prefix);
      if ok {
        completed := ids;
        batch := next;
        start := next;
        assert FullChunks([]) == [];
      }
    }

    /** One iteration of the subject loop: a completed subject only counts
        as skipped; a subject without a row changes nothing; otherwise its
        row is buffered, and a full buffer is written under the current
        index, which then advances. */
    method Visit(name: string, row: Option<seq<Measure>>)
      requires Valid()
      modifies this
      ensures Valid()
      ensures before == old(before) && start == old(start) && completed == old(completed)
      ensures produced == old(produced) + (if name !in completed && row.Some? then [Record(name, row.value)] else [])
      ensures skipped == old(skipped) + (if name in completed then 1 else 0)
    {
      if name in completed {
        skipped := skipped + 1;
      } else if row.Some? {
        var r := Record(name, row.value);
        RowKeepsLayout(before, prefix, start, produced, table, count, batch, files, r);
        if count + 1 >= BatchSize {
          files, table, count, batch := files[BatchName(prefix, batch) := table + [r]], [], 0, batch + 1;
        } else {
          table, count := table + [r], count + 1;
        }
        processed, produced := processed + 1, produced + [r];
      }
    }

    /** The subject loop: visits `order` one subject after another. */
    method VisitAll(order: seq<string>, rowOf: string -> Option<seq<Measure>>)
      requires Valid() && produced == [] && skipped == 0
      modifies this
      ensures Valid()
      ensures before == old(before) && start == old(start) && completed == old(completed)
      ensures produced == Produced(order, completed, rowOf)
      ensures skipped == SkippedCount(order, completed)
    {
      var i := 0;
      while i < |order|
        invariant 0 <= i <= |order|
        invariant Valid()
        invariant before == old(before) && start == old(start) && completed == old(completed)
        invariant produced == Produced(order[..i], completed, rowOf)
        invariant skipped == SkippedCount(order[..i], completed)
      {
        assert order[..i + 1][..i] == order[..i];
        Visit(order[i], rowOf(order[i]));
        i := i + 1;
      }
      assert order[..i] == order;
    }

    /** The end of the run: the remainder is written only when some row is
        still buffered. */
    method Finish()
      requires Valid()
      modifies this`files
      ensures files == WriteBatches(before, prefix, start, Chunks(produced))
    {
      RemainderKeepsLayout(before, prefix, start, produced, table, count, batch, files);
      if count > 0 {
        files := files[BatchName(prefix, batch) := table];
      }
    }
  }

  /** One run of a short-axis evaluation script over the output directory
      `dir` and the subject directory listing `listing`. `rowOf` gives the
      row the script records for a subject, or None when an input is
      missing, quality control fails or the evaluation leaves no result.
      The run raises, before it writes anything, when the output directory
      cannot be listed (`outputDirExists` false), when the suffix of a
      batch file is not an integer, or when the subject directory cannot be
      listed (`dataDirExists` false). Otherwise it writes the rows of the
      newly evaluated subjects, in sorted order, in batch files from the
      next free index on. */
  method RunBatches(dir: Directory, prefix: string, outputDirExists: bool, dataDirExists: bool,
                    listing: seq<string>, rowOf: string -> Option<seq<Measure>>)
    returns (ok: bool, out: Directory, first: nat, processed: nat, skipped: nat)
    ensures ok == (outputDirExists && ScanSucceeds(dir, prefix) && dataDirExists)
    ensures !ok ==> out == dir
    ensures ok ==> IsNextBatch(dir, prefix, first)
    ensures ok ==> var order := Sort(Visible(listing));
      var rows := Produced(order, MatchableIds(dir, prefix), rowOf);
      && out == WriteBatches(dir, prefix, first, Chunks(rows))
      && processed == |rows|
      && skipped == SkippedCount(order, MatchableIds(dir, prefix))
  {
    if !outputDirExists {
      return false, dir, 0, 0, 0;
    }
    var d := new Driver(prefix, dir);
    ok := d.Scan();
    if !ok || !dataDirExists {
      return false, dir, 0, 0, 0;
    }
    first := d.batch;
    var order := Sort(Visible(listing));
    d.VisitAll(order, rowOf);
    d.Finish();
    out, processed, skipped := d.files, d.processed, d.skipped;
  }

  /** What the next run's scan finds after a successful run: the scan still
      succeeds, the completed set has grown by exactly the subjects
      evaluated, and the next index is one past the last file written. */
  lemma RunThenScan(dir: Directory, prefix: string, first: nat, order: seq<string>, rowOf: string -> Option<seq<Measure>>)
    requires ScanSucceeds(dir, prefix) && IsNextBatch(dir, prefix, first)
    ensures var skip := MatchableIds(dir, prefix);
      var rows := Produced(order, skip, rowOf);
      var out := WriteBatches(dir, prefix, first, Chunks(rows));
      && ScanSucceeds(out, prefix)
      && (forall x :: x in CompletedIds(out, prefix) <==>
            x in CompletedIds(dir, prefix) || Evaluated(x, order, skip, rowOf))
      && IsNextBatch(out, prefix, first + (|rows| + BatchSize - 1) / BatchSize)
  {
    var rows := Produced(order, MatchableIds(dir, prefix), rowOf);
    ResumeAfterRun(dir, prefix, first, rows);
    ProducedIds(order, MatchableIds(dir, prefix), rowOf);
  }

  /** The rows a run had flushed after visiting a prefix of its order are
      rows a run over the whole order records too. */
  lemma FlushedEvaluated(order: seq<string>, c: set<string>, rowOf: string -> Option<seq<Measure>>, i: nat, m: nat)
    requires i <= |order| && m <= |Produced(order[..i], c, rowOf)|
    ensures forall x :: x in IdsOf(Produced(order[..i], c, rowOf)[..m]) ==> Evaluated(x, order, c, rowOf)
  {
    var done := Produced(order[..i], c, rowOf);
    ProducedIds(order[..i], c, rowOf);
    forall x | x in IdsOf(done[..m]) ensures Evaluated(x, order, c, rowOf) {
      var j :| 0 <= j < m && done[..m][j].id == x;
      assert done[j] in done;
      assert x in IdsOf(done);
      var n :| 0 <= n < i && order[..i][n] == x;
      assert order[n] == x;
    }
  }

  /** A run killed after visiting the first i subjects of its order leaves
      only its full batches behind, and the next scan resumes at `resumed`,
      one past the last batch flushed. Rerunning over the same order from what
      the killed run left ends with the same completed subjects as one run
      without interruption: the rows lost from the buffer are evaluated
      again and nothing is recorded that the single run would not record. */
  lemma KillThenRerun(dir: Directory, prefix: string, first: nat, order: seq<string>,
                      rowOf: string -> Option<seq<Measure>>, i: nat, resumed: nat)
    requires ScanSucceeds(dir, prefix) && IsNextBatch(dir, prefix, first)
    requires i <= |order|
    requires resumed == first + |Produced(order[..i], MatchableIds(dir, prefix), rowOf)| / BatchSize
    ensures var killed := WriteBatches(dir, prefix, first, FullChunks(Produced(order[..i], MatchableIds(dir, prefix), rowOf)));
      var rerun := WriteBatches(killed, prefix, resumed, Chunks(Produced(order, MatchableIds(killed, prefix), rowOf)));
      var once := WriteBatches(dir, prefix, first, Chunks(Produced(order, MatchableIds(dir, prefix), rowOf)));
      && ScanSucceeds(killed, prefix) && IsNextBatch(killed, prefix, resumed)
      && ScanSucceeds(rerun, prefix)
      && CompletedIds(rerun, prefix) == CompletedIds(once, prefix)
  {
    var c := MatchableIds(dir, prefix);
    var done := Produced(order[..i], c, rowOf);
    var m := |done| / BatchSize * BatchSize;
    KilledRunResumes(dir, prefix, first, done);
    var killed := WriteBatches(dir, prefix, first, FullChunks(done));
    var k := MatchableIds(killed, prefix);
    FlushedEvaluated(order, c, rowOf, i, m);
    RunThenScan(killed, prefix, resumed, order, rowOf);
    RunThenScan(dir, prefix, first, order, rowOf);
    MatchableIdsMeaning(dir, prefix);
    MatchableIdsMeaning(killed, prefix);
    var rerun := WriteBatches(killed, prefix, resumed, Chunks(Produced(order, k, rowOf)));
    var once := WriteBatches(dir, prefix, first, Chunks(Produced(order, c, rowOf)));
    SameCompleted(CompletedIds(dir, prefix), c, CompletedIds(killed, prefix), k, IdsOf(done[..m]),
                  CompletedIds(rerun, prefix), CompletedIds(once, prefix), order, rowOf);
  }

  /** The set reasoning behind KillThenRerun, on the sets alone: `cc` and
      `kc` are the completed sets before the run and after the kill, `c`
      and `k` the parts of them the two scans read back as strings. */
  lemma SameCompleted(cc: set<string>, c: set<string>, kc: set<string>, k: set<string>, flushed: set<string>,
                      rerun: set<string>, once: set<string>, order: seq<string>, rowOf: string -> Option<seq<Measure>>)
    requires c <= cc && k <= kc && kc == cc + flushed
    requires forall x :: x in flushed ==> Evaluated(x, order, c, rowOf)
    requires forall x :: x in rerun <==> x in kc || Evaluated(x, order, k, rowOf)
    requires forall x :: x in once <==> x in cc || Evaluated(x, order, c, rowOf)
    ensures rerun == once
  {
  }

  /** A subject whose inputs were missing or failed quality control is not
      recorded, so the next run visits it again. */
  lemma FailedSubjectRetried(dir: Directory, prefix: string, first: nat, order: seq<string>,
                             rowOf: string -> Option<seq<Measure>>, name: string)
    requires ScanSucceeds(dir, prefix) && IsNextBatch(dir, prefix, first)
    requires name !in CompletedIds(dir, prefix) && rowOf(name).None?
    ensures name !in CompletedIds(WriteBatches(dir, prefix, first, Chunks(Produced(order, MatchableIds(dir, prefix), rowOf))), prefix)
  {
    RunThenScan(dir, prefix, first, order, rowOf);
  }

  /** Running again over the same subjects with the same outcomes writes
      nothing, provided no subject name is all digits (as with the
      `<eid>_<num>` directories): every subject is then either read back
      as completed or still without a row. */
  lemma SecondRunWritesNothing(dir: Directory, prefix: string, first: nat, order: seq<string>, rowOf: string -> Option<seq<Measure>>)
    requires ScanSucceeds(dir, prefix) && IsNextBatch(dir, prefix, first)
    requires forall x :: x in order ==> !NumericId(x)
    ensures var out := WriteBatches(dir, prefix, first, Chunks(Produced(order, MatchableIds(dir, prefix), rowOf)));
      Produced(order, MatchableIds(out, prefix), rowOf) == []
  {
    RunThenScan(dir, prefix, first, order, rowOf);
    var out := WriteBatches(dir, prefix, first, Chunks(Produced(order, MatchableIds(dir, prefix), rowOf)));
    MatchableIdsMeaning(dir, prefix);
    MatchableIdsMeaning(out, prefix);
    NothingLeft(order, order, MatchableIds(out, prefix), rowOf);
  }

  lemma {:induction false} NothingLeft(all: seq<string>, order: seq<string>, completed: set<string>, rowOf: string -> Option<seq<Measure>>)
    requires forall x :: x in order ==> x in all
    requires forall x :: x in all && x !in completed ==> rowOf(x).None?
    ensures Produced(order, completed, rowOf) == []
    decreases |order|
  {
    if order != [] {
      NothingLeft(all, order[..|order| - 1], completed, rowOf);
    }
  }

  /** Subjects named by their eid alone, as the cine converter names them,
      are never skipped: pandas reads their ids back as integers. After a
      run over such subjects, starting from batch files of such ids, the
      next run records every subject with a row again, though it is already
      recorded. */
  lemma NumericSubjectRecordedAgain(dir: Directory, prefix: string, first: nat, order: seq<string>,
                                    rowOf: string -> Option<seq<Measure>>)
    requires ScanSucceeds(dir, prefix) && IsNextBatch(dir, prefix, first)
    requires forall name :: name in dir && IsBatchFile(prefix, name) ==> NumericColumn(dir[name])
    requires forall x :: x in order ==> NumericId(x)
    ensures var out := WriteBatches(dir, prefix, first, Chunks(Produced(order, MatchableIds(dir, prefix), rowOf)));
      && MatchableIds(out, prefix) == {}
      && forall x :: x in order && rowOf(x).Some? ==>
           x in CompletedIds(out, prefix) && x in IdsOf(Produced(order, MatchableIds(out, prefix), rowOf))
  {
    NumericFilesMatchNothing(dir, prefix);
    var recs := Produced(order, {}, rowOf);
    var out := WriteBatches(dir, prefix, first, Chunks(recs));
    ProducedIds(order, {}, rowOf);
    forall name | name in out && IsBatchFile(prefix, name) ensures NumericColumn(out[name]) {
      forall i | 0 <= i < |out[name]| ensures NumericId(out[name][i].id) {
        var p, k := RowOrigin(dir, prefix, first, recs, name, i);
        if p >= 0 {
          assert recs[p].id in IdsOf(recs);
        }
      }
    }
    NumericFilesMatchNothing(out, prefix);
    RunThenScan(dir, prefix, first, order, rowOf);
  }

  /** Within one run no subject is recorded twice, and, for subject names
      that are not all digits, no subject recorded before is recorded
      again: the batch files keep one row per subject. */
  lemma RunKeepsOneRowPerSubject(dir: Directory, prefix: string, first: nat, listing: seq<string>,
                                 rowOf: string -> Option<seq<Measure>>)
    requires ScanSucceeds(dir, prefix) && IsNextBatch(dir, prefix, first) && UniqueIds(dir, prefix)
    requires Distinct(listing)
    requires forall x :: x in listing ==> !NumericId(x)
    ensures UniqueIds(WriteBatches(dir, prefix, first,
                        Chunks(Produced(Sort(Visible(listing)), MatchableIds(dir, prefix), rowOf))), prefix)
  {
    var order := Sort(Visible(listing));
    var skip := MatchableIds(dir, prefix);
    VisibleKeepsDistinct(listing);
    SortKeepsDistinct(Visible(listing));
    ProducedDistinct(order, skip, rowOf);
    ProducedIds(order, skip, rowOf);
    MatchableIdsMeaning(dir, prefix);
    forall x | x in order ensures x in listing {
      assert x in multiset(order);
    }
    RunKeepsIdsUnique(dir, prefix, first, Produced(order, skip, rowOf));
  }
}

=== FILE: checkpoint.dfy ===
/** The checkpoint of the short-axis evaluation scripts: an output directory
    of batch files named `<basename>.<NNNN>`. The first column of every batch
    file lists the subjects already done; the largest suffix fixes the next
    index. This module states what a scan must find and what a run writes,
    and proves that a later scan of what a run wrote resumes correctly. */
module Checkpoint {
  import opened Wrappers
  import opened Strings
  import opened Measures
  import opened Sorting

  /** Rows per flushed batch file. */
  const BatchSize: nat := 500

  /** One row of a batch file: the subject (first column) and its values. */
  datatype Record = Record(id: string, row: seq<Measure>)

  /** An output directory: file name to the rows the file holds. */
  type Directory = map<string, seq<Record>>

  /** The name of batch `index`: the prefix `<basename>.` and `{index:04d}`. */
  function BatchName(prefix: string, index: nat): string {
    prefix + ZeroPad4(index)
  }

  /** The prefix of the batch files of `--output_csv`: its base name and a
      dot. */
  function BatchPrefix(outputCsv: string): (p: string)
    ensures '/' !in p && EndsWith(p, ".")
    ensures StartsWith(p, Basename(outputCsv)) && |p| == |Basename(outputCsv)| + 1
  {
    Basename(outputCsv) + "."
  }

  /** Every batch file is a plain name in the output directory, and the
      base name of `--output_csv` itself is never taken for a batch file. */
  lemma BatchFilesBesideOutput(outputCsv: string, index: nat)
    ensures '/' !in BatchName(BatchPrefix(outputCsv), index)
    ensures !IsBatchFile(BatchPrefix(outputCsv), Basename(outputCsv))
  {
    var p := BatchPrefix(outputCsv);
    var z := ZeroPad4(index);
    forall k | 0 <= k < |p + z| ensures (p + z)[k] != '/' {
      if k < |p| {
        assert p[k] in p;
      } else {
        assert IsDigit(z[k - |p|]);
      }
    }
  }

  /** The scan reads the index back from the name: `int()` of the suffix
      of batch `index` is `index`. */
  lemma BatchNameIndex(prefix: string, index: nat)
    ensures IsBatchFile(prefix, BatchName(prefix, index))
    ensures ParseInt(BatchName(prefix, index)[|prefix|..]) == Some(index)
  {
    assert BatchName(prefix, index)[|prefix|..] == ZeroPad4(index);
    ParseZeroPad4(index);
  }

  /** Distinct indices give distinct names, so no batch overwrites another. */
  lemma BatchNameInjective(prefix: string, i: nat, j: nat)
    requires i != j
    ensures BatchName(prefix, i) != BatchName(prefix, j)
  {
    BatchNameIndex(prefix, i);
    BatchNameIndex(prefix, j);
  }

  /** A file the scan reads: its name starts with `<basename>.`. */
  predicate IsBatchFile(prefix: string, name: string) {
    StartsWith(name, prefix)
  }

  /** The scan does not raise: `int()` accepts the suffix of every batch file. */
  predicate ScanSucceeds(dir: Directory, prefix: string) {
    forall name :: name in dir && IsBatchFile(prefix, name) ==> ParseInt(name[|prefix|..]).Some?
  }

  function IndexOf(prefix: string, name: string): int
    requires IsBatchFile(prefix, name) && ParseInt(name[|prefix|..]).Some?
  {
    ParseInt(name[|prefix|..]).value
  }

  function IdsOf(rows: seq<Record>): set<string> {
    set i | 0 <= i < |rows| :: rows[i].id
  }

  /** The completed set: the union of the first columns of all batch files. */
  function CompletedIds(dir: Directory, prefix: string): set<string> {
    set name, i | name in dir && IsBatchFile(prefix, name) && 0 <= i < |dir[name]| :: dir[name][i].id
  }

  /** A subject id pandas reads back as an integer: a non-empty run of
      ASCII digits, such as the `<eid>` directories of the cine converter. */
  predicate NumericId(id: string) {
    |id| > 0 && AllDigits(id)
  }

  /** pandas gives a column an integer type when every value in it is an
      integer; the ids of such a file come back as `int`s. */
  predicate NumericColumn(rows: seq<Record>) {
    forall i :: 0 <= i < |rows| ==> NumericId(rows[i].id)
  }

  /** The ids one batch file contributes to the scan's set: none when its
      first column comes back as integers, all of them otherwise. */
  function ReadBackIds(rows: seq<Record>): set<string> {
    if NumericColumn(rows) then {} else IdsOf(rows)
  }

  /** The ids the scan reads back as strings: those of the batch files
      whose first column is not all integers. Only these can equal a
      subject directory's name, so only these are skipped. */
  function MatchableIds(dir: Directory, prefix: string): set<string> {
    set name, i | name in dir && IsBatchFile(prefix, name) && !NumericColumn(dir[name]) && 0 <= i < |dir[name]| :: dir[name][i].id
  }

  /** Every id read back as a string is a completed one, and a completed id
      that is not all digits is always read back as a string. */
  lemma MatchableIdsMeaning(dir: Directory, prefix: string)
    ensures MatchableIds(dir, prefix) <= CompletedIds(dir, prefix)
    ensures forall x :: !NumericId(x) ==> (x in MatchableIds(dir, prefix) <==> x in CompletedIds(dir, prefix))
  {
    forall x | !NumericId(x) && x in CompletedIds(dir, prefix) ensures x in MatchableIds(dir, prefix) {
      var name, i :| name in dir && IsBatchFile(prefix, name) && 0 <= i < |dir[name]| && dir[name][i].id == x;
      assert !NumericColumn(dir[name]);
    }
  }

  /** A directory whose batch files all hold integer first columns has
      nothing to read back as a string. */
  lemma NumericFilesMatchNothing(dir: Directory, prefix: string)
    requires forall name :: name in dir && IsBatchFile(prefix, name) ==> NumericColumn(dir[name])
    ensures MatchableIds(dir, prefix) == {}
  {
  }

  /** b is `max(0, largest batch index) + 1`. */
  predicate IsNextBatch(dir: Directory, prefix: string, b: int)
    requires ScanSucceeds(dir, prefix)
  {
    && b >= 1
    && (forall name :: name in dir && IsBatchFile(prefix, name) ==> IndexOf(prefix, name) < b)
    && (b == 1 || exists name :: name in dir && IsBatchFile(prefix, name) && IndexOf(prefix, name) == b - 1)
  }

  /** The characterisation of the next index leaves no choice. */
  lemma NextBatchUnique(dir: Directory, prefix: string, b: int, c: int)
    requires ScanSucceeds(dir, prefix)
    requires IsNextBatch(dir, prefix, b) && IsNextBatch(dir, prefix, c)
    ensures b == c
  {
  }

  /** Without batch files the first index written is 1, not 0. */
  lemma FirstRunStartsAtOne(dir: Directory, prefix: string)
    requires forall name :: name in dir ==> !IsBatchFile(prefix, name)
    ensures ScanSucceeds(dir, prefix) && IsNextBatch(dir, prefix, 1)
    ensures CompletedIds(dir, prefix) == {}
  {
  }

  /** The batch files of one run: full batches of BatchSize rows... */
  function FullChunks(recs: seq<Record>): seq<seq<Record>> {
    seq(|recs| / BatchSize, i requires 0 <= i < |recs| / BatchSize =>
      recs[i * BatchSize .. (i + 1) * BatchSize])
  }

  /** ...the rows still buffered after the last full batch... */
  function Buffered(recs: seq<Record>): seq<Record> {
    recs[|recs| / BatchSize * BatchSize ..]
  }

  /** ...and the remainder, written at the end only when it is not empty. */
  function Chunks(recs: seq<Record>): seq<seq<Record>> {
    FullChunks(recs) + (if Buffered(recs) == [] then [] else [Buffered(recs)])
  }

  /** The names of batches start .. start + n - 1, in order. */
  function BatchNames(prefix: string, start: nat, n: nat): (names: seq<string>)
    ensures |names| == n
  {
    seq(n, k requires 0 <= k < n => BatchName(prefix, start + k))
  }

  /** Writing chunks[k] to file names[k], one file after another. */
  function WriteFiles(dir: Directory, names: seq<string>, chunks: seq<seq<Record>>): Directory
    requires |names| == |chunks|
    decreases |chunks|
  {
    if chunks == [] then dir
    else
      WriteFiles(dir, names[..|names| - 1], chunks[..|chunks| - 1])[names[|names| - 1] := chunks[|chunks| - 1]]
  }

  /** A run's writes: chunks[k] under index start + k. */
  function WriteBatches(dir: Directory, prefix: string, start: nat, chunks: seq<seq<Record>>): Directory {
    WriteFiles(dir, BatchNames(prefix, start, |chunks|), chunks)
  }

  /** Appending one row either fills the buffer, which becomes a new full
      batch and leaves the buffer empty, or just extends the buffer. */
  lemma ChunksSnoc(recs: seq<Record>, r: Record)
    ensures |Buffered(recs)| == |recs| % BatchSize
    ensures |recs + [r]| % BatchSize == 0 ==>
      FullChunks(recs + [r]) == FullChunks(recs) + [Buffered(recs) + [r]] &&
      Buffered(recs + [r]) == []
    ensures |recs + [r]| % BatchSize != 0 ==>
      FullChunks(recs + [r]) == FullChunks(recs) &&
      Buffered(recs + [r]) == Buffered(recs) + [r]
  {
    var s := recs + [r];
    var n := |recs|;
    var q := n / BatchSize;
    if (n + 1) % BatchSize == 0 {
      assert (n + 1) / BatchSize == q + 1;
      var a, b := FullChunks(s), FullChunks(recs) + [Buffered(recs) + [r]];
      assert |a| == |b|;
      forall i | 0 <= i < |a| ensures a[i] == b[i] {
        if i < q {
          assert s[i * BatchSize .. (i + 1) * BatchSize] == recs[i * BatchSize .. (i + 1) * BatchSize];
        } else {
          assert s[q * BatchSize .. (q + 1) * BatchSize] == recs[q * BatchSize ..] + [r];
        }
      }
    } else {
      assert (n + 1) / BatchSize == q;
      var a, b := FullChunks(s), FullChunks(recs);
      assert |a| == |b|;
      forall i | 0 <= i < |a| ensures a[i] == b[i] {
        assert s[i * BatchSize .. (i + 1) * BatchSize] == recs[i * BatchSize .. (i + 1) * BatchSize];
      }
      assert s[q * BatchSize ..] == recs[q * BatchSize ..] + [r];
    }
  }

  /** How many batch files a run writes: the full ones, and one more when
      rows are left over. */
  lemma ChunksCount(recs: seq<Record>)
    ensures |FullChunks(recs)| == |recs| / BatchSize
    ensures |Buffered(recs)| == |recs| % BatchSize
    ensures |Chunks(recs)| == |recs| / BatchSize + (if |recs| % BatchSize == 0 then 0 else 1)
    ensures |Chunks(recs)| == (|recs| + BatchSize - 1) / BatchSize
  {
    var n := |recs|;
    assert n == n / BatchSize * BatchSize + n % BatchSize;
    assert |Buffered(recs)| == n % BatchSize;
    if n % BatchSize == 0 {
      assert Buffered(recs) == [];
      assert n + BatchSize - 1 == n / BatchSize * BatchSize + (BatchSize - 1);
    } else {
      assert Buffered(recs) != [];
      assert n + BatchSize - 1 == (n / BatchSize + 1) * BatchSize + (n % BatchSize - 1);
    }
  }

  /** Batch file i of a run holds rows i * BatchSize onwards: BatchSize of
      them, or the rest for the last file, which is never empty. */
  lemma ChunkAt(recs: seq<Record>, i: nat)
    requires i < |Chunks(recs)|
    ensures i * BatchSize < |recs|
    ensures i < |recs| / BatchSize ==> Chunks(recs)[i] == recs[i * BatchSize .. (i + 1) * BatchSize]
    ensures i >= |recs| / BatchSize ==> i == |recs| / BatchSize && Chunks(recs)[i] == recs[i * BatchSize ..]
    ensures 0 < |Chunks(recs)[i]| <= BatchSize
    ensures i < |Chunks(recs)| - 1 ==> |Chunks(recs)[i]| == BatchSize
  {
    ChunksCount(recs);
    var n := |recs|;
    assert n == n / BatchSize * BatchSize + n % BatchSize;
    if i < n / BatchSize {
      assert (i + 1) * BatchSize <= n / BatchSize * BatchSize;
      assert Chunks(recs)[i] == FullChunks(recs)[i];
    } else {
      assert Chunks(recs)[i] == Buffered(recs);
    }
  }

  /** Row j of a run lands in chunk j / BatchSize at position j % BatchSize. */
  lemma ChunkOfRow(recs: seq<Record>, j: nat)
    requires j < |recs|
    ensures j / BatchSize < |Chunks(recs)| && j % BatchSize < |Chunks(recs)[j / BatchSize]|
    ensures Chunks(recs)[j / BatchSize][j % BatchSize] == recs[j]
  {
    ChunksCount(recs);
    var n, i, k := |recs|, j / BatchSize, j % BatchSize;
    assert j == i * BatchSize + k;
    assert n == n / BatchSize * BatchSize + n % BatchSize;
    if i >= n / BatchSize {
      assert i * BatchSize < n / BatchSize * BatchSize + BatchSize;
      assert i == n / BatchSize && n % BatchSize != 0;
    }
    ChunkAt(recs, i);
  }

  /** Position k of chunk i holds row i * BatchSize + k of the run. */
  lemma RowOfChunk(recs: seq<Record>, i: nat, k: nat)
    requires i < |Chunks(recs)| && k < |Chunks(recs)[i]|
    ensures k < BatchSize && i * BatchSize + k < |recs|
    ensures Chunks(recs)[i][k] == recs[i * BatchSize + k]
  {
    ChunkAt(recs, i);
  }

  /** The layout of a run's batch files: ceil(n / BatchSize) files, none
      empty, all but the last exactly full, and row j of the run is row
      j % BatchSize of file j / BatchSize (so every row is in exactly one
      file, in order). */
  lemma ChunksLayout(recs: seq<Record>)
    ensures |Chunks(recs)| == (|recs| + BatchSize - 1) / BatchSize
    ensures forall i :: 0 <= i < |Chunks(recs)| ==> 0 < |Chunks(recs)[i]| <= BatchSize
    ensures forall i :: 0 <= i < |Chunks(recs)| - 1 ==> |Chunks(recs)[i]| == BatchSize
    ensures forall j :: 0 <= j < |recs| ==>
      j / BatchSize < |Chunks(recs)| && j % BatchSize < |Chunks(recs)[j / BatchSize]| &&
      Chunks(recs)[j / BatchSize][j % BatchSize] == recs[j]
    ensures forall i, k :: 0 <= i < |Chunks(recs)| && 0 <= k < |Chunks(recs)[i]| ==>
      i * BatchSize + k < |recs| && Chunks(recs)[i][k] == recs[i * BatchSize + k]
  {
    ChunksCount(recs);
    forall i | 0 <= i < |Chunks(recs)|
      ensures 0 < |Chunks(recs)[i]| <= BatchSize
      ensures i < |Chunks(recs)| - 1 ==> |Chunks(recs)[i]| == BatchSize
    {
      ChunkAt(recs, i);
    }
    forall j | 0 <= j < |recs|
      ensures j / BatchSize < |Chunks(recs)| && j % BatchSize < |Chunks(recs)[j / BatchSize]|
      ensures Chunks(recs)[j / BatchSize][j % BatchSize] == recs[j]
    {
      ChunkOfRow(recs, j);
    }
    forall i, k | 0 <= i < |Chunks(recs)| && 0 <= k < |Chunks(recs)[i]|
      ensures i * BatchSize + k < |recs| && Chunks(recs)[i][k] == recs[i * BatchSize + k]
    {
      RowOfChunk(recs, i, k);
    }
  }

  /** The subject ids of a list of chunks. */
  function IdsIn(chunks: seq<seq<Record>>): set<string> {
    set i, k | 0 <= i < |chunks| && 0 <= k < |chunks[i]| :: chunks[i][k].id
  }

  /** The ids written by a run are exactly the ids of its rows. */
  lemma IdsInChunks(recs: seq<Record>)
    ensures IdsIn(Chunks(recs)) == IdsOf(recs)
  {
    var c := Chunks(recs);
    forall x | x in IdsOf(recs) ensures x in IdsIn(c) {
      var j :| 0 <= j < |recs| && recs[j].id == x;
      ChunkOfRow(recs, j);
      assert c[j / BatchSize][j % BatchSize].id == x;
    }
    forall x | x in IdsIn(c) ensures x in IdsOf(recs) {
      var i, k :| 0 <= i < |c| && 0 <= k < |c[i]| && c[i][k].id == x;
      RowOfChunk(recs, i, k);
      assert recs[i * BatchSize + k].id == x;
    }
  }

  lemma IdsInSnoc(chunks: seq<seq<Record>>)
    requires chunks != []
    ensures IdsIn(chunks) == IdsIn(chunks[..|chunks| - 1]) + IdsOf(chunks[|chunks| - 1])
  {
    var init, last := chunks[..|chunks| - 1], chunks[|chunks| - 1];
    forall x | x in IdsIn(chunks) ensures x in IdsIn(init) + IdsOf(last) {
      var i, k :| 0 <= i < |chunks| && 0 <= k < |chunks[i]| && chunks[i][k].id == x;
      if i < |init| { assert init[i][k].id == x; } else { assert last[k].id == x; }
    }
    forall x | x in IdsIn(init) + IdsOf(last) ensures x in IdsIn(chunks) {
      if x in IdsIn(init) {
        var i, k :| 0 <= i < |init| && 0 <= k < |init[i]| && init[i][k].id == x;
        assert chunks[i][k].id == x;
      } else {
        var k :| 0 <= k < |last| && last[k].id == x;
        assert chunks[|chunks| - 1][k].id == x;
      }
    }
  }

  /** Writing one file under the next free index: the name is new, a new
      scan still succeeds, adds the file's ids and continues one further. */
  lemma AddBatchFile(dir: Directory, prefix: string, b: nat, rows: seq<Record>)
    requires ScanSucceeds(dir, prefix) && IsNextBatch(dir, prefix, b)
    ensures BatchName(prefix, b) !in dir
    ensures var after := dir[BatchName(prefix, b) := rows];
      && ScanSucceeds(after, prefix)
      && IsNextBatch(after, prefix, b + 1)
      && CompletedIds(after, prefix) == CompletedIds(dir, prefix) + IdsOf(rows)
  {
    var name := BatchName(prefix, b);
    var after: Directory := dir[name := rows];
    BatchNameIndex(prefix, b);
    assert name !in dir;
    assert IsNextBatch(after, prefix, b + 1) by {
      assert name in after && IsBatchFile(prefix, name) && IndexOf(prefix, name) == b;
    }
    forall x ensures x in CompletedIds(after, prefix) <==> x in CompletedIds(dir, prefix) + IdsOf(rows) {
      if x in CompletedIds(after, prefix) {
        var n: string, i: int :| n in after && IsBatchFile(prefix, n) && 0 <= i < |after[n]| && after[n][i].id == x;
        if n != name { assert dir[n][i].id == x; }
      }
      if x in CompletedIds(dir, prefix) {
        var n: string, i: int :| n in dir && IsBatchFile(prefix, n) && 0 <= i < |dir[n]| && dir[n][i].id == x;
        assert after[n][i].id == x;
      }
      if x in IdsOf(rows) {
        var i :| 0 <= i < |rows| && rows[i].id == x;
        assert after[name][i].id == x;
      }
    }
  }

  /** The batch names of a run are pairwise different. */
  lemma BatchNamesDistinct(prefix: string, start: nat, n: nat)
    ensures Distinct(BatchNames(prefix, start, n))
  {
    var names := BatchNames(prefix, start, n);
    forall i, j | 0 <= i < j < n ensures names[i] != names[j] {
      BatchNameInjective(prefix, start + i, start + j);
    }
  }

  /** Writing one more chunk writes one more file, under the next index. */
  lemma WriteBatchesSnoc(dir: Directory, prefix: string, start: nat, chunks: seq<seq<Record>>)
    requires chunks != []
    ensures BatchNames(prefix, start, |chunks|) ==
            BatchNames(prefix, start, |chunks| - 1) + [BatchName(prefix, start + |chunks| - 1)]
    ensures WriteBatches(dir, prefix, start, chunks) ==
            WriteBatches(dir, prefix, start, chunks[..|chunks| - 1])
              [BatchName(prefix, start + |chunks| - 1) := chunks[|chunks| - 1]]
  {
    var m := |chunks|;
    var names := BatchNames(prefix, start, m);
    var init := BatchNames(prefix, start, m - 1);
    forall k | 0 <= k < m - 1 ensures names[..m - 1][k] == init[k] {
    }
    assert names[..m - 1] == init;
    assert names == names[..m - 1] + [names[m - 1]];
  }

  /** The files after a sequence of writes: the old ones and the written ones. */
  lemma {:induction false} WriteFilesKeys(dir: Directory, names: seq<string>, chunks: seq<seq<Record>>)
    requires |names| == |chunks|
    ensures forall name :: name in WriteFiles(dir, names, chunks) <==> name in dir || name in names
    decreases |chunks|
  {
    if chunks != [] {
      var m := |chunks|;
      WriteFilesKeys(dir, names[..m - 1], chunks[..m - 1]);
      assert names == names[..m - 1] + [names[m - 1]];
    }
  }

  /** A file no write names keeps its rows. */
  lemma {:induction false} WriteFilesOthers(dir: Directory, names: seq<string>, chunks: seq<seq<Record>>, name: string)
    requires |names| == |chunks| && name in dir && name !in names
    ensures name in WriteFiles(dir, names, chunks) && WriteFiles(dir, names, chunks)[name] == dir[name]
    decreases |chunks|
  {
    if chunks != [] {
      var m := |chunks|;
      assert name !in names[..m - 1] && name != names[m - 1];
      WriteFilesOthers(dir, names[..m - 1], chunks[..m - 1], name);
    }
  }

  /** With distinct names, file names[k] holds chunk k. */
  lemma {:induction false} WriteFilesWritten(dir: Directory, names: seq<string>, chunks: seq<seq<Record>>, k: nat)
    requires |names| == |chunks| && Distinct(names) && k < |names|
    ensures names[k] in WriteFiles(dir, names, chunks) && WriteFiles(dir, names, chunks)[names[k]] == chunks[k]
    decreases |chunks|
  {
    var m := |chunks|;
    if k < m - 1 {
      var initNames, initChunks := names[..m - 1], chunks[..m - 1];
      assert Distinct(initNames);
      assert names[k] != names[m - 1];
      WriteFilesWritten(dir, initNames, initChunks, k);
      assert initNames[k] == names[k] && initChunks[k] == chunks[k];
    }
  }

  /** Which files a sequence of writes leaves where: exactly the written
      names are added, chunk k is in file names[k], and every other file is
      as it was. */
  lemma WriteFilesFrame(dir: Directory, names: seq<string>, chunks: seq<seq<Record>>)
    requires |names| == |chunks| && Distinct(names)
    ensures var after := WriteFiles(dir, names, chunks);
      && (forall name :: name in after <==> name in dir || name in names)
      && (forall name :: name in dir && name !in names ==> name in after && after[name] == dir[name])
      && (forall k :: 0 <= k < |names| ==> names[k] in after && after[names[k]] == chunks[k])
  {
    WriteFilesKeys(dir, names, chunks);
    forall name | name in dir && name !in names
      ensures name in WriteFiles(dir, names, chunks) && WriteFiles(dir, names, chunks)[name] == dir[name]
    {
      WriteFilesOthers(dir, names, chunks, name);
    }
    forall k | 0 <= k < |names|
      ensures names[k] in WriteFiles(dir, names, chunks) && WriteFiles(dir, names, chunks)[names[k]] == chunks[k]
    {
      WriteFilesWritten(dir, names, chunks, k);
    }
  }

  /** The names of a run's batches are all new: every existing batch file
      has an index below the next one. */
  lemma BatchNamesFresh(dir: Directory, prefix: string, b: nat, n: nat)
    requires ScanSucceeds(dir, prefix) && IsNextBatch(dir, prefix, b)
    ensures forall name :: name in BatchNames(prefix, b, n) ==> name !in dir
  {
    var names := BatchNames(prefix, b, n);
    forall k | 0 <= k < n ensures names[k] !in dir {
      BatchNameIndex(prefix, b + k);
    }
  }

  /** One more chunk of a run is one more file under the next free index. */
  lemma WriteBatchesStep(dir: Directory, prefix: string, b: nat, chunks: seq<seq<Record>>)
    requires chunks != []
    requires var mid := WriteBatches(dir, prefix, b, chunks[..|chunks| - 1]);
      ScanSucceeds(mid, prefix) && IsNextBatch(mid, prefix, b + |chunks| - 1)
    ensures var mid := WriteBatches(dir, prefix, b, chunks[..|chunks| - 1]);
      var after := WriteBatches(dir, prefix, b, chunks);
      && ScanSucceeds(after, prefix)
      && IsNextBatch(after, prefix, b + |chunks|)
      && CompletedIds(after, prefix) == CompletedIds(mid, prefix) + IdsOf(chunks[|chunks| - 1])
  {
    var m := |chunks|;
    var mid := WriteBatches(dir, prefix, b, chunks[..m - 1]);
    AddBatchFile(mid, prefix, b + m - 1, chunks[m - 1]);
    WriteBatchesSnoc(dir, prefix, b, chunks);
  }

  /** Writing chunks under the next free indices: a new scan succeeds,
      finds the old completed set plus the written ids, and continues at
      the index after the last one written. */
  lemma {:induction false} WriteFresh(dir: Directory, prefix: string, b: nat, chunks: seq<seq<Record>>)
    requires ScanSucceeds(dir, prefix) && IsNextBatch(dir, prefix, b)
    ensures var after := WriteBatches(dir, prefix, b, chunks);
      && ScanSucceeds(after, prefix)
      && CompletedIds(after, prefix) == CompletedIds(dir, prefix) + IdsIn(chunks)
      && IsNextBatch(after, prefix, b + |chunks|)
    decreases |chunks|
  {
    if chunks == [] {
      assert IdsIn(chunks) == {};
      assert WriteBatches(dir, prefix, b, chunks) == dir;
    } else {
      WriteFresh(dir, prefix, b, chunks[..|chunks| - 1]);
      WriteBatchesStep(dir, prefix, b, chunks);
      IdsInSnoc(chunks);
    }
  }

  /** Idempotent resume: after a run writes the rows `recs` under the next
      free index, a new scan succeeds, its completed set is the old one
      plus exactly the subjects of `recs`, and its next index follows the
      last file written. */
  lemma ResumeAfterRun(dir: Directory, prefix: string, b: nat, recs: seq<Record>)
    requires ScanSucceeds(dir, prefix) && IsNextBatch(dir, prefix, b)
    ensures var after := WriteBatches(dir, prefix, b, Chunks(recs));
      && ScanSucceeds(after, prefix)
      && CompletedIds(after, prefix) == CompletedIds(dir, prefix) + IdsOf(recs)
      && IsNextBatch(after, prefix, b + (|recs| + BatchSize - 1) / BatchSize)
  {
    WriteFresh(dir, prefix, b, Chunks(recs));
    IdsInChunks(recs);
    ChunksLayout(recs);
  }

  /** The full batches of a run are the batch files of its rows up to the
      last full batch: nothing of the buffer is among them. */
  lemma FullChunksOfFlushed(recs: seq<Record>)
    ensures |recs| / BatchSize * BatchSize <= |recs|
    ensures FullChunks(recs) == Chunks(recs[..|recs| / BatchSize * BatchSize])
  {
    var m := |recs| / BatchSize * BatchSize;
    var flushed := recs[..m];
    assert |flushed| / BatchSize == |recs| / BatchSize;
    assert Buffered(flushed) == [];
    forall i | 0 <= i < |recs| / BatchSize
      ensures FullChunks(flushed)[i] == FullChunks(recs)[i]
    {
      assert (i + 1) * BatchSize <= m;
    }
  }

  /** A run killed part-way has written its full batches and lost its
      buffer. The files it leaves are a valid checkpoint: a new scan
      succeeds, finds the old subjects plus exactly those of the rows
      flushed, continues after the last file written, and (for a run that
      only recorded new subjects, each once) still sees every subject in at
      most one row. The rows that were only buffered are redone. */
  lemma KilledRunResumes(dir: Directory, prefix: string, b: nat, recs: seq<Record>)
    requires ScanSucceeds(dir, prefix) && IsNextBatch(dir, prefix, b)
    ensures |recs| / BatchSize * BatchSize <= |recs|
    ensures var after := WriteBatches(dir, prefix, b, FullChunks(recs));
      && ScanSucceeds(after, prefix)
      && CompletedIds(after, prefix) == CompletedIds(dir, prefix) + IdsOf(recs[..|recs| / BatchSize * BatchSize])
      && IsNextBatch(after, prefix, b + |recs| / BatchSize)
      && (UniqueIds(dir, prefix) && DistinctIds(recs) && IdsOf(recs) !! CompletedIds(dir, prefix) ==>
            UniqueIds(after, prefix))
  {
    var m := |recs| / BatchSize * BatchSize;
    var flushed := recs[..m];
    FullChunksOfFlushed(recs);
    ResumeAfterRun(dir, prefix, b, flushed);
    assert (|flushed| + BatchSize - 1) / BatchSize == |recs| / BatchSize;
    if UniqueIds(dir, prefix) && DistinctIds(recs) && IdsOf(recs) !! CompletedIds(dir, prefix) {
      assert IdsOf(flushed) <= IdsOf(recs) by {
        forall x | x in IdsOf(flushed) ensures x in IdsOf(recs) {
          var i :| 0 <= i < |flushed| && flushed[i].id == x;
          assert recs[i].id == x;
        }
      }
      RunKeepsIdsUnique(dir, prefix, b, flushed);
    }
  }

  /** No subject id occurs twice among the rows of the batch files. */
  predicate UniqueIds(dir: Directory, prefix: string) {
    forall n1, i1, n2, i2 ::
      (n1 in dir && IsBatchFile(prefix, n1) && 0 <= i1 < |dir[n1]| &&
       n2 in dir && IsBatchFile(prefix, n2) && 0 <= i2 < |dir[n2]| &&
       (n1 != n2 || i1 != i2)) ==> dir[n1][i1].id != dir[n2][i2].id
  }

  predicate DistinctIds(recs: seq<Record>) {
    forall i, j :: 0 <= i < j < |recs| ==> recs[i].id != recs[j].id
  }

  /** Where row i of file `name` comes from after a run: p < 0 when the
      file existed before and is unchanged, otherwise row p of the run,
      row i of the k-th file written. */
  lemma RowOrigin(dir: Directory, prefix: string, b: nat, recs: seq<Record>, name: string, i: nat)
    returns (p: int, k: nat)
    requires ScanSucceeds(dir, prefix) && IsNextBatch(dir, prefix, b)
    requires name in WriteBatches(dir, prefix, b, Chunks(recs))
    requires i < |WriteBatches(dir, prefix, b, Chunks(recs))[name]|
    ensures p < 0 ==> name in dir && WriteBatches(dir, prefix, b, Chunks(recs))[name] == dir[name]
    ensures p >= 0 ==> p < |recs| && WriteBatches(dir, prefix, b, Chunks(recs))[name][i] == recs[p]
    ensures p >= 0 ==> k < |Chunks(recs)| && name == BatchNames(prefix, b, |Chunks(recs)|)[k] &&
                       i < BatchSize && p == k * BatchSize + i
  {
    var c := Chunks(recs);
    var names := BatchNames(prefix, b, |c|);
    WriteFilesKeys(dir, names, c);
    if name in dir {
      BatchNamesFresh(dir, prefix, b, |c|);
      WriteFilesOthers(dir, names, c, name);
      p, k := -1, 0;
    } else {
      k :| 0 <= k < |names| && names[k] == name;
      BatchNamesDistinct(prefix, b, |c|);
      WriteFilesWritten(dir, names, c, k);
      RowOfChunk(recs, k, i);
      p := k * BatchSize + i;
    }
  }

  /** A run that writes only new subjects, each once, keeps every subject
      in at most one row of one batch file. */
  lemma RunKeepsIdsUnique(dir: Directory, prefix: string, b: nat, recs: seq<Record>)
    requires ScanSucceeds(dir, prefix) && IsNextBatch(dir, prefix, b) && UniqueIds(dir, prefix)
    requires DistinctIds(recs) && IdsOf(recs) !! CompletedIds(dir, prefix)
    ensures UniqueIds(WriteBatches(dir, prefix, b, Chunks(recs)), prefix)
  {
    var after: Directory := WriteBatches(dir, prefix, b, Chunks(recs));
    forall n1: string, i1: int, n2: string, i2: int |
      n1 in after && IsBatchFile(prefix, n1) && 0 <= i1 < |after[n1]| &&
      n2 in after && IsBatchFile(prefix, n2) && 0 <= i2 < |after[n2]| &&
      (n1 != n2 || i1 != i2)
      ensures after[n1][i1].id != after[n2][i2].id
    {
      var p1, k1 := RowOrigin(dir, prefix, b, recs, n1, i1);
      var p2, k2 := RowOrigin(dir, prefix, b, recs, n2, i2);
      if p1 >= 0 && p2 >= 0 {
      } else if p1 >= 0 {
        assert after[n2][i2].id in CompletedIds(dir, prefix);
        assert after[n1][i1].id in IdsOf(recs);
      } else if p2 >= 0 {
        assert after[n1][i1].id in CompletedIds(dir, prefix);
        assert after[n2][i2].id in IdsOf(recs);
      }
    }
  }
}

=== FILE: convert_aortic.dfy ===
/** The resumable aorta converter, `data/convert_aortic_data.py`: group the
    aorta zip files by `<eid>_<num>`, then visit the keys in sorted order.
    A key whose final output directory exists is done and skipped; any
    other key is converted into `<key>.working`, which is renamed to the
    final directory when the conversion succeeds. A key whose zip files
    hold no DICOM file keeps its working directory and gets no final one,
    so the next run tries it again. Runs of skipped keys are reported by
    count. Unzipping, the manifest and the DICOM to NIfTI conversion are
    not part of this model: whether a key's DICOM directory ends up empty
    is an input. */
module ConvertAortic {
  import opened Wrappers
  import opened Sorting
  import opened Ingest

  /** The directory of aorta zip files under the data directory. */
  const AorticDir := "20210-aortic"

  /** The output directory: the final directories `<key>` and the working
      directories `<key>.working`, both named by key. A key (digits,
      '_', digits) never ends in ".working", so the two never collide. */
  datatype OutDir = OutDir(finals: set<string>, working: set<string>)

  /** One key of the loop: skip it when done; otherwise recreate its
      working directory, and rename it to the final directory unless the
      DICOM directory is empty. */
  function VisitKey(out: OutDir, key: string, dicomEmpty: bool): OutDir {
    if key in out.finals then out
    else if dicomEmpty then OutDir(out.finals, out.working + {key})
    else OutDir(out.finals + {key}, out.working - {key})
  }

  /** The output directory after visiting `keys` in order. */
  function AfterRun(out: OutDir, keys: seq<string>, dicomEmpty: string -> bool): OutDir
    decreases |keys|
  {
    if keys == [] then out
    else
      var key := keys[|keys| - 1];
      VisitKey(AfterRun(out, keys[..|keys| - 1], dicomEmpty), key, dicomEmpty(key))
  }

  /** The counts the loop prints, given the keys still to visit, the keys
      done before the run and the count pending: a run of skipped keys is
      printed when the next key is converted, and once more at the end. */
  function SkipReports(keys: seq<string>, done: set<string>, pending: nat): seq<nat>
    decreases |keys|
  {
    if keys == [] then (if pending > 0 then [pending] else [])
    else if keys[0] in done then SkipReports(keys[1..], done, pending + 1)
    else (if pending > 0 then [pending] else []) + SkipReports(keys[1..], done, 0)
  }

  /** How many of the keys are done. */
  function CountDone(keys: seq<string>, done: set<string>): nat
    decreases |keys|
  {
    if keys == [] then 0 else (if keys[0] in done then 1 else 0) + CountDone(keys[1..], done)
  }

  function Sum(s: seq<nat>): nat
    decreases |s|
  {
    if s == [] then 0 else s[0] + Sum(s[1..])
  }

  lemma {:induction false} SumAppend(a: seq<nat>, b: seq<nat>)
    ensures Sum(a + b) == Sum(a) + Sum(b)
    decreases |a|
  {
    if a != [] {
      assert (a + b)[1..] == a[1..] + b;
      SumAppend(a[1..], b);
    } else {
      assert a + b == b;
    }
  }

  /** The printed counts are positive and add up to the pending count plus
      the number of done keys: every skipped key is reported once. */
  lemma {:induction false} SkipReportsSum(keys: seq<string>, done: set<string>, pending: nat)
    ensures Sum(SkipReports(keys, done, pending)) == pending + CountDone(keys, done)
    ensures forall i :: 0 <= i < |SkipReports(keys, done, pending)| ==> SkipReports(keys, done, pending)[i] > 0
    decreases |keys|
  {
    if keys != [] {
      if keys[0] in done {
        SkipReportsSum(keys[1..], done, pending + 1);
      } else {
        SkipReportsSum(keys[1..], done, 0);
        var head: seq<nat> := if pending > 0 then [pending] else [];
        SumAppend(head, SkipReports(keys[1..], done, 0));
      }
    }
  }

  /** After a run a key has its final directory exactly when it had one
      before or was visited with a non-empty DICOM directory; a visited key
      without a final directory keeps its working directory, and no other
      working directory appears or goes. */
  lemma {:induction false} AfterRunState(out: OutDir, keys: seq<string>, dicomEmpty: string -> bool)
    ensures var r := AfterRun(out, keys, dicomEmpty);
      && (forall k :: k in r.finals <==> k in out.finals || (k in keys && !dicomEmpty(k)))
      && (forall k :: k in keys && k !in out.finals ==> (k in r.working <==> dicomEmpty(k)))
      && (forall k :: k !in keys ==> (k in r.working <==> k in out.working))
    decreases |keys|
  {
    if keys != [] {
      var init := keys[..|keys| - 1];
      var key := keys[|keys| - 1];
      AfterRunState(out, init, dicomEmpty);
      assert forall k :: k in keys <==> k in init || k == key;
    }
  }

  /** The loop over the sorted keys, with its skip counter. */
  method ConvertKeys(out0: OutDir, keys: seq<string>, dicomEmpty: string -> bool) returns (out: OutDir, reports: seq<nat>)
    requires Distinct(keys)
    ensures out == AfterRun(out0, keys, dicomEmpty)
    ensures reports == SkipReports(keys, out0.finals, 0)
  {
    out := out0;
    reports := [];
    var skipped: nat := 0;
    for i := 0 to |keys|
      invariant out == AfterRun(out0, keys[..i], dicomEmpty)
      invariant forall j :: i <= j < |keys| ==> (keys[j] in out.finals <==> keys[j] in out0.finals)
      invariant reports + SkipReports(keys[i..], out0.finals, skipped) == SkipReports(keys, out0.finals, 0)
    {
      assert keys[..i + 1][..i] == keys[..i];
      assert keys[i..][1..] == keys[i + 1..];
      var key := keys[i];
      if key in out.finals {
        skipped := skipped + 1;
      } else {
        if skipped > 0 {
          reports := reports + [skipped];
          skipped := 0;
        }
        if dicomEmpty(key) {
          out := OutDir(out.finals, out.working + {key});
        } else {
          out := OutDir(out.finals + {key}, out.working - {key});
        }
      }
    }
    assert keys[..|keys|] == keys;
    if skipped > 0 {
      reports := reports + [skipped];
    }
  }

  /** One run of the converter: the command line and the presence of the
      aorta directory are checked first (`exit(-1)`, status 255 to a
      shell), then the zip files of
      the aorta directory are grouped and the keys converted in sorted
      order. */
  method ConvertAorticData(argv: seq<string>, hasAorticDir: bool, listing: seq<string>, out0: OutDir,
                           dicomEmpty: string -> bool)
    returns (status: int, groups: ZipGroups, out: OutDir, reports: seq<nat>)
    ensures ParseConvertArgs(argv).None? || !hasAorticDir ==> status == -1 && out == out0 && reports == []
    ensures ParseConvertArgs(argv).Some? && hasAorticDir ==>
      && status == 0
      && groups == Grouped(NoGroups, AorticDir, listing, KeyOf(AorticCodes))
      && out == AfterRun(out0, Sort(groups.keys), dicomEmpty)
      && reports == SkipReports(Sort(groups.keys), out0.finals, 0)
  {
    groups, out, reports := NoGroups, out0, [];
    var inv := ParseConvertArgs(argv);
    if inv.None? || !hasAorticDir {
      status := -1;
      return;
    }
    groups := GroupZips(NoGroups, AorticDir, listing, AorticCodes);
    GroupedLists(NoGroups, AorticDir, listing, KeyOf(AorticCodes));
    var keys := Sort(groups.keys);
    SortKeepsDistinct(groups.keys);
    out, reports := ConvertKeys(out0, keys, dicomEmpty);
    status := 0;
  }

  /** A second run over the same keys with the same outcomes converts
      nothing: every key with DICOM data is done, and the rest are tried
      again and still come out empty. */
  lemma SecondRunConvertsNothing(out0: OutDir, keys: seq<string>, dicomEmpty: string -> bool)
    ensures var once := AfterRun(out0, keys, dicomEmpty);
      AfterRun(once, keys, dicomEmpty).finals == once.finals
  {
    var once := AfterRun(out0, keys, dicomEmpty);
    AfterRunState(out0, keys, dicomEmpty);
    AfterRunState(once, keys, dicomEmpty);
  }

  /** A key whose DICOM directory is empty gets no final directory, so the
      next run visits it again rather than skipping it. */
  lemma EmptyDicomRetried(out0: OutDir, keys: seq<string>, dicomEmpty: string -> bool, key: string)
    requires key in keys && key !in out0.finals && dicomEmpty(key)
    ensures var once := AfterRun(out0, keys, dicomEmpty);
      key !in once.finals && key in once.working
  {
    AfterRunState(out0, keys, dicomEmpty);
  }
}

=== FILE: convert_data.dfy ===
/** The per-subject converter, `data/convert_data.py`: every directory of
    the data directory is a subject `<eid>`, visited in sorted order. Its
    zip files `<eid>_*.zip` are extracted, the cvi42 zip into the subject
    directory and every other one into the DICOM directory; contours are
    parsed when `<eid>.cvi42wsx` exists; a subject whose DICOM directory
    is empty is skipped. Unzipping, the manifest, contour parsing and the
    DICOM to NIfTI conversion are not part of this model: the zip names,
    the presence of the contour file and whether the DICOM directory is
    empty are inputs. */
module ConvertSubjects {
  import opened Wrappers
  import opened Strings
  import opened Sorting
  import opened Ingest

  /** Where a zip file is extracted. */
  datatype Target = SubjectDir | DicomDir

  datatype Extraction = Extraction(zip: string, target: Target)

  /** The glob `<eid>_*.zip` on a name of the subject directory. */
  predicate GlobMatch(eid: string, name: string) {
    |name| >= |eid| + 5 && StartsWith(name, eid + "_") && EndsWith(name, ".zip")
  }

  /** The cvi42 archive of a subject. */
  function Cvi42Zip(eid: string): string {
    eid + "_cvi42.zip"
  }

  /** The extractions of a subject directory's zip files, in glob order. */
  function Dispatch(eid: string, entries: seq<string>): (plan: seq<Extraction>)
    ensures forall e :: e in plan ==> e.zip in entries && GlobMatch(eid, e.zip)
    ensures forall e :: e in plan ==> (e.target == SubjectDir <==> e.zip == Cvi42Zip(eid))
    decreases |entries|
  {
    if entries == [] then []
    else
      var f := entries[|entries| - 1];
      var init := Dispatch(eid, entries[..|entries| - 1]);
      init + (if GlobMatch(eid, f) then [Extraction(f, if f == Cvi42Zip(eid) then SubjectDir else DicomDir)] else [])
  }

  /** Every zip file the glob finds is extracted. */
  lemma {:induction false} DispatchComplete(eid: string, entries: seq<string>, f: string)
    requires f in entries && GlobMatch(eid, f)
    ensures exists e :: e in Dispatch(eid, entries) && e.zip == f
    decreases |entries|
  {
    var last := entries[|entries| - 1];
    if f == last {
      assert Dispatch(eid, entries)[|Dispatch(eid, entries)| - 1].zip == f;
    } else {
      var init := entries[..|entries| - 1];
      assert f in init;
      DispatchComplete(eid, init, f);
      var e :| e in Dispatch(eid, init) && e.zip == f;
      assert e in Dispatch(eid, entries);
    }
  }

  /** The loop over the glob's result. */
  method DispatchZips(eid: string, entries: seq<string>) returns (plan: seq<Extraction>)
    ensures plan == Dispatch(eid, entries)
  {
    plan := [];
    for i := 0 to |entries|
      invariant plan == Dispatch(eid, entries[..i])
    {
      assert entries[..i + 1][..i] == entries[..i];
      var f := entries[i];
      if GlobMatch(eid, f) {
        if f == Cvi42Zip(eid) {
          plan := plan + [Extraction(f, SubjectDir)];
        } else {
          plan := plan + [Extraction(f, DicomDir)];
        }
      }
    }
    assert entries[..|entries|] == entries;
  }

  /** What happens to one subject: its extractions, its contour directory
      (none without a contour file) and whether it is converted. */
  datatype SubjectRun = SubjectRun(eid: string, extractions: seq<Extraction>, contours: Option<string>, converted: bool)

  /** The contour directory of a subject, when its `.cvi42wsx` file exists. */
  function ContoursDir(dataDir: string, hasXml: bool): (c: Option<string>)
    ensures c.Some? <==> hasXml
    ensures c.Some? ==> c.value == JoinPath(dataDir, "cvi42_contours")
  {
    if hasXml then Some(JoinPath(dataDir, "cvi42_contours")) else None
  }

  /** The subjects visited, in order: the directory entries of the sorted
      listing, each with its own outcome. */
  function Runs(dataPath: string, order: seq<string>, isDir: string -> bool, entriesOf: string -> seq<string>,
                hasXml: string -> bool, dicomEmpty: string -> bool): seq<SubjectRun>
    decreases |order|
  {
    if order == [] then []
    else
      var eid := order[|order| - 1];
      Runs(dataPath, order[..|order| - 1], isDir, entriesOf, hasXml, dicomEmpty) +
        (if isDir(eid) then
           [SubjectRun(eid, Dispatch(eid, entriesOf(eid)), ContoursDir(JoinPath(dataPath, eid), hasXml(eid)), !dicomEmpty(eid))]
         else [])
  }

  /** The entries of `order` that are directories, in order. */
  function Dirs(order: seq<string>, isDir: string -> bool): seq<string>
    decreases |order|
  {
    if order == [] then []
    else Dirs(order[..|order| - 1], isDir) + (if isDir(order[|order| - 1]) then [order[|order| - 1]] else [])
  }

  /** The visited subjects are the directories of the listing, in sorted
      order, and a subject is converted exactly when its DICOM directory
      is not empty. */
  lemma {:induction false} RunsFollowDirs(dataPath: string, order: seq<string>, isDir: string -> bool,
                                          entriesOf: string -> seq<string>, hasXml: string -> bool, dicomEmpty: string -> bool)
    ensures var runs := Runs(dataPath, order, isDir, entriesOf, hasXml, dicomEmpty);
      && |runs| == |Dirs(order, isDir)|
      && (forall i :: 0 <= i < |runs| ==> runs[i].eid == Dirs(order, isDir)[i])
      && (forall i :: 0 <= i < |runs| ==> (runs[i].converted <==> !dicomEmpty(runs[i].eid)))
      && (forall i :: 0 <= i < |runs| ==> runs[i].extractions == Dispatch(runs[i].eid, entriesOf(runs[i].eid)))
    decreases |order|
  {
    if order != [] {
      RunsFollowDirs(dataPath, order[..|order| - 1], isDir, entriesOf, hasXml, dicomEmpty);
    }
  }

  /** The directories of a sorted listing are sorted, and each is in the
      listing. */
  lemma {:induction false} DirsSorted(order: seq<string>, isDir: string -> bool)
    requires Sorted(order)
    ensures Sorted(Dirs(order, isDir))
    ensures forall x :: x in Dirs(order, isDir) <==> x in order && isDir(x)
    decreases |order|
  {
    if order != [] {
      var init := order[..|order| - 1];
      var last := order[|order| - 1];
      assert Sorted(init);
      DirsSorted(init, isDir);
      assert forall x :: x in order <==> x in init || x == last;
      var d := Dirs(init, isDir);
      if isDir(last) {
        forall i, j | 0 <= i < j < |d + [last]| ensures LexLeq((d + [last])[i], (d + [last])[j]) {
          if j == |d| {
            assert d[i] in d;
            assert d[i] in init;
            var k :|0 <= k < |init| && init[k] == d[i];
            assert order[k] == d[i];
          }
        }
      }
    }
  }

  /** One run: the command line is checked first (`exit(-1)`, status 255
      to a shell), then every
      subject directory is visited in sorted order. A data directory that
      cannot be listed (`dataDirExists` false) raises before any subject is
      visited; the uncaught exception ends the interpreter with status 1. */
  method ConvertData(argv: seq<string>, dataDirExists: bool, listing: seq<string>, isDir: string -> bool,
                     entriesOf: string -> seq<string>, hasXml: string -> bool, dicomEmpty: string -> bool)
    returns (status: int, runs: seq<SubjectRun>)
    ensures ParseConvertArgs(argv).None? ==> status == -1 && runs == []
    ensures ParseConvertArgs(argv).Some? && !dataDirExists ==> status == 1 && runs == []
    ensures ParseConvertArgs(argv).Some? && dataDirExists ==>
      status == 0 && runs == Runs(ParseConvertArgs(argv).value.dataPath, Sort(listing), isDir, entriesOf, hasXml, dicomEmpty)
  {
    runs := [];
    var inv := ParseConvertArgs(argv);
    if inv.None? {
      status := -1;
      return;
    }
    if !dataDirExists {
      status := 1;
      return;
    }
    var dataPath := inv.value.dataPath;
    var order := Sort(listing);
    for i := 0 to |order|
      invariant runs == Runs(dataPath, order[..i], isDir, entriesOf, hasXml, dicomEmpty)
    {
      assert order[..i + 1][..i] == order[..i];
      var eid := order[i];
      if isDir(eid) {
        var plan := DispatchZips(eid, entriesOf(eid));
        var contours := ContoursDir(JoinPath(dataPath, eid), hasXml(eid));
        runs := runs + [SubjectRun(eid, plan, contours, !dicomEmpty(eid))];
      }
    }
    assert order[..|order|] == order;
    status := 0;
  }
}

=== FILE: convert_data2.dfy ===
/** The cine converter, `data/convert_data2.py`: the zip files of the
    long-axis directory and then of the short-axis directory are grouped
    by `<eid>_<num>`, and every key is converted in the dict's insertion
    order. There is no resume: every key's output directory is created (or
    reused) on every run. A key whose DICOM directory comes out empty is
    skipped without conversion. Unzipping, the manifest and the DICOM to
    NIfTI conversion are not part of this model. */
module ConvertCine {
  import opened Wrappers
  import opened Sorting
  import opened Ingest

  const LongAxisDir := "20208-long"
  const ShortAxisDir := "20209-short"

  /** The dict after both loops: long-axis files first, then short-axis. */
  function CineGroups(laListing: seq<string>, saListing: seq<string>): ZipGroups {
    Grouped(Grouped(NoGroups, LongAxisDir, laListing, KeyOf(CineCodes)), ShortAxisDir, saListing, KeyOf(CineCodes))
  }

  /** The keys converted, in the dict's order: those whose DICOM directory
      is not empty. */
  function Converted(keys: seq<string>, dicomEmpty: string -> bool): seq<string>
    decreases |keys|
  {
    if keys == [] then []
    else Converted(keys[..|keys| - 1], dicomEmpty) + (if dicomEmpty(keys[|keys| - 1]) then [] else [keys[|keys| - 1]])
  }

  /** A key is converted exactly when it is in the dict and its DICOM
      directory is not empty. */
  lemma {:induction false} ConvertedMembers(keys: seq<string>, dicomEmpty: string -> bool)
    ensures forall k :: k in Converted(keys, dicomEmpty) <==> k in keys && !dicomEmpty(k)
    decreases |keys|
  {
    if keys != [] {
      ConvertedMembers(keys[..|keys| - 1], dicomEmpty);
      assert forall k :: k in keys <==> k in keys[..|keys| - 1] || k == keys[|keys| - 1];
    }
  }

  /** The conversion loop: every key gets its output directory; the
      non-empty ones are converted, in order. */
  method ConvertInOrder(keys: seq<string>, dicomEmpty: string -> bool) returns (created: set<string>, converted: seq<string>)
    ensures created == set k | k in keys
    ensures converted == Converted(keys, dicomEmpty)
  {
    created, converted := {}, [];
    for i := 0 to |keys|
      invariant created == set k | k in keys[..i]
      invariant converted == Converted(keys[..i], dicomEmpty)
    {
      assert keys[..i + 1][..i] == keys[..i];
      assert forall k :: k in keys[..i + 1] <==> k in keys[..i] || k == keys[i];
      var key := keys[i];
      created := created + {key};
      if !dicomEmpty(key) {
        converted := converted + [key];
      }
    }
    assert keys[..|keys|] == keys;
  }

  /** One run: the command line and both input directories are checked
      first (`exit(-1)`, status 255 to a shell), then the files are grouped
      and the keys converted. */
  method ConvertCineData(argv: seq<string>, hasLongAxis: bool, hasShortAxis: bool,
                         laListing: seq<string>, saListing: seq<string>, dicomEmpty: string -> bool)
    returns (status: int, groups: ZipGroups, created: set<string>, converted: seq<string>)
    ensures ParseConvertArgs(argv).None? || !hasLongAxis || !hasShortAxis ==> status == -1 && created == {} && converted == []
    ensures ParseConvertArgs(argv).Some? && hasLongAxis && hasShortAxis ==>
      && status == 0
      && groups == CineGroups(laListing, saListing)
      && created == set k | k in groups.keys
      && converted == Converted(groups.keys, dicomEmpty)
  {
    groups, created, converted := NoGroups, {}, [];
    if ParseConvertArgs(argv).None? || !hasLongAxis || !hasShortAxis {
      status := -1;
      return;
    }
    groups := GroupZips(NoGroups, LongAxisDir, laListing, CineCodes);
    groups := GroupZips(groups, ShortAxisDir, saListing, CineCodes);
    created, converted := ConvertInOrder(groups.keys, dicomEmpty);
    status := 0;
  }

  /** Within a key, every long-axis file comes before every short-axis
      file, each directory in its listing order; the keys are those with a
      matching file in either directory, each once, and the keys first met
      in the long-axis listing come first. */
  lemma LongAxisFirst(laListing: seq<string>, saListing: seq<string>)
    ensures var la := Grouped(NoGroups, LongAxisDir, laListing, KeyOf(CineCodes));
      var g := CineGroups(laListing, saListing);
      && Distinct(g.keys)
      && |g.keys| >= |la.keys| && g.keys[..|la.keys|] == la.keys
      && (forall k :: k in g.keys <==>
            Matching(LongAxisDir, laListing, KeyOf(CineCodes), k) != [] ||
            Matching(ShortAxisDir, saListing, KeyOf(CineCodes), k) != [])
      && (forall k :: ListOf(g, k) ==
            Matching(LongAxisDir, laListing, KeyOf(CineCodes), k) + Matching(ShortAxisDir, saListing, KeyOf(CineCodes), k))
  {
    var la := Grouped(NoGroups, LongAxisDir, laListing, KeyOf(CineCodes));
    GroupedLists(NoGroups, LongAxisDir, laListing, KeyOf(CineCodes));
    GroupedLists(la, ShortAxisDir, saListing, KeyOf(CineCodes));
    forall k ensures ListOf(la, k) == Matching(LongAxisDir, laListing, KeyOf(CineCodes), k) {
      assert ListOf(NoGroups, k) == [];
    }
  }
}

=== FILE: ingest.dfy ===
/** What the three DICOM converters share: the command line, the zip file
    names they recognise, and the dict of lists that groups the zip files
    of one subject visit under the key `<eid>_<num>`. */
module Ingest {
  import opened Wrappers
  import opened Strings
  import opened Sorting

  /** The data directory (one trailing '/' removed) and the output
      directory of a converter run. */
  datatype Invocation = Invocation(dataPath: string, outputDir: string)

  /** `argv` of a converter: the program name, the data directory and an
      optional output directory, which defaults to `<data_path>.converted`.
      Any other argument count is a usage error (exit -1). `status` in the
      converters is the argument given to `exit()`; a shell sees it modulo
      256, so -1 shows as 255. */
  function ParseConvertArgs(argv: seq<string>): (r: Option<Invocation>)
    ensures r.Some? <==> 2 <= |argv| <= 3
  {
    if |argv| < 2 || |argv| > 3 then None
    else
      var data := StripTrailingSlash(argv[1]);
      Some(Invocation(data, if |argv| == 3 then argv[2] else data + ".converted"))
  }

  /** The data path loses at most one trailing '/', and the default output
      directory sits beside it. */
  lemma ConvertArgsPaths(argv: seq<string>)
    requires 2 <= |argv| <= 3
    ensures var inv := ParseConvertArgs(argv).value;
      && (EndsWith(argv[1], "/") ==> inv.dataPath + "/" == argv[1])
      && (!EndsWith(argv[1], "/") ==> inv.dataPath == argv[1])
      && (|argv| == 2 ==> inv.outputDir == inv.dataPath + ".converted")
      && (|argv| == 3 ==> inv.outputDir == argv[2])
  {
  }

  /** Only one slash goes: "/data//" keeps one. */
  lemma ConvertArgsExample()
    ensures ParseConvertArgs(["convert", "/data/"]) == Some(Invocation("/data", "/data.converted"))
    ensures ParseConvertArgs(["convert", "/data//", "/out"]) == Some(Invocation("/data/", "/out"))
    ensures ParseConvertArgs(["convert"]) == None
  {
    assert EndsWith("/data/", "/") && "/data/"[..5] == "/data";
    assert "/data" + ".converted" == "/data.converted";
    assert EndsWith("/data//", "/") && "/data//"[..6] == "/data/";
  }

  /** The visit codes of the UK Biobank cine (long and short axis) and
      aorta zip files. */
  const CineCodes: set<string> := {"20208", "20209"}
  const AorticCodes: set<string> := {"20210"}

  /** The shape `(\d+)_<code>_(\d+)_0.zip` matched at the start of a name:
      eid and num are digit runs, `code` is one of the visit codes, the
      unescaped `.` is any character but a newline, and anything may
      follow `zip`. */
  predicate ZipShape(name: string, eid: string, code: string, num: string) {
    var head := eid + "_" + code + "_" + num + "_0";
    && |eid| > 0 && AllDigits(eid) && |num| > 0 && AllDigits(num) && |code| == 5
    && |name| >= |head| + 4 && name[..|head|] == head
    && name[|head|] != '\n' && name[|head| + 1..|head| + 4] == "zip"
  }

  /** The key `<eid>_<num>` of a zip file name, when the pattern matches. */
  function MatchZipName(name: string, codes: set<string>): Option<string> {
    var eid := LeadingDigits(name);
    var rest := name[|eid|..];
    if |eid| == 0 || |rest| < 7 || rest[0] != '_' || rest[1..6] !in codes || rest[6] != '_' then None
    else
      var tail := rest[7..];
      var num := LeadingDigits(tail);
      var after := tail[|num|..];
      if |num| > 0 && |after| >= 6 && after[..2] == "_0" && after[2] != '\n' && after[3..6] == "zip"
      then Some(eid + "_" + num)
      else None
  }

  /** Every name the matcher accepts has the pattern's shape, and the key
      joins its two digit groups. */
  lemma MatchZipSound(name: string, codes: set<string>)
    requires MatchZipName(name, codes).Some?
    ensures exists eid, code, num ::
      (ZipShape(name, eid, code, num) && code in codes && MatchZipName(name, codes).value == eid + "_" + num)
  {
    var eid := LeadingDigits(name);
    var rest := name[|eid|..];
    var code := rest[1..6];
    var tail := rest[7..];
    var num := LeadingDigits(tail);
    var after := tail[|num|..];
    var head := eid + "_" + code + "_" + num + "_0";
    var e, n := |eid|, |num|;
    assert |head| == e + 9 + n;
    forall t | 0 <= t < |head| ensures name[t] == head[t] {
      if t < e {
        assert name[..e][t] == eid[t];
      } else if t < e + 7 {
        assert name[t] == rest[t - e];
      } else if t < e + 7 + n {
        assert name[t] == rest[t - e] == tail[t - e - 7];
        assert tail[..n][t - e - 7] == num[t - e - 7];
      } else {
        assert name[t] == rest[t - e] == tail[t - e - 7] == after[t - e - 7 - n];
      }
    }
    assert name[..|head|] == head;
    assert name[|head|] == after[2];
    assert name[|head| + 1..|head| + 4] == after[3..6];
    assert ZipShape(name, eid, code, num);
  }

  /** Every name of the pattern's shape is accepted, with the key of its
      digit groups: the greedy digit runs stop at the underscores. */
  lemma MatchZipComplete(name: string, codes: set<string>, eid: string, code: string, num: string)
    requires ZipShape(name, eid, code, num) && code in codes
    ensures MatchZipName(name, codes) == Some(eid + "_" + num)
  {
    EidPart(name, eid, code, num);
    NumPart(name, eid, code, num);
  }

  /** The matcher's first digit run is the eid, followed by `_<code>_`. */
  lemma EidPart(name: string, eid: string, code: string, num: string)
    requires ZipShape(name, eid, code, num)
    ensures LeadingDigits(name) == eid
    ensures var rest := name[|eid|..];
      |rest| >= 7 && rest[0] == '_' && rest[1..6] == code && rest[6] == '_'
  {
    var head := eid + "_" + code + "_" + num + "_0";
    var e := |eid|;
    HeadAt(name, head);
    var rest := name[e..];
    assert name[..e] == eid by {
      forall t | 0 <= t < e ensures name[..e][t] == eid[t] {
        assert head[t] == eid[t];
      }
    }
    assert name == eid + rest by {
      assert name == name[..e] + name[e..];
    }
    assert rest[0] == '_' by {
      assert name[e] == head[e];
    }
    LeadingDigitsOf(eid, rest);
    assert rest[1..6] == code by {
      forall t | 0 <= t < 5 ensures rest[1..6][t] == code[t] {
        assert name[e + 1 + t] == head[e + 1 + t];
      }
    }
    assert rest[6] == '_' by {
      assert name[e + 6] == head[e + 6];
    }
  }

  /** The matcher's second digit run is num, followed by `_0`, any
      character and `zip`. */
  lemma NumPart(name: string, eid: string, code: string, num: string)
    requires ZipShape(name, eid, code, num)
    ensures var tail := name[|eid| + 7..];
      && LeadingDigits(tail) == num
      && var after := tail[|num|..];
         |after| >= 6 && after[..2] == "_0" && after[2] != '\n' && after[3..6] == "zip"
  {
    var head := eid + "_" + code + "_" + num + "_0";
    var e, n := |eid|, |num|;
    assert |head| == e + 9 + n;
    HeadAt(name, head);
    var tail := name[e + 7..];
    assert tail[..n] == num by {
      forall t | 0 <= t < n ensures tail[..n][t] == num[t] {
        assert name[e + 7 + t] == head[e + 7 + t];
      }
    }
    var after := tail[n..];
    assert tail == num + after by {
      assert tail == tail[..n] + tail[n..];
    }
    assert after[..2] == "_0" by {
      assert name[e + 7 + n] == head[e + 7 + n];
      assert name[e + 8 + n] == head[e + 8 + n];
    }
    LeadingDigitsOf(num, after);
    assert after[2] == name[|head|];
    assert after[3..6] == name[|head| + 1..|head| + 4];
  }

  lemma HeadAt(name: string, head: string)
    requires |name| >= |head| && name[..|head|] == head
    ensures forall t :: 0 <= t < |head| ==> name[t] == head[t]
  {
    forall t | 0 <= t < |head| ensures name[t] == head[t] {
      assert name[..|head|][t] == head[t];
    }
  }

  /** A Python dict of lists: its keys in insertion order and the list of
      each key. */
  datatype ZipGroups = ZipGroups(keys: seq<string>, lists: map<string, seq<string>>)

  const NoGroups := ZipGroups([], map[])

  /** The keys are those of the map, each once. */
  ghost predicate WellFormed(g: ZipGroups) {
    Distinct(g.keys) && forall k :: k in g.lists <==> k in g.keys
  }

  /** `zip_files.get(key, [])`. */
  function ListOf(g: ZipGroups, key: string): seq<string> {
    if key in g.lists then g.lists[key] else []
  }

  /** `os.path.join` of a directory and a listed name: a separator is
      added only when the directory is non-empty and does not already end
      in '/'. A listed name never starts with '/', so it never replaces
      the directory. */
  function JoinPath(dir: string, item: string): string {
    if |dir| == 0 || dir[|dir| - 1] == '/' then dir + item else dir + "/" + item
  }

  /** Appending to a key's list; a new key goes to the end of the dict. */
  function AddZip(g: ZipGroups, key: string, path: string): ZipGroups {
    ZipGroups(if key in g.lists then g.keys else g.keys + [key], g.lists[key := ListOf(g, key) + [path]])
  }

  /** The key of a zip file name under the given visit codes. */
  function KeyOf(codes: set<string>): string -> Option<string> {
    name => MatchZipName(name, codes)
  }

  /** The dict after the loop over one directory's listing; `keyOf` gives
      each listed name's key, or none for a name the pattern rejects. */
  function Grouped(g: ZipGroups, dir: string, listing: seq<string>, keyOf: string -> Option<string>): ZipGroups
    decreases |listing|
  {
    if listing == [] then g
    else
      var h := Grouped(g, dir, listing[..|listing| - 1], keyOf);
      var item := listing[|listing| - 1];
      match keyOf(item)
      case None => h
      case Some(key) => AddZip(h, key, JoinPath(dir, item))
  }

  /** The paths of the listed names whose key is `key`, in listing order. */
  function Matching(dir: string, listing: seq<string>, keyOf: string -> Option<string>, key: string): seq<string>
    decreases |listing|
  {
    if listing == [] then []
    else
      var item := listing[|listing| - 1];
      Matching(dir, listing[..|listing| - 1], keyOf, key) +
        (if keyOf(item) == Some(key) then [JoinPath(dir, item)] else [])
  }

  /** The loop over one directory: every key's list grows by exactly the
      matching names of the listing, in listing order; new keys are
      appended after the old ones; the dict stays well formed. */
  lemma {:induction false} GroupedLists(g: ZipGroups, dir: string, listing: seq<string>, keyOf: string -> Option<string>)
    requires WellFormed(g)
    ensures var r := Grouped(g, dir, listing, keyOf);
      && WellFormed(r)
      && |r.keys| >= |g.keys| && r.keys[..|g.keys|] == g.keys
      && (forall k :: k in r.lists <==> k in g.lists || Matching(dir, listing, keyOf, k) != [])
      && (forall k :: ListOf(r, k) == ListOf(g, k) + Matching(dir, listing, keyOf, k))
    decreases |listing|
  {
    if listing != [] {
      var init := listing[..|listing| - 1];
      var item := listing[|listing| - 1];
      GroupedLists(g, dir, init, keyOf);
      var h := Grouped(g, dir, init, keyOf);
      var r := Grouped(g, dir, listing, keyOf);
      if keyOf(item).Some? {
        var key := keyOf(item).value;
        var path := JoinPath(dir, item);
        assert r == AddZip(h, key, path);
        AddZipStep(g, h, key, path, Matching(dir, init, keyOf, key));
        assert Matching(dir, listing, keyOf, key) == Matching(dir, init, keyOf, key) + [path];
        forall k | k != key
          ensures ListOf(r, k) == ListOf(g, k) + Matching(dir, listing, keyOf, k)
          ensures k in r.lists <==> k in g.lists || Matching(dir, listing, keyOf, k) != []
        {
          assert Matching(dir, listing, keyOf, k) == Matching(dir, init, keyOf, k);
        }
      } else {
        assert r == h;
        forall k ensures Matching(dir, listing, keyOf, k) == Matching(dir, init, keyOf, k) {
        }
      }
    }
  }

  /** One append keeps the dict well formed and extends one key's list. */
  lemma AddZipStep(g: ZipGroups, h: ZipGroups, key: string, path: string, before: seq<string>)
    requires WellFormed(h) && |h.keys| >= |g.keys| && h.keys[..|g.keys|] == g.keys
    requires ListOf(h, key) == ListOf(g, key) + before
    ensures var r := AddZip(h, key, path);
      && WellFormed(r)
      && |r.keys| >= |g.keys| && r.keys[..|g.keys|] == g.keys
      && ListOf(r, key) == ListOf(g, key) + (before + [path])
      && key in r.lists
      && (forall k :: k != key ==> ListOf(r, k) == ListOf(h, k) && (k in r.lists <==> k in h.lists))
  {
    var r := AddZip(h, key, path);
    if key !in h.lists {
      assert r.keys[..|g.keys|] == h.keys[..|g.keys|];
    }
  }

  /** A path is in a key's matching list exactly when it joins a listed
      name of that key. */
  lemma {:induction false} MatchingMembers(dir: string, listing: seq<string>, keyOf: string -> Option<string>, key: string, p: string)
    ensures p in Matching(dir, listing, keyOf, key) <==>
      exists i :: 0 <= i < |listing| && p == JoinPath(dir, listing[i]) && keyOf(listing[i]) == Some(key)
    decreases |listing|
  {
    if listing != [] {
      var init := listing[..|listing| - 1];
      MatchingMembers(dir, init, keyOf, key, p);
      if exists i :: 0 <= i < |init| && p == JoinPath(dir, init[i]) && keyOf(init[i]) == Some(key) {
        var i :| 0 <= i < |init| && p == JoinPath(dir, init[i]) && keyOf(init[i]) == Some(key);
        assert listing[i] == init[i];
      }
      if exists i :: 0 <= i < |listing| && p == JoinPath(dir, listing[i]) && keyOf(listing[i]) == Some(key) {
        var i :| 0 <= i < |listing| && p == JoinPath(dir, listing[i]) && keyOf(listing[i]) == Some(key);
        if i < |init| {
          assert init[i] == listing[i];
        }
      }
    }
  }

  /** Joining under one directory keeps names apart. */
  lemma JoinPathInjective(dir: string, a: string, b: string)
    requires JoinPath(dir, a) == JoinPath(dir, b)
    ensures a == b
  {
    var n := if |dir| == 0 || dir[|dir| - 1] == '/' then |dir| else |dir| + 1;
    assert a == JoinPath(dir, a)[n..];
    assert b == JoinPath(dir, b)[n..];
  }

  /** A directory given with or without its trailing '/' names its entries
      alike, and an empty directory leaves the name as it is. */
  lemma JoinPathExample()
    ensures JoinPath("/data/", "123") == "/data/123"
    ensures JoinPath("/data", "123") == "/data/123"
    ensures JoinPath("", "123") == "123"
  {
  }

  /** A listing without repeats puts each file in its key's list once. */
  lemma {:induction false} MatchingDistinct(dir: string, listing: seq<string>, keyOf: string -> Option<string>, key: string)
    requires Distinct(listing)
    ensures Distinct(Matching(dir, listing, keyOf, key))
    decreases |listing|
  {
    if listing != [] {
      var init := listing[..|listing| - 1];
      var item := listing[|listing| - 1];
      assert Distinct(init);
      MatchingDistinct(dir, init, keyOf, key);
      if keyOf(item) == Some(key) {
        MatchingMembers(dir, init, keyOf, key, JoinPath(dir, item));
        forall i | 0 <= i < |init| ensures JoinPath(dir, item) != JoinPath(dir, init[i]) {
          if JoinPath(dir, item) == JoinPath(dir, init[i]) {
            JoinPathInjective(dir, item, init[i]);
          }
        }
      }
    }
  }

  /** The grouping loop over one directory listing. */
  method GroupZips(g: ZipGroups, dir: string, listing: seq<string>, codes: set<string>) returns (r: ZipGroups)
    ensures r == Grouped(g, dir, listing, KeyOf(codes))
  {
    r := g;
    for i := 0 to |listing|
      invariant r == Grouped(g, dir, listing[..i], KeyOf(codes))
    {
      assert listing[..i + 1][..i] == listing[..i];
      var item := listing[i];
      var m := MatchZipName(item, codes);
      if m.Some? {
        var key := m.value;
        var list := ListOf(r, key);
        r := ZipGroups(if key in r.lists then r.keys else r.keys + [key], r.lists[key := list + [JoinPath(dir, item)]]);
      }
    }
    assert listing[..|listing|] == listing;
  }
}

=== FILE: launch_plan.dfy ===
/** What the two launchers share: the steps they run, each a command line
    reduced to its arguments, and the `.converted` suffix rule that derives
    the output directory from the data directory. The environment strings
    (PYTHONPATH, the GPU id) and the spawning of processes are not part of
    this model. */
module LaunchPlan {
  import opened Wrappers
  import opened Strings

  /** One step: deploying a segmentation network on a sequence, or running
      an evaluation script that writes one table. */
  datatype Step =
    | Deploy(script: string, seqName: string, dataDir: string, modelPath: string, seg4: bool)
    | Evaluate(script: string, dataDir: string, pressureCsv: Option<string>, parDir: Option<string>, outputCsv: string)

  /** What a launcher run amounts to: its output directory and its steps. */
  datatype Launch = Launch(outputDir: string, plan: seq<Step>)

  /** The data directories the converters produce end in one of these. */
  predicate HasConvertedSuffix(d: string) {
    EndsWith(d, ".converted") || EndsWith(d, "-converted") || EndsWith(d, "_converted")
  }

  /** The data directory without its ten-character converted suffix. */
  function ConvertedBase(d: string): (b: string)
    requires HasConvertedSuffix(d)
    ensures |b| + 10 == |d| && StartsWith(d, b)
    ensures EndsWith(d, ".converted") ==> b + ".converted" == d
  {
    d[..|d| - 10]
  }

  /** The path of a table in the table directory. */
  function TablePath(dir: string, name: string): (p: string)
    ensures StartsWith(p, dir + "/")
  {
    var p := dir + "/" + name;
    assert p[..|dir + "/"|] == dir + "/";
    p
  }

  /** Every evaluation step reads a segmentation that an earlier step
      deployed a network for. */
  predicate DeployedBefore(plan: seq<Step>, needs: string -> set<string>) {
    forall i :: 0 <= i < |plan| && plan[i].Evaluate? ==>
      forall s :: s in needs(plan[i].script) ==>
        exists j :: 0 <= j < i && plan[j].Deploy? && plan[j].seqName == s
  }

  /** Every table a step writes lies in `dir`. */
  predicate WritesUnder(plan: seq<Step>, dir: string) {
    forall i :: 0 <= i < |plan| && plan[i].Evaluate? ==> StartsWith(plan[i].outputCsv, dir + "/")
  }
}

=== FILE: measures.dfy ===
/** Values of the output tables. numpy turns a division by zero into NaN or
    an infinity instead of raising; both are `Undefined` here. */
module Measures {

  datatype Measure = Num(value: real) | Undefined

  /** numpy's `num / den` on floats: defined exactly when den is not zero. */
  function Ratio(num: real, den: real): (m: Measure)
    ensures m.Num? <==> den != 0.0
    ensures m.Num? ==> m.value * den == num
  {
    if den == 0.0 then Undefined else Num(num / den)
  }
}

=== FILE: predict.dfy ===
/** The full launcher, `predict.py`: from the data directory it derives the
    table directory, then deploys the short-axis network, evaluates
    ventricular volumes and wall thickness (and short-axis strain when
    `mirtk` is installed), deploys the three long-axis networks and
    evaluates atrial volumes (and long-axis strain when `mirtk` is
    installed). The aortic steps are switched off in this launcher. */
module Predict {
  import opened Wrappers
  import opened Strings
  import opened LaunchPlan

  const DeployScript := "common/deploy_network.py"
  const VentricularScript := "short_axis/eval_ventricular_volume.py"
  const WallThicknessScript := "short_axis/eval_wall_thickness.py"
  const StrainSaxScript := "short_axis/eval_strain_sax.py"
  const AtrialScript := "long_axis/eval_atrial_volume.py"
  const StrainLaxScript := "long_axis/eval_strain_lax.py"

  /** The table directory. A converted data directory loses its suffix
      for `.output_csv`; any other one has `output_csv` appended with no
      separator at all. */
  function OutputCsvDir(d: string): string {
    if HasConvertedSuffix(d) then ConvertedBase(d) + ".output_csv" else d + "output_csv"
  }

  /** The table directory is never the data directory itself. For a
      converted directory it is a sibling sharing its base; otherwise it is
      the data directory's name with `output_csv` glued on. */
  lemma OutputCsvDirShape(d: string)
    ensures OutputCsvDir(d) != d
    ensures HasConvertedSuffix(d) ==> EndsWith(OutputCsvDir(d), ".output_csv") && StartsWith(OutputCsvDir(d), ConvertedBase(d))
    ensures HasConvertedSuffix(d) ==> |OutputCsvDir(d)| == |d| + 1
    ensures !HasConvertedSuffix(d) ==> StartsWith(OutputCsvDir(d), d) && OutputCsvDir(d)[|d|..] == "output_csv"
  {
    var o := OutputCsvDir(d);
    if HasConvertedSuffix(d) {
      var b := ConvertedBase(d);
      assert o[..|b|] == b;
      assert o[|o| - 11..] == ".output_csv";
      assert o[|o| - 1] == 'v' != 'd' == d[|d| - 1];
    } else {
      assert o[..|d|] == d;
      assert o[|d|..] == "output_csv";
    }
  }

  /** With no separator the tables land beside the data directory under a
      glued name: "/data/ukbb" gives "/data/ukbboutput_csv". */
  lemma OutputCsvDirGlued(d: string)
    requires d == "/data/ukbb"
    ensures OutputCsvDir(d) == "/data/ukbboutput_csv"
  {
    assert d[0] == '/';
    assert !HasConvertedSuffix(d);
  }

  /** Whether a step is a strain evaluation, the steps `mirtk` gates. */
  predicate IsStrain(s: Step) {
    s.Evaluate? && (s.script == StrainSaxScript || s.script == StrainLaxScript)
  }

  /** The segmentations each evaluation reads. */
  function Needs(script: string): set<string> {
    if script in {VentricularScript, WallThicknessScript, StrainSaxScript} then {"sa"}
    else if script in {AtrialScript, StrainLaxScript} then {"la_2ch", "la_4ch"}
    else {}
  }

  /** The short-axis steps before the optional strain step. */
  function ShortAxisSteps(d: string, out: string): seq<Step> {
    [Deploy(DeployScript, "sa", d, "trained_model/FCN_sa", false),
     Evaluate(VentricularScript, d, None, None, TablePath(out, "table_ventricular_volume.csv")),
     Evaluate(WallThicknessScript, d, None, None, TablePath(out, "table_wall_thickness.csv"))]
  }

  /** The long-axis steps before the optional strain step. */
  function LongAxisSteps(d: string, out: string): seq<Step> {
    [Deploy(DeployScript, "la_2ch", d, "trained_model/FCN_la_2ch", false),
     Deploy(DeployScript, "la_4ch", d, "trained_model/FCN_la_4ch", false),
     Deploy(DeployScript, "la_4ch", d, "trained_model/FCN_la_4ch_seg4", true),
     Evaluate(AtrialScript, d, None, None, TablePath(out, "table_atrial_volume.csv"))]
  }

  /** A strain step, present only when `mirtk` is installed. */
  function StrainStep(script: string, d: string, out: string, table: string, mirtk: bool): seq<Step> {
    if mirtk then [Evaluate(script, d, None, Some("par"), TablePath(out, table))] else []
  }

  /** The steps in their fixed order. */
  function Plan(d: string, out: string, mirtk: bool): seq<Step> {
    ShortAxisSteps(d, out) + StrainStep(StrainSaxScript, d, out, "table_strain_sax.csv", mirtk)
    + LongAxisSteps(d, out) + StrainStep(StrainLaxScript, d, out, "table_strain_lax.csv", mirtk)
  }

  /** The steps without the strain ones, in order. */
  function WithoutStrain(plan: seq<Step>): (r: seq<Step>)
    ensures forall s :: s in r <==> s in plan && !IsStrain(s)
    decreases |plan|
  {
    if plan == [] then []
    else (if IsStrain(plan[0]) then [] else [plan[0]]) + WithoutStrain(plan[1..])
  }

  lemma {:induction false} WithoutStrainAppend(a: seq<Step>, b: seq<Step>)
    ensures WithoutStrain(a + b) == WithoutStrain(a) + WithoutStrain(b)
    decreases |a|
  {
    if a == [] {
      assert a + b == b;
    } else {
      assert (a + b)[1..] == a[1..] + b;
      WithoutStrainAppend(a[1..], b);
    }
  }

  lemma {:induction false} WithoutStrainKeeps(a: seq<Step>)
    requires forall s :: s in a ==> !IsStrain(s)
    ensures WithoutStrain(a) == a
    decreases |a|
  {
    if a != [] {
      assert forall s :: s in a[1..] ==> s in a;
      WithoutStrainKeeps(a[1..]);
    }
  }

  lemma FixedStepsNotStrain(d: string, out: string)
    ensures WithoutStrain(ShortAxisSteps(d, out)) == ShortAxisSteps(d, out)
    ensures WithoutStrain(LongAxisSteps(d, out)) == LongAxisSteps(d, out)
  {
    assert |VentricularScript| != |StrainSaxScript| && |VentricularScript| != |StrainLaxScript|;
    assert |WallThicknessScript| != |StrainSaxScript| && |WallThicknessScript| != |StrainLaxScript|;
    assert |AtrialScript| != |StrainSaxScript| && |AtrialScript| != |StrainLaxScript|;
    WithoutStrainKeeps(ShortAxisSteps(d, out));
    WithoutStrainKeeps(LongAxisSteps(d, out));
  }

  lemma StrainStepDropped(script: string, d: string, out: string, table: string, mirtk: bool)
    requires script == StrainSaxScript || script == StrainLaxScript
    ensures WithoutStrain(StrainStep(script, d, out, table, mirtk)) == []
  {
    if mirtk {
      assert IsStrain(StrainStep(script, d, out, table, mirtk)[0]);
    }
  }

  /** Without `mirtk` the plan is the full plan minus its two strain
      steps; the full plan has nine steps. */
  lemma PlanShape(d: string, out: string)
    ensures |Plan(d, out, true)| == 9 && |Plan(d, out, false)| == 7
    ensures WithoutStrain(Plan(d, out, true)) == Plan(d, out, false)
  {
    var sa, la := ShortAxisSteps(d, out), LongAxisSteps(d, out);
    var sax := StrainStep(StrainSaxScript, d, out, "table_strain_sax.csv", true);
    var lax := StrainStep(StrainLaxScript, d, out, "table_strain_lax.csv", true);
    var sax0 := StrainStep(StrainSaxScript, d, out, "table_strain_sax.csv", false);
    var lax0 := StrainStep(StrainLaxScript, d, out, "table_strain_lax.csv", false);
    WithoutStrainAppend(sa + sax + la, lax);
    WithoutStrainAppend(sa + sax, la);
    WithoutStrainAppend(sa, sax);
    FixedStepsNotStrain(d, out);
    StrainStepDropped(StrainSaxScript, d, out, "table_strain_sax.csv", true);
    StrainStepDropped(StrainLaxScript, d, out, "table_strain_lax.csv", true);
    assert sax0 == [] && lax0 == [];
    calc {
      WithoutStrain(Plan(d, out, true));
      sa + [] + la + [];
      { assert sa + [] + la + [] == sa + sax0 + la + lax0; }
      Plan(d, out, false);
    }
  }

  /** Every step runs on the given data directory, and none deploys the
      aorta network or evaluates the aorta. */
  lemma NoAorticStep(d: string, out: string, mirtk: bool)
    ensures forall i :: 0 <= i < |Plan(d, out, mirtk)| ==>
      && Plan(d, out, mirtk)[i].dataDir == d
      && (Plan(d, out, mirtk)[i].Deploy? ==> Plan(d, out, mirtk)[i].seqName != "ao")
      && (Plan(d, out, mirtk)[i].Evaluate? ==> Plan(d, out, mirtk)[i].pressureCsv.None?)
  {
  }

  /** Every evaluation comes after the networks whose segmentations it
      reads, and every table is written into the table directory. */
  lemma PlanOrder(d: string, out: string, mirtk: bool)
    ensures DeployedBefore(Plan(d, out, mirtk), Needs)
    ensures WritesUnder(Plan(d, out, mirtk), out)
  {
    var p := Plan(d, out, mirtk);
    var k := if mirtk then 1 else 0;
    assert p[0].Deploy? && p[0].seqName == "sa";
    assert p[3 + k].Deploy? && p[3 + k].seqName == "la_2ch";
    assert p[4 + k].Deploy? && p[4 + k].seqName == "la_4ch";
  }

  /** One run: exactly one argument, else exit -1; the data directory
      loses one trailing slash. */
  function Run(argv: seq<string>, mirtk: bool): (r: Option<Launch>)
    ensures r.Some? <==> |argv| == 2
    ensures r.Some? ==> r.value.outputDir == OutputCsvDir(StripTrailingSlash(argv[1]))
    ensures r.Some? ==> r.value.plan == Plan(StripTrailingSlash(argv[1]), r.value.outputDir, mirtk)
  {
    if |argv| != 2 then None
    else
      var d := StripTrailingSlash(argv[1]);
      var out := OutputCsvDir(d);
      Some(Launch(out, Plan(d, out, mirtk)))
  }
}

=== FILE: predict_ao.dfy ===
/** The aorta launcher, `predict_ao.py`: from the data directory it derives
    the table directory, deploys the aorta network and evaluates aortic
    areas and distensibility with the given blood-pressure table. */
module PredictAo {
  import opened Wrappers
  import opened Strings
  import opened LaunchPlan

  const DeployAoScript := "common/deploy_network_ao.py"
  const AorticScript := "aortic/eval_aortic_area2.py"

  /** The table directory: a converted suffix is replaced by `.output_csv`,
      and any other data directory gets `.output_csv` appended. */
  function OutputCsvDir(d: string): string {
    if HasConvertedSuffix(d) then ConvertedBase(d) + ".output_csv" else d + ".output_csv"
  }

  /** The table directory always ends in `.output_csv` and is never the
      data directory; for a converted directory it is the sibling that
      shares the name up to the suffix, one character longer. */
  lemma OutputCsvDirShape(d: string)
    ensures EndsWith(OutputCsvDir(d), ".output_csv")
    ensures OutputCsvDir(d) != d
    ensures HasConvertedSuffix(d) ==> |OutputCsvDir(d)| == |d| + 1 && OutputCsvDir(d)[..|d| - 10] == d[..|d| - 10]
    ensures !HasConvertedSuffix(d) ==> OutputCsvDir(d) == d + ".output_csv"
  {
    var o := OutputCsvDir(d);
    assert o[|o| - 11..] == ".output_csv";
    if HasConvertedSuffix(d) {
      assert o[..|d| - 10] == ConvertedBase(d);
      assert o[|o| - 1] == 'v' != 'd' == d[|d| - 1];
    } else {
      assert |o| > |d|;
    }
  }

  /** The two steps: deploy the aorta network, then evaluate with the
      pressure table passed through unchanged. */
  function Plan(d: string, out: string, pressureCsv: string): seq<Step> {
    [Deploy(DeployAoScript, "ao", d, "trained_model/UNet-LSTM_ao", false),
     Evaluate(AorticScript, d, Some(pressureCsv), None, TablePath(out, "table_aortic_area.csv"))]
  }

  /** The evaluation reads the aorta segmentation deployed just before it,
      takes the pressure table as given and writes into the table
      directory. */
  lemma PlanShape(d: string, out: string, pressureCsv: string)
    ensures var p := Plan(d, out, pressureCsv);
      && |p| == 2
      && DeployedBefore(p, script => if script == AorticScript then {"ao"} else {})
      && WritesUnder(p, out)
      && p[1].pressureCsv == Some(pressureCsv)
  {
    var p := Plan(d, out, pressureCsv);
    assert p[0].Deploy? && p[0].seqName == "ao";
  }

  /** One run: exactly two arguments, else exit -1; the data directory
      loses one trailing slash and the pressure table is used as given. */
  function Run(argv: seq<string>): (r: Option<Launch>)
    ensures r.Some? <==> |argv| == 3
    ensures r.Some? ==> r.value.outputDir == OutputCsvDir(StripTrailingSlash(argv[1]))
    ensures r.Some? ==> EndsWith(r.value.outputDir, ".output_csv")
    ensures r.Some? ==> r.value.plan == Plan(StripTrailingSlash(argv[1]), r.value.outputDir, argv[2])
  {
    if |argv| != 3 then None
    else
      var d := StripTrailingSlash(argv[1]);
      OutputCsvDirShape(d);
      Some(Launch(OutputCsvDir(d), Plan(d, OutputCsvDir(d), argv[2])))
  }
}

=== FILE: sorting.dfy ===
/** Python's `sorted()` on a list of names, and the filters the scripts apply
    to directory listings before sorting them. */
module Sorting {
  import opened Strings

  /** Every pair in s is in code-point order. */
  predicate Sorted(s: seq<string>) {
    forall i, j :: 0 <= i < j < |s| ==> LexLeq(s[i], s[j])
  }

  /** No name occurs twice (a directory listing, the keys of a dict). */
  predicate Distinct(s: seq<string>) {
    forall i, j :: 0 <= i < j < |s| ==> s[i] != s[j]
  }

  function Insert(x: string, s: seq<string>): (r: seq<string>)
    requires Sorted(s)
    ensures Sorted(r)
    ensures multiset(r) == multiset(s) + multiset{x}
  {
    if s == [] then [x]
    else if LexLeq(x, s[0]) then
      InsertFrontSorted(x, s);
      [x] + s
    else
      LexTotal(x, s[0]);
      var t := Insert(x, s[1..]);
      assert s == [s[0]] + s[1..];
      InsertBelowHead(s[0], x, s[1..], t);
      [s[0]] + t
  }

  lemma InsertFrontSorted(x: string, s: seq<string>)
    requires Sorted(s) && s != [] && LexLeq(x, s[0])
    ensures Sorted([x] + s)
  {
    forall j | 0 < j < |[x] + s| ensures LexLeq(([x] + s)[0], ([x] + s)[j]) {
      if j > 1 { LexTransitive(x, s[0], s[j - 1]); }
    }
  }

  lemma InsertBelowHead(h: string, x: string, tail: seq<string>, t: seq<string>)
    requires Sorted([h] + tail) && LexLeq(h, x)
    requires Sorted(t) && multiset(t) == multiset(tail) + multiset{x}
    ensures Sorted([h] + t)
  {
    forall j | 0 <= j < |t| ensures LexLeq(h, t[j]) {
      assert t[j] in multiset(t);
      if t[j] != x {
        assert t[j] in multiset(tail);
        var k :| 0 <= k < |tail| && tail[k] == t[j];
        var ht := [h] + tail;
        assert ht[0] == h && ht[k + 1] == tail[k];
        assert LexLeq(ht[0], ht[k + 1]);
      }
    }
  }

  /** Python's `sorted()` of a list of strings: the same names, in order. */
  function Sort(s: seq<string>): (r: seq<string>)
    ensures Sorted(r)
    ensures multiset(r) == multiset(s)
  {
    if s == [] then []
    else
      assert s == s[..|s| - 1] + [s[|s| - 1]];
      Insert(s[|s| - 1], Sort(s[..|s| - 1]))
  }

  /** A sorted list without repeats is strictly increasing. */
  lemma SortedDistinctStrict(s: seq<string>, i: nat, j: nat)
    requires Sorted(s) && Distinct(s) && i < j < |s|
    ensures !LexLeq(s[j], s[i])
  {
    if LexLeq(s[j], s[i]) { LexAntisymmetric(s[i], s[j]); }
  }

  /** Sorting keeps a list free of repeats. */
  lemma SortKeepsDistinct(s: seq<string>)
    requires Distinct(s)
    ensures Distinct(Sort(s))
  {
    var r := Sort(s);
    forall i, j | 0 <= i < j < |r| ensures r[i] != r[j] {
      if r[i] == r[j] {
        RepeatMultiplicity(r, i, j);
        MultiplicityAtMostOne(s, r[i]);
        assert false;
      }
    }
  }

  lemma RepeatMultiplicity(r: seq<string>, i: nat, j: nat)
    requires i < j < |r| && r[i] == r[j]
    ensures multiset(r)[r[i]] >= 2
  {
    assert r == r[..j] + r[j..];
    assert multiset(r) == multiset(r[..j]) + multiset(r[j..]);
    assert r[..j][i] == r[i];
    assert r[j..][0] == r[j];
    assert r[i] in multiset(r[..j]) && r[j] in multiset(r[j..]);
  }

  lemma MultiplicityAtMostOne(s: seq<string>, x: string)
    requires Distinct(s)
    ensures multiset(s)[x] <= 1
  {
    if s != [] {
      var t := s[..|s| - 1];
      assert s == t + [s[|s| - 1]];
      assert Distinct(t);
      MultiplicityAtMostOne(t, x);
      if x == s[|s| - 1] {
        assert x !in t;
        assert multiset(t)[x] == 0;
      }
    }
  }

  /** Names not starting with '.', in listing order: the scripts' filter
      `not x.startswith('.')`. */
  function Visible(names: seq<string>): (r: seq<string>)
    ensures forall x :: x in r <==> x in names && !StartsWith(x, ".")
    ensures |r| <= |names|
  {
    if names == [] then []
    else
      var last := names[|names| - 1];
      var init := Visible(names[..|names| - 1]);
      assert forall x :: x in names <==> x in names[..|names| - 1] || x == last;
      if StartsWith(last, ".") then init else init + [last]
  }

  lemma {:induction false} VisibleKeepsDistinct(names: seq<string>)
    requires Distinct(names)
    ensures Distinct(Visible(names))
  {
    if names != [] {
      var init := names[..|names| - 1];
      assert Distinct(init);
      VisibleKeepsDistinct(init);
      assert names[|names| - 1] !in init;
    }
  }
}

=== FILE: strings.dfy ===
/** Character and string primitives shared by the pipeline scripts: decimal
    digits, the `{:04d}` zero-padded rendering of batch indices, the part of
    Python's `int()` the scripts rely on, Python's code-point ordering of
    `str`, and the trailing-slash rule used by every command-line entry point. */
module Strings {
  import opened Wrappers

  predicate IsDigit(c: char) {
    '0' <= c <= '9'
  }

  predicate AllDigits(s: string) {
    forall i :: 0 <= i < |s| ==> IsDigit(s[i])
  }

  predicate StartsWith(s: string, p: string) {
    |p| <= |s| && s[..|p|] == p
  }

  predicate EndsWith(s: string, p: string) {
    |p| <= |s| && s[|s| - |p|..] == p
  }

  function DigitValue(c: char): nat
    requires IsDigit(c)
  {
    c as int - '0' as int
  }

  function DigitChar(d: nat): (c: char)
    requires d < 10
    ensures IsDigit(c) && DigitValue(c) == d
  {
    ('0' as int + d) as char
  }

  /** The value of a string of decimal digits, most significant first. */
  function DecimalValue(s: string): nat
    requires AllDigits(s)
    decreases |s|
  {
    if s == [] then 0 else DecimalValue(s[..|s| - 1]) * 10 + DigitValue(s[|s| - 1])
  }

  /** The shortest decimal rendering of n (Python's `str(n)` for n >= 0). */
  function Decimal(n: nat): (s: string)
    ensures AllDigits(s) && |s| > 0
    ensures DecimalValue(s) == n
    ensures n > 0 ==> s[0] != '0'
    ensures n < 10 ==> |s| == 1
    ensures 10 <= n < 100 ==> |s| == 2
    ensures 100 <= n < 1000 ==> |s| == 3
    ensures 1000 <= n < 10000 ==> |s| == 4
  {
    if n < 10 then [DigitChar(n)]
    else
      var s := Decimal(n / 10) + [DigitChar(n % 10)];
      assert s[..|s| - 1] == Decimal(n / 10);
      s
  }

  function Zeros(k: nat): (s: string)
    ensures |s| == k && AllDigits(s)
  {
    if k == 0 then [] else Zeros(k - 1) + ['0']
  }

  /** Leading zeros do not change the value of a digit string. */
  lemma {:induction false} ZerosPrefixValue(k: nat, s: string)
    requires AllDigits(s)
    ensures AllDigits(Zeros(k) + s)
    ensures DecimalValue(Zeros(k) + s) == DecimalValue(s)
  {
    var t := Zeros(k) + s;
    assert AllDigits(t) by {
      forall i | 0 <= i < |t| ensures IsDigit(t[i]) {
        if i < k { assert t[i] == Zeros(k)[i]; } else { assert t[i] == s[i - k]; }
      }
    }
    if s == [] {
      assert t == Zeros(k);
      if k > 0 {
        assert t[..|t| - 1] == Zeros(k - 1);
        ZerosPrefixValue(k - 1, []);
        assert Zeros(k - 1) + [] == Zeros(k - 1);
      }
    } else {
      assert t[..|t| - 1] == Zeros(k) + s[..|s| - 1];
      ZerosPrefixValue(k, s[..|s| - 1]);
    }
  }

  /** Python's format spec `{n:04d}` for a non-negative integer: the
      decimal digits of n, padded with zeros on the left to four places;
      an index of four or more digits is written in full. */
  function ZeroPad4(n: nat): (r: string)
    ensures AllDigits(r) && DecimalValue(r) == n
    ensures n < 10000 ==> |r| == 4
    ensures n >= 1000 ==> r == Decimal(n)
    ensures n < 1000 ==> r == Zeros(4 - |Decimal(n)|) + Decimal(n)
  {
    var d := Decimal(n);
    var k := if n < 10 then 3 else if n < 100 then 2 else if n < 1000 then 1 else 0;
    ZerosPrefixValue(k, d);
    assert Zeros(1) == "0" && Zeros(2) == "00" && Zeros(3) == "000";
    if n < 10 then "000" + d
    else if n < 100 then "00" + d
    else if n < 1000 then "0" + d
    else d
  }

  /** The forms of Python's `int(s)` that batch suffixes can take: an optional
      sign followed by one or more ASCII digits. Anything else raises, here
      `None`. */
  function ParseInt(s: string): Option<int> {
    if |s| > 0 && AllDigits(s) then Some(DecimalValue(s))
    else if |s| > 1 && s[0] == '-' && AllDigits(s[1..]) then Some(-(DecimalValue(s[1..]) as int))
    else if |s| > 1 && s[0] == '+' && AllDigits(s[1..]) then Some(DecimalValue(s[1..]))
    else None
  }

  /** Parsing a zero-padded index gives the index back. */
  lemma ParseZeroPad4(n: nat)
    ensures ParseInt(ZeroPad4(n)) == Some(n)
  {
    assert |ZeroPad4(n)| > 0;
  }

  /** The longest run of digits at the front of s. */
  function LeadingDigits(s: string): (d: string)
    ensures AllDigits(d) && StartsWith(s, d)
    ensures |d| < |s| ==> !IsDigit(s[|d|])
  {
    if s != [] && IsDigit(s[0]) then [s[0]] + LeadingDigits(s[1..]) else []
  }

  /** The digit run in front of a non-digit is exactly that run. */
  lemma {:induction false} LeadingDigitsOf(d: string, rest: string)
    requires AllDigits(d)
    requires rest == [] || !IsDigit(rest[0])
    ensures LeadingDigits(d + rest) == d
  {
    if d != [] {
      assert (d + rest)[1..] == d[1..] + rest;
      LeadingDigitsOf(d[1..], rest);
    } else {
      assert d + rest == rest;
    }
  }

  /** Python's `s.endswith('/')` followed by `s[:-1]`: removes one slash. */
  function StripTrailingSlash(s: string): (r: string)
    ensures EndsWith(s, "/") ==> r + "/" == s
    ensures !EndsWith(s, "/") ==> r == s
  {
    if EndsWith(s, "/") then s[..|s| - 1] else s
  }

  /** Python's `os.path.basename`: the longest suffix free of '/'. It is the
      whole path exactly when the path has no directory part, which is when
      `os.path.dirname` gives the empty string. */
  function Basename(path: string): (b: string)
    ensures '/' !in b
    ensures EndsWith(path, b)
    ensures |b| < |path| ==> path[|path| - |b| - 1] == '/'
    ensures '/' !in path <==> b == path
    decreases |path|
  {
    if path == [] || path[|path| - 1] == '/' then []
    else
      var init := path[..|path| - 1];
      var b := Basename(init) + [path[|path| - 1]];
      assert path == init + [path[|path| - 1]];
      assert '/' in init ==> '/' in path;
      b
  }

  /** Python's ordering of `str`: lexicographic by code point, a proper
      prefix first. */
  predicate LexLeq(a: string, b: string)
    decreases |a|
  {
    a == [] || (b != [] && (a[0] < b[0] || (a[0] == b[0] && LexLeq(a[1..], b[1..]))))
  }

  lemma {:induction false} LexTotal(a: string, b: string)
    ensures LexLeq(a, b) || LexLeq(b, a)
    decreases |a|
  {
    if a != [] && b != [] && a[0] == b[0] {
      LexTotal(a[1..], b[1..]);
    }
  }

  lemma {:induction false} LexTransitive(a: string, b: string, c: string)
    requires LexLeq(a, b) && LexLeq(b, c)
    ensures LexLeq(a, c)
    decreases |a|
  {
    if a != [] && b[0] == a[0] && c[0] == b[0] {
      LexTransitive(a[1..], b[1..], c[1..]);
    }
  }

  lemma {:induction false} LexAntisymmetric(a: string, b: string)
    requires LexLeq(a, b) && LexLeq(b, a)
    ensures a == b
    decreases |a|
  {
    if a != [] {
      LexAntisymmetric(a[1..], b[1..]);
      assert a == [a[0]] + a[1..] && b == [b[0]] + b[1..];
    }
  }
}

=== FILE: ventricular.dfy ===
/** Left and right ventricular volumes from a short-axis cine segmentation,
    and the batch run of `short_axis/eval_ventricular_volume.py`. The image
    header and the segmentation are given by the voxel spacing, the frame
    count and duration, and the number of voxels of each label in each
    frame (label 1 the LV cavity, 2 the LV myocardium, 3 the RV cavity). */
module Ventricular {
  import opened Wrappers
  import opened Measures
  import opened Checkpoint
  import opened Sorting
  import opened BatchDriver

  /** Myocardial density in g/mL. */
  const Density: real := 1.05

  /** What the script reads from the header of `sa.nii.gz`: the voxel
      spacing in mm, the number of frames and the duration of one frame
      in seconds. */
  datatype CineHeader = CineHeader(dx: real, dy: real, dz: real, frames: nat, frameDuration: real)

  /** Voxels of each label in one frame of `seg_sa.nii.gz`. */
  datatype FrameCounts = FrameCounts(lvCavity: nat, myocardium: nat, rvCavity: nat)

  /** A cine segmentation has at least one frame. */
  type Cine = s: seq<FrameCounts> | |s| > 0 witness [FrameCounts(0, 0, 0)]

  /** A subject directory: the image and the segmentation, each present or
      missing. */
  datatype SaSubject = SaSubject(image: Option<CineHeader>, seg: Option<Cine>)

  /** The volume of one voxel in mL (mm^3 times 1e-3). */
  function VoxelVolume(h: CineHeader): real {
    h.dx * h.dy * h.dz * 0.001
  }

  /** Positive voxel spacings give a positive voxel volume, the
      precondition under which the ES frame and the ejection fraction are
      well behaved; a 10 mm cube is 1 mL. */
  lemma VoxelVolumePositive(h: CineHeader)
    requires h.dx > 0.0 && h.dy > 0.0 && h.dz > 0.0
    ensures VoxelVolume(h) > 0.0
    ensures h.dx == 10.0 && h.dy == 10.0 && h.dz == 10.0 ==> VoxelVolume(h) == 1.0
  {
    assert h.dx * h.dy > 0.0;
    assert h.dx * h.dy * h.dz > 0.0;
  }

  /** Beats per minute: one cardiac cycle spans all frames of the cine. */
  function HeartRate(h: CineHeader): (hr: Measure)
    ensures hr.Num? <==> h.frames > 0 && h.frameDuration != 0.0
    ensures hr.Num? ==> hr.value * (h.frames as real * h.frameDuration) == 60.0
  {
    Ratio(60.0, h.frames as real * h.frameDuration)
  }

  /** A measure times a constant; an undefined measure stays undefined. */
  function Scale(m: Measure, c: real): (r: Measure)
    ensures r.Num? <==> m.Num?
    ensures r.Num? ==> r.value == m.value * c
  {
    if m.Num? then Num(m.value * c) else Undefined
  }

  /** The LV cavity volume of every frame. */
  function LvCurve(seg: Cine, vpp: real): (curve: seq<real>)
    ensures |curve| == |seg|
    ensures forall t :: 0 <= t < |seg| ==> curve[t] == seg[t].lvCavity as real * vpp
  {
    seq(|seg|, t requires 0 <= t < |seg| => seg[t].lvCavity as real * vpp)
  }

  /** `np.argmin`: the first index of a smallest element. */
  function FirstArgMin(curve: seq<real>): (k: nat)
    requires |curve| > 0
    ensures k < |curve|
    ensures forall j :: 0 <= j < |curve| ==> curve[k] <= curve[j]
    ensures forall j :: 0 <= j < k ==> curve[k] < curve[j]
  {
    if |curve| == 1 then 0
    else
      var k := FirstArgMin(curve[..|curve| - 1]);
      assert forall j :: 0 <= j < |curve| - 1 ==> curve[..|curve| - 1][j] == curve[j];
      if curve[|curve| - 1] < curve[k] then |curve| - 1 else k
  }

  /** End-systole: the first frame of smallest LV cavity volume.
      End-diastole is frame 0. */
  function EsFrame(seg: Cine, vpp: real): (es: nat)
    ensures es < |seg|
  {
    FirstArgMin(LvCurve(seg, vpp))
  }

  /** The volumes measured on the ED frame (frame 0) and the ES frame. */
  datatype Volumes = Volumes(lvedv: real, lvesv: real, lvedm: real, rvedv: real, rvesv: real)

  function MeasureVolumes(h: CineHeader, seg: Cine): Volumes {
    var vpp := VoxelVolume(h);
    var es := EsFrame(seg, vpp);
    Volumes(seg[0].lvCavity as real * vpp, seg[es].lvCavity as real * vpp,
            seg[0].myocardium as real * vpp * Density,
            seg[0].rvCavity as real * vpp, seg[es].rvCavity as real * vpp)
  }

  /** The ten values of a row, in column order: LVEDV (mL), LVESV (mL),
      LVSV (mL), LVEF (%), LVCO (L/min), LVM (g), RVEDV (mL), RVESV (mL),
      RVSV (mL), RVEF (%). */
  function RowOfVolumes(v: Volumes, hr: Measure): seq<Measure> {
    var lvsv := v.lvedv - v.lvesv;
    var rvsv := v.rvedv - v.rvesv;
    [Num(v.lvedv), Num(v.lvesv), Num(lvsv), Scale(Ratio(lvsv, v.lvedv), 100.0), Scale(hr, lvsv * 0.001),
     Num(v.lvedm), Num(v.rvedv), Num(v.rvesv), Num(rvsv), Scale(Ratio(rvsv, v.rvedv), 100.0)]
  }

  function VolumeRow(h: CineHeader, seg: Cine): seq<Measure> {
    RowOfVolumes(MeasureVolumes(h, seg), HeartRate(h))
  }

  /** A subject gets a row exactly when both images exist. */
  function VentricularRow(s: SaSubject): (row: Option<seq<Measure>>)
    ensures row.Some? <==> s.image.Some? && s.seg.Some?
    ensures row.Some? ==> |row.value| == 10
  {
    if s.image.Some? && s.seg.Some? then Some(VolumeRow(s.image.value, s.seg.value)) else None
  }

  /** A percentage: `num / den * 100`, undefined when den is zero. */
  lemma Percentage(num: real, den: real)
    ensures var p := Scale(Ratio(num, den), 100.0);
      && (p.Num? <==> den != 0.0)
      && (p.Num? ==> p.value * den == num * 100.0)
  {
    if den != 0.0 {
      var q := num / den;
      assert q * den == num;
      assert (q * 100.0) * den == (q * den) * 100.0;
    }
  }

  /** How the cells of a row relate: the stroke volume is the ED volume
      minus the ES volume, the ejection fraction is the stroke volume in
      percent of the ED volume (undefined for an empty ED cavity), the
      cardiac output is stroke volume times heart rate in L/min, and every
      other cell is one of the measured volumes. */
  lemma RowCells(v: Volumes, hr: Measure)
    ensures var row := RowOfVolumes(v, hr);
      && |row| == 10
      && row[0] == Num(v.lvedv) && row[1] == Num(v.lvesv)
      && row[2] == Num(v.lvedv - v.lvesv)
      && (row[3].Num? <==> v.lvedv != 0.0)
      && (row[3].Num? ==> row[3].value * v.lvedv == (v.lvedv - v.lvesv) * 100.0)
      && (row[4].Num? <==> hr.Num?)
      && (row[4].Num? ==> row[4].value == (v.lvedv - v.lvesv) * hr.value * 0.001)
      && row[5] == Num(v.lvedm) && row[6] == Num(v.rvedv) && row[7] == Num(v.rvesv)
      && row[8] == Num(v.rvedv - v.rvesv)
      && (row[9].Num? <==> v.rvedv != 0.0)
      && (row[9].Num? ==> row[9].value * v.rvedv == (v.rvedv - v.rvesv) * 100.0)
  {
    Percentage(v.lvedv - v.lvesv, v.lvedv);
    Percentage(v.rvedv - v.rvesv, v.rvedv);
  }

  /** The ES frame minimises the LV cavity volume, frame 0 included, so the
      LV stroke volume is never negative. */
  lemma LvStrokeVolumeNonNegative(h: CineHeader, seg: Cine)
    ensures VolumeRow(h, seg)[2].Num? && VolumeRow(h, seg)[2].value >= 0.0
  {
    var vpp := VoxelVolume(h);
    var v := MeasureVolumes(h, seg);
    assert v.lvesv <= v.lvedv by {
      var curve := LvCurve(seg, vpp);
      assert curve[EsFrame(seg, vpp)] <= curve[0];
    }
    RowCells(v, HeartRate(h));
  }

  /** With a positive voxel volume and a non-empty LV cavity at ED, the LV
      ejection fraction is defined and lies between 0 and 100. */
  lemma LvEjectionFractionBounded(h: CineHeader, seg: Cine)
    requires VoxelVolume(h) > 0.0 && seg[0].lvCavity > 0
    ensures VolumeRow(h, seg)[3].Num?
    ensures 0.0 <= VolumeRow(h, seg)[3].value <= 100.0
  {
    var vpp := VoxelVolume(h);
    var v := MeasureVolumes(h, seg);
    RowCells(v, HeartRate(h));
    LvStrokeVolumeNonNegative(h, seg);
    assert v.lvedv > 0.0;
    assert v.lvesv >= 0.0;
    FractionBounded(VolumeRow(h, seg)[3].value, v.lvedv, v.lvedv - v.lvesv);
  }

  lemma FractionBounded(p: real, den: real, num: real)
    requires den > 0.0 && 0.0 <= num <= den && p * den == num * 100.0
    ensures 0.0 <= p <= 100.0
  {
  }

  /** Two curves whose values compare alike have the same np.argmin. */
  lemma SameOrderSameArgMin(a: seq<real>, b: seq<real>)
    requires |a| == |b| > 0
    requires forall i, j :: 0 <= i < |a| && 0 <= j < |a| ==> (a[i] <= a[j] <==> b[i] <= b[j])
    ensures FirstArgMin(a) == FirstArgMin(b)
  {
  }

  /** np.argmin of the LV volumes is the frame of fewest LV voxels when the
      voxel volume is positive: scaling does not move the ES frame. */
  lemma ScaledArgMin(seg: Cine, vpp: real)
    requires vpp > 0.0
    ensures EsFrame(seg, vpp) == EsFrame(seg, 1.0)
  {
    var a, b := LvCurve(seg, vpp), LvCurve(seg, 1.0);
    forall i, j | 0 <= i < |seg| && 0 <= j < |seg| ensures a[i] <= a[j] <==> b[i] <= b[j] {
      ScaleOrder(b[i], b[j], vpp);
    }
    SameOrderSameArgMin(a, b);
  }

  lemma ScaleOrder(x: real, y: real, c: real)
    requires c > 0.0
    ensures x * c <= y * c <==> x <= y
  {
    if x <= y {
      assert (y - x) * c >= 0.0;
    } else {
      assert (x - y) * c > 0.0;
    }
  }

  /** The LV curve 100, 80, 60, 70, 90 has its ES frame at 2. */
  lemma EsFrameExample()
    ensures FirstArgMin([100.0, 80.0, 60.0, 70.0, 90.0]) == 2
  {
    var c := [100.0, 80.0, 60.0, 70.0, 90.0];
    var k := FirstArgMin(c);
    assert c[2] == 60.0;
    assert c[k] <= c[2];
  }

  /** An LV cavity of 120 mL at ED and 40 mL at ES: stroke volume 80 mL,
      ejection fraction 200/3 %, cardiac output 4.8 L/min at one second
      per cycle of two 0.5 s frames. */
  lemma EjectionFractionExample(h: CineHeader, seg: Cine)
    requires h == CineHeader(10.0, 10.0, 10.0, 2, 0.5)
    requires seg == [FrameCounts(120, 0, 0), FrameCounts(40, 0, 0)]
    ensures var row := VolumeRow(h, seg);
      row[0] == Num(120.0) && row[1] == Num(40.0) && row[2] == Num(80.0) &&
      row[3] == Num(200.0 / 3.0) && row[4] == Num(4.8)
  {
    ExampleVolumes(h, seg);
    var row := RowOfVolumes(Volumes(120.0, 40.0, 0.0, 0.0, 0.0), Num(60.0));
    assert row[3] == Scale(Ratio(80.0, 120.0), 100.0);
    assert Ratio(80.0, 120.0) == Num(2.0 / 3.0);
    assert row[4] == Scale(Num(60.0), 80.0 * 0.001);
  }

  /** The volumes of the two-frame examples: a voxel of 1 mL, ES on frame
      1, and a heart rate of 60 beats per minute. */
  lemma ExampleVolumes(h: CineHeader, seg: Cine)
    requires h == CineHeader(10.0, 10.0, 10.0, 2, 0.5)
    requires |seg| == 2 && seg[0].lvCavity == 120 && seg[1].lvCavity == 40
    ensures MeasureVolumes(h, seg) ==
      Volumes(120.0, 40.0, seg[0].myocardium as real * Density, seg[0].rvCavity as real, seg[1].rvCavity as real)
    ensures HeartRate(h) == Num(60.0)
  {
    assert VoxelVolume(h) == 1.0;
    var curve := LvCurve(seg, 1.0);
    assert curve[0] == 120.0 && curve[1] == 40.0;
    assert EsFrame(seg, 1.0) == 1;
    assert h.frames as real * h.frameDuration == 1.0;
  }

  /** The ES frame is chosen on the LV alone, so nothing bounds the RV
      stroke volume: here it is negative. */
  lemma RvStrokeVolumeCanBeNegative(h: CineHeader, seg: Cine)
    requires h == CineHeader(10.0, 10.0, 10.0, 2, 0.5)
    requires seg == [FrameCounts(120, 0, 50), FrameCounts(40, 0, 90)]
    ensures VolumeRow(h, seg)[8] == Num(-40.0)
  {
    ExampleVolumes(h, seg);
  }

  /** One run of the script with `--output_csv` set to `outputCsv`: its
      batch files sit in the directory part of that path, whose contents are
      `dir`, and are named from its base name. `subjects` gives what each
      subject directory holds; the listing of the data directory is the
      run's other input. */
  method EvaluateVentricularVolume(dir: Directory, outputCsv: string, outputDirExists: bool, dataDirExists: bool,
      listing: seq<string>, subjects: string -> SaSubject)
    returns (ok: bool, out: Directory, first: nat, processed: nat, skipped: nat)
    ensures ok == ('/' in outputCsv && outputDirExists && dataDirExists && ScanSucceeds(dir, BatchPrefix(outputCsv)))
    ensures !ok ==> out == dir
    ensures ok ==> var prefix := BatchPrefix(outputCsv);
      var order := Sort(Visible(listing));
      var rows := Produced(order, MatchableIds(dir, prefix), name => VentricularRow(subjects(name)));
      && IsNextBatch(dir, prefix, first)
      && out == WriteBatches(dir, prefix, first, Chunks(rows))
      && processed == |rows|
      && skipped == SkippedCount(order, MatchableIds(dir, prefix))
  {
    // `os.path.dirname` is empty for a bare file name, and listing '' raises.
    var listable := '/' in outputCsv && outputDirExists;
    ok, out, first, processed, skipped :=
      RunBatches(dir, BatchPrefix(outputCsv), listable, dataDirExists, listing, name => VentricularRow(subjects(name)));
  }
}

=== FILE: wall_thickness.dfy ===
/** The batch run of `short_axis/eval_wall_thickness.py`: one row of
    myocardial wall thickness per subject whose ED segmentation exists and
    passes quality control. The thickness computation itself lives in a
    library the script calls; its output file is an input of the model. */
module WallThickness {
  import opened Wrappers
  import opened Measures
  import opened Checkpoint
  import opened Sorting
  import opened BatchDriver


  /** A subject directory as the script sees it: whether `seg_sa_ED.nii.gz`
      exists, whether it passes the quality check, and the `Thickness`
      column of `wall_thickness_ED.csv` when that file exists after the
      evaluation step. */
  datatype WtSubject = WtSubject(hasSegEd: bool, passesQc: bool, thickness: Option<seq<real>>)

  /** The row recorded for a subject, if any: the evaluation runs only on a
      segmentation that exists and passes quality control, and the row is
      the thickness file's column. */
  function WallThicknessRow(s: WtSubject): (row: Option<seq<Measure>>)
    ensures row.Some? <==> s.hasSegEd && s.passesQc && s.thickness.Some?
    ensures row.Some? ==> |row.value| == |s.thickness.value|
    ensures row.Some? ==> forall i :: 0 <= i < |row.value| ==> row.value[i] == Num(s.thickness.value[i])
  {
    if s.hasSegEd && s.passesQc && s.thickness.Some? then
      Some(seq(|s.thickness.value|, i requires 0 <= i < |s.thickness.value| => Num(s.thickness.value[i])))
    else None
  }

  /** One run of the script with `--output_csv` set to `outputCsv`, over the
      listing of the data directory; `dir` holds the contents of the
      directory part of `outputCsv`. */
  method EvaluateWallThickness(dir: Directory, outputCsv: string, outputDirExists: bool, dataDirExists: bool,
      listing: seq<string>, subjects: string -> WtSubject)
    returns (ok: bool, out: Directory, first: nat, processed: nat, skipped: nat)
    ensures ok == ('/' in outputCsv && outputDirExists && dataDirExists && ScanSucceeds(dir, BatchPrefix(outputCsv)))
    ensures !ok ==> out == dir
    ensures ok ==> var prefix := BatchPrefix(outputCsv);
      var order := Sort(Visible(listing));
      var rows := Produced(order, MatchableIds(dir, prefix), name => WallThicknessRow(subjects(name)));
      && IsNextBatch(dir, prefix, first)
      && out == WriteBatches(dir, prefix, first, Chunks(rows))
      && processed == |rows|
      && skipped == SkippedCount(order, MatchableIds(dir, prefix))
  {
    // `os.path.dirname` is empty for a bare file name, and listing '' raises.
    var listable := '/' in outputCsv && outputDirExists;
    ok, out, first, processed, skipped :=
      RunBatches(dir, BatchPrefix(outputCsv), listable, dataDirExists, listing, name => WallThicknessRow(subjects(name)));
  }

  /** A subject whose segmentation is missing or fails quality control is
      neither recorded nor counted as skipped, so the next run tries it
      again. */
  lemma QcFailureRetried(dir: Directory, prefix: string, first: nat, listing: seq<string>,
                         subjects: string -> WtSubject, name: string)
    requires ScanSucceeds(dir, prefix) && IsNextBatch(dir, prefix, first)
    requires name !in CompletedIds(dir, prefix)
    requires !subjects(name).hasSegEd || !subjects(name).passesQc
    ensures var rowOf := (x: string) => WallThicknessRow(subjects(x));
      var out := WriteBatches(dir, prefix, first, Chunks(Produced(Sort(Visible(listing)), MatchableIds(dir, prefix), rowOf)));
      name !in CompletedIds(out, prefix)
  {
    var rowOf := (x: string) => WallThicknessRow(subjects(x));
    FailedSubjectRetried(dir, prefix, first, Sort(Visible(listing)), rowOf, name);
  }
}

=== FILE: wrappers.dfy ===
/** The optional value used wherever a Python script yields `None`, a value
    that may be absent, or raises on input it cannot take. */
module Wrappers {

  datatype Option<+T> = None | Some(value: T)
}
